=== FILE: README.md ===
# cpp-decimal in Dafny

A model of the fixed-point decimal type of cpp-decimal, with proofs about it.
The type is `Decimal<nPlaces, S>` in `include/decimal.hpp`. An older header,
`include/udecimal.hpp`, is a snapshot of the same type and is modelled as a
variant of it.

A value is held as one native integer `fp`: `int64_t` for signed storage and
`uint64_t` for unsigned storage. The number it stands for is
`fp / 10^nPlaces`.

The model covers these parts of the header:

- the power-of-ten table;
- the bounds `MAX` and `MIN`;
- the constructors from an integer with a point shift, from an exponent and
  from a string;
- the arithmetic operators `+`, `+=`, `-`, `-=`, `*` and `/`;
- `to_str`, `to_string()`, `to_string(decimals)` and `to_int`;
- `round`;
- `convert_precision`;
- the binary codec: `encode_binary`, `decode_binary` and
  `decode_binary_data`.

The Dafny modules follow the header's structure:

- `Numbers`: powers of ten, C++ truncating division (`TDiv`, `TMod`), and
  rounding half away from zero.
- `Native`: `int64_t`/`uint64_t` ranges, and wrap-around modulo 2^64.
- `Outcomes`: the thrown exceptions as a `Result`.
- `Decimals`: the type parameters (`Config`), `scale`, `MAX`/`MIN`, and
  the range invariant.
- `Digits`: decimal digit strings.
- `Arith`: the operators and the helpers `mul` and `div`.
- `Construct`: `newI`, `Decimal(i, n)` and `FromExp`.
- `Rounding`: `round` and `convert_precision`.
- `Format`: `to_str` and the `to_string` variants.
- `Parsing`: the string constructor.
- `ParseCases`: concrete inputs of the string constructor.
- `Codec`: the binary codec.

A `Config(places, sign, header)` names one instantiation. `header` is
`Current` for `decimal.hpp` and `Snapshot` for `udecimal.hpp`. Each
operation is a pure function of the configuration and `fp`. A thrown
exception becomes an `Err` outcome: `Overflow`, `TooLarge`,
`DivisionByZero`, `InvalidInput`, `OutOfRange` or `InvalidExponent`.

Every native operation that can leave the native range goes through
`Wrap`, which reduces modulo 2^64. For `uint64_t` that is the language's
rule. For `int64_t` it is what the compiled two's-complement code does,
although the language leaves it undefined.

Where the code does something other than what its comments, tests or
evident design promise, both versions are modelled:

- an `AsWritten` member that does what the code does;
- a corrected member that the rest of the model uses.

The section "Findings" pairs them. In each disagreement the code is followed.
For example, the comment on `Decimal(i, n)` says the extra digits are
truncated, but `newI` rounds them half away from zero, so the model rounds.

## Model

| member | source | states |
|---|---|---|
| Native.Pow10Table | include/decimal.hpp:72-131 | the table lookup succeeds exactly for exponents up to 19 (`uint64_t`) or 18 (`int64_t`) and then yields 10^e, a native value; past the table it fails with InvalidExponent |
| Native.TableFits | include/decimal.hpp:72-131 | every table entry fits its native type and the first power past the table does not |
| Decimals.Scale | include/decimal.hpp:159 | scale = 10^nPlaces is a native value for every valid instantiation |
| Decimals.MaxRealFormula | include/decimal.hpp:139-141 | MAX is 10^(digits - nPlaces) - 1 plus the proper fraction (scale - 1) / scale |
| Decimals.CompareWithMax | include/decimal.hpp:218-221 | comparing an integer with MAX, or its negation with MIN, is the same as comparing it with MAX's integer part |
| Decimals.MaxIntPartScaled | include/decimal.hpp:139-141 | MAX's integer part times scale, plus scale - 1, is 10^digits - 1, the largest fp the bounds admit |
| Decimals.MaxIntPartFits | include/decimal.hpp:160-165 | MAX's integer part is a native value; for `int64_t` it is below 2^63 |
| Decimals.MaxScaledFits | include/decimal.hpp:160-165 | the largest admitted fp and its negation fit the native type, and scale and MAX's integer part are no larger |
| Decimals.WithinBoundsIsMinMax | include/decimal.hpp:143-148 | the invariant WithinBounds on fp is exactly MIN <= fp / scale <= MAX together with the native range, for both headers |
| Decimals.UpperIsMax | include/decimal.hpp:161 | fp is at most MAX scaled iff fp is at most 10^digits - 1 |
| Decimals.LowerIsMin | include/udecimal.hpp:140 | where MIN is -MAX (signed storage, or the snapshot header), MIN scaled is -(10^digits - 1) |
| Arith.Add | include/decimal.hpp:281-297 | operator+ as written fails with Overflow exactly when two same-signed operands' fp sum passes MAX's integer part (MIN's on the negative side), because the guard compares fp with MAX in whole units; otherwise it is the exact sum |
| Arith.AddBounded | include/decimal.hpp:281-297 | the intended operator+: between operands inside MIN..MAX it fails with Overflow exactly when the sum leaves MIN..MAX; any result it gives is the exact sum |
| Arith.AddCommutes | include/decimal.hpp:281-297 | operator+ gives the same outcome with its operands swapped |
| Arith.AddRejectsSmallSum | include/decimal.hpp:292-294 | 1000 plus 10^-8 in 8-place unsigned storage fails in the code, while the intended result is 1000.00000001 |
| Arith.AddAssignAsWritten | include/decimal.hpp:300-306 | operator+= as written: for unsigned storage it fails exactly when the sum leaves `uint64_t` and otherwise is the sum; the result is always native |
| Arith.AddAssign | include/decimal.hpp:300-306 | the intended operator+=: it fails only when the exact sum leaves the native type, and otherwise is that sum |
| Arith.AddAssignUnsignedAgrees | include/decimal.hpp:300-306 | for unsigned storage the code and the intended operator+= agree on every input |
| Arith.AddAssignSignedRejectsZeroSum | include/decimal.hpp:301 | for signed storage, -10^-8 += 10^-8 fails in the code, while the intended result is 0 |
| Arith.Sub | include/decimal.hpp:309-324 | operator- as written, for signed storage: while fp - f0.fp is native, it fails exactly when opposite-signed operands' difference passes MAX's or MIN's integer part (whole units again), and is the difference otherwise; when the difference leaves `int64_t` it returns the wrapped difference without Overflow. For unsigned storage it fails exactly when fp < f0.fp, and is the difference otherwise |
| Arith.SubBounded | include/decimal.hpp:309-324 | the intended operator-: between operands inside MIN..MAX it fails with Overflow exactly when the difference leaves MIN..MAX; any result it gives is the exact difference |
| Arith.SubRejectsSmallDifference | include/decimal.hpp:311-313 | 50.00000001 - (-50) in 8-place signed storage fails in the code, while the intended result is 100.00000001 |
| Arith.SubWrapsPastGuard | include/decimal.hpp:311-317 | INT64_MAX - (-1) in 8-place signed storage wraps to INT64_MIN before the guard and is returned, while the intended result is Overflow |
| Arith.SubInBoundsNoWrap | include/decimal.hpp:317 | between values inside MIN..MAX the signed difference never wraps |
| Arith.SubAssignAsWritten | include/decimal.hpp:327-333 | operator-= as written fails exactly when fp < f0.fp, for both storages, and otherwise is the difference |
| Arith.SubAssign | include/decimal.hpp:327-333 | the intended operator-=: it fails only when the difference leaves the native type |
| Arith.SubUnsignedAgrees | include/decimal.hpp:319-332 | for unsigned storage, operator-=, the intended operator-= and operator- agree |
| Arith.SubAssignSignedRejectsNegative | include/decimal.hpp:328 | for signed storage, 10^-8 -= 2 * 10^-8 fails in the code, while the intended result is -10^-8 |
| Arith.MulDecomposition | include/decimal.hpp:532-549 | splitting both operands into whole part and remainder and recombining the four terms gives x * y / scale truncated |
| Arith.MulAsWritten | include/decimal.hpp:531-553 | mul as written: it fails only when f0 has a whole part, with Overflow, and always yields a native value |
| Arith.CombinePartsExact | include/decimal.hpp:540-550 | when the terms stay native, mul's combination is the exact sum of the four terms, or Overflow when fp_a * fp0_a passes MAX's integer part |
| Arith.MulAsWrittenExact | include/decimal.hpp:531-553 | when the truncated product and the remainder product are native, mul yields x * y / scale truncated, or Overflow exactly when the whole parts' product passes MAX's integer part |
| Arith.Mul | include/decimal.hpp:335 | the intended operator*: the truncated quotient of x * y by scale, failing with Overflow exactly when that quotient is outside MIN..MAX |
| Arith.MulGuardQuietInBounds | include/decimal.hpp:541-544 | when the true product lies inside MIN..MAX, the guard on the whole parts never fires |
| Arith.MulAgreesInBounds | include/decimal.hpp:531-553 | inside MIN..MAX, with a native remainder product, the code and the intended operator* agree |
| Arith.MulCrossTermsPastMax | include/decimal.hpp:538-550 | 99999999999.5 * 1.5 in 8-place unsigned storage passes the whole-part guard and returns 149999999999.25, past MAX, while the intended result is Overflow |
| Arith.MulWrapsPastGuard | include/decimal.hpp:541-545 | 2^32 * 2^32 in 8-place unsigned storage wraps the whole-part product to 0, which passes the guard, so the code yields 0; the intended result is Overflow |
| Arith.MulFractionTermWraps | include/decimal.hpp:549 | 0.5 * 0.5 in 10-place unsigned storage wraps the remainder product, so the code yields 0.0655325592 instead of 0.25 |
| Arith.DivAsWritten | include/decimal.hpp:559-585 | div fails with DivisionByZero exactly for a zero divisor, and with Overflow exactly when the 128-bit quotient passes the native maximum |
| Arith.DivAsWrittenRounds | include/decimal.hpp:565-584 | when the rounded quotient is native, div yields x * scale / y rounded half away from zero |
| Arith.RoundStepExact | include/decimal.hpp:573-584 | the remainder test and the +1 / -1 adjustment on the sign of fp ^ f0 compute the half-away rounding of the quotient |
| Arith.Div | include/decimal.hpp:343 | the intended operator/: DivisionByZero exactly for a zero divisor; otherwise the unique nearest quotient, ties away from zero, and Overflow exactly when no such quotient is native |
| Arith.DivAgreesInRange | include/decimal.hpp:559-585 | whenever the rounded quotient is native, the code and the intended operator/ agree |
| Arith.DivMissesLowerBound | include/decimal.hpp:569 | dividing -10^9 by 10^-8 in 8-place signed storage passes the upper-only check and wraps; the intended result is Overflow |
| Arith.DivByScale | include/decimal.hpp:559-585 | dividing by one whole unit gives the value back |
| Arith.ToInt | include/decimal.hpp:392 | to_int is fp / scale truncated toward zero |
| Native.Wrap | include/decimal.hpp:289 | native arithmetic: the result is a native value congruent to the exact one modulo 2^64, and equal to it when that is native |
| Numbers.TDivIsTruncated | include/decimal.hpp:392 | C++ integer division truncates toward zero: q * den lies on the dividend's side of zero, and \|q * den\| <= \|num\| < \|q * den\| + \|den\| |
| Numbers.RoundHalfAwayIsNearest | include/decimal.hpp:573-584 | rounding half away from zero gives a nearest integer quotient, ties away from zero |
| Numbers.NearestHalfAwayUnique | include/decimal.hpp:573-584 | the nearest quotient with ties away from zero is unique |
| Numbers.RoundFromRemainder | include/decimal.hpp:565-584 | the quotient truncated, plus one step away from zero when twice the remainder reaches the divisor, is the half-away rounding |
| Numbers.BiasedDivision | include/decimal.hpp:594-603 | adding half of an even power on the value's side of zero and dividing truncating rounds half away from zero |
| Construct.NewI | include/decimal.hpp:591-608 | newI fails exactly when the shift passes nPlaces by more than the table holds; up to nPlaces it multiplies exactly; past nPlaces it rounds the dropped digits half away from zero |
| Construct.DropDigits | include/decimal.hpp:592-604 | dropping k digits with the half-divisor bias gives the nearest value, ties away from zero, whenever the biased value is native |
| Construct.NewIRoundsExamples | test/decimal_test.cpp:238-239 | Decimal<3>(123, 5) is 0.001, and its signed negative is -0.001 |
| Construct.FromExp | include/decimal.hpp:266-273 | FromExp as written: a non-negative exponent past the table fails with InvalidExponent; otherwise, while the factors and their product are native, it is value * 10^exp scaled, or Overflow when value * 10^exp passes MAX's integer part; a negative exponent is newI's shift, rounding half away |
| Construct.FromExpProduct | include/decimal.hpp:269 | mul of value * scale and 10^exp * scale gives value * 10^exp * scale, or Overflow past MAX's integer part |
| Construct.FromExpBounded | include/decimal.hpp:266-273 | the intended FromExp: for a non-negative exponent within the table it succeeds exactly when value * 10^exp lies in MIN..MAX; a negative exponent is as written |
| Construct.FromExpAgrees | include/decimal.hpp:266-273 | inside MIN..MAX the code and the intended FromExp agree and give value * 10^exp scaled |
| Construct.FromExpBelowMin | include/decimal.hpp:269 | FromExp(-2 * 10^10, 0) in 8-place signed storage yields -2 * 10^10, below MIN, in the code; the intended result is Overflow |
| Construct.FromExpExamples | test/decimal_test.cpp:151-167 | FromExp(123, 1) is 1230, and FromExp(123456789012, -9) is 123.45678901 |
| Rounding.Round | include/decimal.hpp:396-424 | round(n) keeps the value for n >= nPlaces; it truncates to a whole number for n = 0; otherwise, when that multiple is native, it gives the nearest multiple of 10^(nPlaces - n), ties away from zero |
| Rounding.RoundAt | include/decimal.hpp:396-424 | for a negative n, round fails with InvalidExponent exactly when 10^(nPlaces - n) is past the table, and otherwise truncates to a whole number as round(0) does |
| Rounding.FractionBelowPower | include/decimal.hpp:405-418 | with a power past scale, the biased fraction divides to zero, so nothing of it is kept |
| Rounding.TruncateToWhole | include/decimal.hpp:401-403 | fp - fp % scale is native and is the whole part, truncated toward zero, scaled |
| Rounding.RoundBranchNearest | include/decimal.hpp:405-423 | the native steps of the 0 < n < nPlaces branch compute x rounded half away from zero to a multiple of 10^(nPlaces - n) whenever that multiple is native |
| Rounding.RoundIdempotent | include/decimal.hpp:396-424 | rounding an already rounded value to the same n changes nothing |
| Rounding.RoundKeepsMultiple | include/decimal.hpp:405-423 | a value that is already a multiple of 10^(nPlaces - n) is kept by round(n) |
| Rounding.RoundExamples | test/decimal_test.cpp:1013-1067 | in 8-place signed storage, 1.12345 rounds to 1.1235 at 4 places and -1.12345 rounds to -1.1235; at 2 places 1.12345 rounds to 1.12 |
| Rounding.RoundMoreExamples | test/decimal_test.cpp:1046-1078 | -0.0001234 rounds to 0 at 2 places; 123456789.987654321 rounds to 123456789.988 at 3 places and to 123456789 at 0 |
| Rounding.ConvertPrecision | include/decimal.hpp:430-453 | same places copy fp; fewer places round the dropped digits half away from zero; more places fail exactly when fp times the factor leaves the native type and otherwise multiply exactly |
| Rounding.DivByScaleAsWritten | include/decimal.hpp:436 | div(fp, scale) as written is fp itself, so narrowing hands fp to newI unchanged |
| Rounding.WideningGuard | include/decimal.hpp:443-450 | the checks against max / factor and min / factor fail exactly when fp * factor leaves the native type |
| Rounding.WidenThenNarrow | include/decimal.hpp:430-453 | widening a value to more places and narrowing it back gives the value again |
| Rounding.NarrowExact | include/decimal.hpp:434-436 | narrowing a value that is an exact multiple of the dropped power divides exactly |
| Rounding.ConvertPrecisionNarrowExample | test/decimal_test.cpp:1225-1227 | 1.126 in 8-place unsigned storage narrows to 1.13 at 2 places |
| Rounding.ConvertPrecisionSignedExample | include/decimal.hpp:434-436 | -1.125 in 3-place signed storage narrows to -1.13 at 2 places |
| Rounding.SnapshotSignedNarrowWraps | include/udecimal.hpp:411-413 | the snapshot header narrows into an unsigned target, so signed -1.00 at 2 places reads as 2^64 - 100 and rounds to (2^64 - 95) / 10 |
| Rounding.SnapshotAgreesUnsigned | include/udecimal.hpp:407-425 | for unsigned storage, the snapshot's convert_precision and the current header's agree |
| Rounding.NewIHeader | include/udecimal.hpp:563-580 | the snapshot's newI agrees with the current header's |
| Format.ToStr | include/decimal.hpp:610-647 | to_str writes '-' exactly for negative fp, the whole part in digits without leading zeros, a point, and exactly nPlaces fraction digits, which together spell \|fp\| / scale and \|fp\| % scale |
| Format.ToStrBuffer | include/decimal.hpp:610-647 | the 25-character buffer loop produces exactly ToStr's text, which fits the buffer |
| Format.WriteDigits | include/decimal.hpp:623-635 | the digit loop leaves the leading digit and the written tail, which together spell the value with the point at nPlaces |
| Format.ToStrText | include/decimal.hpp:610-647 | to_str is the sign, the digits of fp / scale, a point, and fp % scale padded to nPlaces digits |
| Format.FindPoint | include/decimal.hpp:361 | the first point in to_str is nPlaces + 1 characters from its end |
| Format.ToString | include/decimal.hpp:358-375 | to_string is the longest prefix of to_str that drops only trailing fraction zeros and a bare point |
| Format.TrimFrom | include/decimal.hpp:366-374 | the trailing-zero scan stops at the last non-zero fraction digit, or at the point when there is none |
| Format.ToStringDecimals | include/decimal.hpp:377-390 | to_string(d) is the whole part for d = 0, the whole part and d fraction digits for 0 < d <= nPlaces, and all of to_str when d reaches nPlaces; a negative d shortens the prefix and, once the cut passes the start, wraps around to all of to_str |
| Format.SizeT | include/decimal.hpp:388 | the size_t conversion of the cut position is its value modulo 2^64 |
| Format.ToStrLength | include/decimal.hpp:623 | to_str is shorter than 64 characters for every printable value |
| Format.Find | include/decimal.hpp:361 | find returns the first position of the character, or none exactly when it does not occur |
| Format.ToStrExample | include/decimal.hpp:610-647 | 1.50 in 2-place unsigned storage prints as "1.50" |
| Format.ToStringExample | include/decimal.hpp:358-375 | 1.50 in 2-place unsigned storage prints as "1.5" |
| Format.ToStrNegativeExample | include/decimal.hpp:617-644 | -0.05 in 2-place signed storage prints as "-0.05" |
| Format.ToStrZeroExample | include/decimal.hpp:611-613 | zero in 2-place storage prints as "0.00" |
| Format.ToStringZeroExample | include/decimal.hpp:366-374 | zero in 2-place storage prints as "0" |
| Format.ToStringDecimalsOneExample | include/decimal.hpp:387-389 | 12.345 with one decimal prints as "12.3" |
| Format.ToStringDecimalsZeroExample | include/decimal.hpp:385-386 | 12.345 with no decimals prints as "12" |
| Format.ToStringDecimalsMinusOneExample | include/decimal.hpp:387-389 | 12.345 with -1 decimals prints as "12" |
| Format.ToStringDecimalsMinusTwoExample | include/decimal.hpp:387-389 | 12.345 with -2 decimals prints as "1" |
| Parsing.SpaceRun | include/decimal.hpp:523-529 | the number of leading white-space characters that stoll and stoull skip |
| Parsing.Numeral | include/decimal.hpp:523-529 | the digit run stoll and stoull read after the white space and sign |
| Parsing.ParseInteger | include/decimal.hpp:523-529 | parseInteger fails with InvalidInput exactly when no digit follows the sign; it fails with OutOfRange exactly when the magnitude passes the native type (2^63 for a negative signed text); otherwise it is the digits' value, negated for a '-', with unsigned negation wrapping modulo 2^64 |
| Parsing.IntegerRoundTrip | include/decimal.hpp:523-529 | reading back the sign and digits of any native integer gives the integer |
| Parsing.ParseDigits | include/decimal.hpp:523-529 | a plain digit string within the native range reads as its value |
| Parsing.FractionText | include/decimal.hpp:254-256 | the fraction text is padded with zeros or cut to exactly nPlaces characters |
| Parsing.FractionRange | include/decimal.hpp:254-256 | the padded fraction reads as a value below scale |
| Parsing.WholePart | include/decimal.hpp:215-228 | the no-point branch's integer is native and within MAX's integer part in magnitude (as written, except for INT64_MIN); under the intended reading a '-' makes it non-positive |
| Parsing.PointWhole | include/decimal.hpp:230-253 | the whole part before the point is within MAX's integer part under the intended reading, on the side of zero the '-' gives, and 0 for an unsigned '-' |
| Parsing.Combine | include/decimal.hpp:257-261 | i * scale minus or plus the fraction lies inside MIN..MAX and on the sign's side; for unsigned storage a '-' with a non-zero fraction fails under the intended reading |
| Parsing.ParseWith | include/decimal.hpp:205-263 | the string constructor under either reading yields a native value or one of InvalidInput, OutOfRange and TooLarge |
| Parsing.ParseAsWritten | include/decimal.hpp:205-263 | the string constructor as written yields a native value or one of InvalidInput, OutOfRange and TooLarge |
| Parsing.Parse | include/decimal.hpp:205-263 | the intended string constructor: a text without a point is a whole multiple of scale; a text with digits after its point reads inside MIN..MAX, on the side of zero its sign gives |
| Parsing.ParseIntendedBounds | include/decimal.hpp:205-263 | the intended reading keeps every accepted text inside MIN..MAX and on its sign's side |
| Parsing.WholeTextBounds | include/decimal.hpp:215-228 | an accepted text without a point reads as a multiple of scale inside MIN..MAX, on its sign's side |
| Parsing.PointTextBounds | include/decimal.hpp:229-262 | an accepted text with a point and a digit fraction reads inside MIN..MAX, on its sign's side |
| Parsing.ParseRendered | include/decimal.hpp:229-262 | a sign, the digits of the whole part, a point and digits spelling the fraction read back as the value, under both readings |
| Parsing.ParseToStr | include/decimal.hpp:205-263 | to_str of any value inside MIN..MAX (other than INT64_MIN) reads back as the same value, as written and as intended |
| Parsing.ParseToString | include/decimal.hpp:205-263 | to_string of any value inside MIN..MAX reads back as the same value, as written and as intended |
| Parsing.ToStringReads | include/decimal.hpp:358-375 | the shortened text of to_string, with or without a point, reads back as the value under either reading |
| ParseCases.IntegerText | include/decimal.hpp:215-228 | the digits of n read as n * scale when n is within MAX's integer part and fail with TooLarge otherwise |
| ParseCases.NegativeIntegerText | include/decimal.hpp:217-222 | for signed storage, '-' and the digits of n read as -n * scale within MAX's integer part and fail with TooLarge past it |
| ParseCases.UnsignedNegativeText | include/decimal.hpp:223-227 | for unsigned storage, '-' and a non-zero n below 2^64 fail with TooLarge under the intended reading |
| ParseCases.NoNumeralText | include/decimal.hpp:216 | a text whose integer parser finds no digit fails with InvalidInput |
| ParseCases.MostNegativeWholeWraps | include/decimal.hpp:218-228 | signed "-9223372036854775808" passes the code's checks and scales to 0; the intended result is TooLarge |
| ParseCases.NegatedWholeWraps | include/decimal.hpp:224-228 | unsigned "-18446744073709551615" reads as 1 by stoull and so as one whole unit; the intended result is TooLarge |
| ParseCases.UnsignedMinusFraction | include/decimal.hpp:248-260 | unsigned "-0.5" reads as +0.5 in the code; the intended result is TooLarge |
| ParseCases.SpacedMinusFraction | include/decimal.hpp:233 | signed " -0.5" reads as +0.5 in the code; the intended result is -0.5 |
| ParseCases.U8ReadsEleven | test/decimal_test.cpp:288-307 | 8-place unsigned storage reads "12345678901", eleven digits |
| ParseCases.U8RefusesTwelve | test/decimal_test.cpp:288-307 | 8-place unsigned storage refuses "123456789012" with TooLarge |
| ParseCases.U8NegativeExample | test/decimal_test.cpp:288-307 | 8-place unsigned storage refuses "-12345678901" under the intended reading |
| ParseCases.U8NegativeAsWritten | test/decimal_test.cpp:288-307 | 8-place unsigned storage refuses "-12345678901" as written too, since stoull's wrapped value passes MAX |
| ParseCases.I8ReadsNegativeTen | test/decimal_test.cpp:310-347 | 8-place signed storage reads "-1234567890" |
| ParseCases.I8RefusesEleven | test/decimal_test.cpp:310-347 | 8-place signed storage refuses "12345678901" with TooLarge |
| ParseCases.I8RefusesNegativeEleven | test/decimal_test.cpp:310-347 | 8-place signed storage refuses "-12345678901" with TooLarge |
| ParseCases.PointTenth | test/decimal_test.cpp:360 | ".1" reads as 0.1 in 8-place signed storage, as written and as intended |
| ParseCases.MinusPointTenth | test/decimal_test.cpp:390 | "-.1" reads as -0.1 in 8-place signed storage, as written and as intended |
| ParseCases.InvalidExamples | test/decimal_test.cpp:212-215 | "abc" and ",123456" fail with InvalidInput |
| ParseCases.EightPlaces | include/decimal.hpp:159-161 | with 8 places, scale is 10^8 and MAX's integer part is 10^10 - 1 (signed) or 10^11 - 1 (unsigned) |
| Codec.Groups | include/decimal.hpp:491-504 | the encoder's 7-bit groups: every byte but the last carries the continuation bit 0x80, and the last does not |
| Codec.GroupsRoundTrip | include/decimal.hpp:458-467 | reading the 7-bit groups back, low group first, gives the encoded value |
| Codec.NativeGroups | include/decimal.hpp:491-504 | a 64-bit value takes at most ten groups |
| Codec.Bits | include/decimal.hpp:490 | the 64-bit pattern of fp: fp itself when non-negative, and below 2^64 |
| Codec.EncodeInto | include/decimal.hpp:489-512 | encode_binary (the corrected encoder for negative signed fp) writes the groups and the nPlaces byte at the offset; it grows the vector with zeros where needed, keeps every other byte, and advances the offset past the written bytes |
| Codec.Encode | include/decimal.hpp:515-520 | the fresh encoding is the groups followed by the nPlaces byte, between 2 and 11 bytes |
| Codec.Stop | include/decimal.hpp:460-467 | the decode loop stops at the first byte without the continuation bit before the last byte of the vector |
| Codec.Decode | include/decimal.hpp:457-480 | decode_binary yields a native value and an offset two past the stop byte; it fails with InvalidExponent exactly when the stored places pass nPlaces by more than the table holds; larger stored places divide the value truncating, and smaller ones multiply it exactly when that fits |
| Codec.EncodeDecode | include/decimal.hpp:457-512 | decoding what encode_binary (the corrected encoder for negative signed fp) wrote at an offset gives fp back, with the offset past the written bytes, for every native fp and both storages |
| Codec.DecodeNarrows | include/decimal.hpp:470-472 | decoding at fewer places gives fp divided by the power between the places, truncated toward zero |
| Codec.DecodeScalesUp | include/decimal.hpp:473-475 | decoding at more places gives fp times the power between the places when that fits |
| Codec.DecodeWidens | include/decimal.hpp:473-475 | decoding at more places agrees with convert_precision to those places whenever the conversion succeeds |
| Codec.EncodeAfterPrefix | test/decimal_test.cpp:1369-1379 | encoding at the end of a prefix appends the fresh encoding to the prefix |
| Codec.DecodeLeavesRest | test/decimal_test.cpp:1383-1395 | decode_binary_data on an encoding followed by other bytes gives fp back and an offset at the first of those bytes |
| Codec.EncodeExample | include/decimal.hpp:489-511 | 3.00 in 2-place signed storage encodes as 0xAC 0x02 0x02 |
| Codec.NegativeNeverEnds | include/decimal.hpp:490-504 | as written, the encoder's arithmetic shift keeps a negative value negative, so no number of loop turns ends the loop |
| Codec.ShiftLoopGroups | include/decimal.hpp:490-504 | for a non-negative value the encoder's loop ends and writes exactly the 7-bit groups |

## Left out

- Floating point is not modelled. This leaves out:
  - the `double` constructor, `to_double` and `to_frac`;
  - the `e`/`E` branch of the string constructor, which goes through `std::stod`. `Parsing.Readable` excludes such texts.
  - the `double` fallbacks of `div` and `convert_precision` on compilers without `__int128`. Only the `__int128` branches are modelled.
- `MAX` and `MIN` are `double`s in the source (include/decimal.hpp:139-148). The model takes them as exact reals (`Decimals.MaxReal`): 10^(digits - nPlaces) - 1 + (scale - 1) / scale. That number has 18 or 19 significant digits, more than a `double` holds. So in every instantiation, signed or unsigned, the `double` MAX is exactly 10^(digits - nPlaces), and MIN is its negation where it is not 0. The integer side of each comparison is converted to `double` as well, and above 2^53 that conversion rounds. As a result the source accepts a value whose whole part is exactly 10^(digits - nPlaces), and, with few places, integers near it that round to it. The model refuses them. The members that state such a refusal follow.
- ParseCases.IntegerText and ParseCases.NegativeIntegerText: they state TooLarge for every whole part past MAX's integer part. The source accepts 10^(digits - nPlaces) itself, for example "10000000000" with 8 signed places or "100000000000" with 8 unsigned places.
- Parsing.ParseAsWritten and Parsing.WholePart: the whole-part checks of include/decimal.hpp:218-228 and 240-244 refuse 10^(digits - nPlaces), which the source accepts.
- Arith.Add and Arith.Sub: they fail with Overflow when a same-signed sum, or an opposite-signed difference, is exactly 10^(digits - nPlaces) in scaled units. The source's `double` guards let that value through.
- Arith.MulAsWritten: it fails with Overflow when the whole-part product fp_a * fp0_a is exactly 10^(digits - nPlaces). The source's guard `static_cast<double>(result) > MAX` lets it through. Construct.FromExp, which multiplies with `mul`, inherits this.
- Arith.CombinePartsExact: it states Overflow when fp_a * fp0_a passes MAX's integer part, so also at exactly 10^(digits - nPlaces), where the source's `double` guard continues.
- Arith.MulAsWrittenExact: its "Overflow exactly when the whole parts' product passes MAX's integer part" includes a product of exactly 10^(digits - nPlaces), which the source's `double` guard accepts.
- Construct.FromExpProduct: it states Overflow when value * 10^exp is exactly 10^(digits - nPlaces), which `mul`'s `double` guard accepts.
- The comparison operators, `is_zero`, `operator<<`, the copy constructor and `explicit Decimal(int)` are left out. Each is a one-line use of `fp`.
- The compound assignments `*=` and `/=` are not modelled separately. They assign what `Arith.MulAsWritten` and `Arith.DivAsWritten` compute.
- `std::stoll` and `std::stoull` are modelled by `Parsing.ParseInteger`: white space, one sign, then the longest digit run. Bases, locales and the `0x` prefix are left out.
- Format.ToStr: the most negative `int64_t` value is excluded by `Format.Printable`. For it, `-fp` overflows in `to_str`.
- Rounding.ConvertPrecision: for the snapshot header with signed storage it requires fewer target places. There the copy and the widening branch do not compile. The copy constructor takes an unsigned `Decimal`, and an `int64_t` argument is ambiguous between the `uint64_t` and `double` constructors.
- Construct.FromExp: for a non-negative exponent it states the result only while value * scale, 10^exp * scale and their product are native. Outside that, `mul` wraps its terms, and only `Arith.MulAsWritten`'s native-range guarantee is stated.
- Codec.Decode: it requires a well-formed buffer (`Codec.Decodable`): a stop byte before the last byte and at most ten groups. Otherwise the source reads past the end of the vector or shifts by 64 bits or more, and both are undefined behaviour.
- Codec.Decode: it combines the groups with `+` where the source uses `|`. The shifted groups occupy disjoint bits, so the two agree.
- Codec.Decode: an `Err` result carries no offset. In the source, `decode_binary` takes `offset` by reference and its loop has already moved it to the stop byte when `precomputed_pow_10` throws InvalidExponent (include/decimal.hpp:460-474). A caller that catches the exception finds the offset moved, and the model does not say where. `decode_binary_data` takes the offset by value and is not affected.
- `std::vector` growth is modelled as a sequence that is extended with zero bytes. Allocation failure is left out; apart from it, encoding never throws.
- Construct.FromExp: it requires the exponent to lie strictly between -2^31 and 2^31. An `int` exponent of -2^31 makes `-exp` at include/decimal.hpp:272 overflow, which is undefined behaviour.

## Findings

| source | as written | input that shows it | evidently intended | confidence | as-written member | corrected member |
|---|---|---|---|---|---|---|
| include/decimal.hpp:282-294 | the guards compare the scaled `fp` with `MAX - f0.fp`, where `MAX` is in whole units | 8-place unsigned: 1000 + 0.00000001 is refused | 1000.00000001, refused only past MAX | high; not executed | Arith.AddRejectsSmallSum | Arith.AddBounded |
| include/decimal.hpp:311-316 | the signed guards compare the scaled difference with `MAX` and `MIN`, which are in whole units | 8-place signed: 50.00000001 - (-50) is refused | 100.00000001, refused only past MAX or MIN | high; not executed | Arith.SubRejectsSmallDifference | Arith.SubBounded |
| include/decimal.hpp:301 | `+=` guards with `UINT64_MAX - fp` for both storages, so a signed sum that crosses zero is refused | 8-place signed: -0.00000001 += 0.00000001 | the sum 0, refused only when it leaves the native range | high; not executed | Arith.AddAssignSignedRejectsZeroSum | Arith.AddAssign |
| include/decimal.hpp:328 | `-=` refuses `fp < f0.fp` for both storages, so no signed difference may be negative | 8-place signed: 0.00000001 -= 0.00000002 | -0.00000001 | high; not executed | Arith.SubAssignSignedRejectsNegative | Arith.SubAssign |
| include/decimal.hpp:311-317 | the signed guards compare `fp - f0.fp`, which is evaluated natively and has already wrapped when it leaves `int64_t` | 8-place signed: INT64_MAX - (-1), in fp units, returns INT64_MIN | Overflow | high; not executed | Arith.SubWrapsPastGuard | Arith.SubBounded |
| include/decimal.hpp:541-545 | the overflow guard tests the native product `fp_a * fp0_a`, which can already have wrapped | 8-place unsigned: 4294967296 * 4294967296, where the whole parts' product 2^32 * 2^32 wraps to 0 and the guard passes | Overflow | high; not executed | Arith.MulWrapsPastGuard | Arith.Mul |
| include/decimal.hpp:538-550 | the only guard is on the whole parts' product, so the cross terms can carry the result past MAX without any wrap | 8-place unsigned: 99999999999.5 * 1.5 gives 149999999999.25 | Overflow | high; not executed | Arith.MulCrossTermsPastMax | Arith.Mul |
| include/decimal.hpp:549 | the remainder product `fp_b * fp0_b` is formed natively and wraps for 10 or more places | 10-place unsigned: 0.5 * 0.5 gives 0.0655325592 | 0.25 | high; not executed | Arith.MulFractionTermWraps | Arith.Mul |
| include/decimal.hpp:569 | the 128-bit quotient is checked against the maximum only | 8-place signed: -1000000000 / 0.00000001 | Overflow | high; not executed | Arith.DivMissesLowerBound | Arith.Div |
| include/decimal.hpp:266-273 | FromExp multiplies with `mul`, whose only guard is on the positive side | 8-place signed: FromExp(-20000000000, 0) gives -2 * 10^10, below MIN | Overflow | high; not executed | Construct.FromExpBelowMin | Construct.FromExpBounded |
| include/decimal.hpp:218-228 | `-i > MAX` negates INT64_MIN, which wraps to itself and passes; `i * scale` then wraps to 0 | 8-place signed: "-9223372036854775808" reads as 0 | TooLarge | medium (relies on the usual wrap of signed overflow); not executed | ParseCases.MostNegativeWholeWraps | Parsing.Parse |
| include/decimal.hpp:224-228 | unsigned storage never looks for a '-', and stoull negates modulo 2^64 | 8-place unsigned: "-18446744073709551615" reads as 1 | TooLarge | high; not executed | ParseCases.NegatedWholeWraps | Parsing.Parse |
| include/decimal.hpp:248-260 | unsigned storage never sets `negative`, and stoull reads "-0" as 0, so the fraction is added | 2-place unsigned: "-0.5" reads as 0.5 | TooLarge | high; not executed | ParseCases.UnsignedMinusFraction | Parsing.Parse |
| include/decimal.hpp:233 | the '-' is looked for in the first character only, so leading white space hides it from the combination | 2-place signed: " -0.5" reads as 0.5 | -0.5 | high; not executed | ParseCases.SpacedMinusFraction | Parsing.Parse |
| include/decimal.hpp:490-504 | `value >>= 7` on a negative `int64_t` shifts in sign bits, so the value never reaches 0 and the loop never ends | 2-place signed: fp = -1 (-0.01) | the ten 7-bit groups of the 64-bit pattern, which decode back to -1 | high; not executed | Codec.NegativeNeverEnds | Codec.EncodeInto |

=== FILE: arith.dfy ===
/** The arithmetic operators of the decimal type, on the scaled integers:
    operator+ and operator- with their MAX/MIN guards, the compound
    assignments, the decomposed multiplication, the rounding division and
    to_int. Each guard is modelled as written; where a guard lets a wrong
    value through, a corrected definition stands beside it. */
module Arith {
  import opened Numbers
  import opened Outcomes
  import opened Native
  import opened Decimals

  /** A value of the configuration's native type. */
  predicate Operand(c: Config, x: int) {
    ValidConfig(c) && InNative(c.sign, x)
  }

  // ---------------------------------------------------------------- add

  /** operator+. Same-signed operands are rejected when fp passes MAX - f0.fp;
      the guard reads the scaled fp against MAX in real units, so what is
      rejected is every same-signed sum whose SCALED value passes MAX's
      integer part. The sum itself never wraps. */
  function Add(c: Config, x: int, y: int): (r: Result<int>)
    requires Operand(c, x) && Operand(c, y)
    ensures r.Err? ==> r.error == Overflow
    ensures c.sign == Signed ==>
      (r.Err? <==> (x > 0 && y > 0 && x + y > MaxIntPart(c)) || (x < 0 && y < 0 && x + y < -(MaxIntPart(c) as int)))
    ensures c.sign == Unsigned ==> (r.Err? <==> x + y > MaxIntPart(c))
    ensures r.Ok? ==> r.value == x + y
  {
    CompareWithMax(c, x + y);
    MaxScaledFits(c);
    if c.sign == Signed then
      if x > 0 && y > 0 && (x as real) > MaxReal(c) - (y as real) then Err(Overflow)
      else if x < 0 && y < 0 && (x as real) < MinReal(c) - (y as real) then Err(Overflow)
      else Ok(Wrap(c.sign, x + y))
    else
      if (y as real) > MaxReal(c) - (x as real) then Err(Overflow)
      else Ok(Wrap(c.sign, x + y))
  }

  lemma AddCommutes(c: Config, x: int, y: int)
    requires Operand(c, x) && Operand(c, y)
    ensures Add(c, x, y) == Add(c, y, x)
  {
  }

  /** The guard's unit mismatch: for an unsigned type with 8 places, 1000 plus
      one unit (scaled sum 10^11 + 1) is rejected although it is far inside
      the type's range. */
  lemma AddRejectsSmallSum()
    ensures Add(Config(8, Unsigned, Current), 100_000_000_000, 1) == Err(Overflow)
    ensures AddBounded(Config(8, Unsigned, Current), 100_000_000_000, 1) == Ok(100_000_000_001)
  {
    var c := Config(8, Unsigned, Current);
    assert MaxIntPart(c) == 99_999_999_999 by {
      assert Pow10(6) == 1_000_000;
      Pow10Add(6, 5);
      assert Pow10(5) == 100_000;
    }
    assert MaxScaled(c) == 9_999_999_999_999_999_999 by { Pow10Values(); }
  }

  /** operator+ as its guard evidently intends: MAX - f0.fp and fp compared
      in the same scaled unit. Between operands within MIN..MAX it fails
      exactly when the sum leaves MIN..MAX, and the sum never wraps. */
  function AddBounded(c: Config, x: int, y: int): (r: Result<int>)
    requires Operand(c, x) && Operand(c, y)
    ensures r.Err? ==> r.error == Overflow
    ensures r.Ok? ==> r.value == x + y && InNative(c.sign, r.value)
    ensures WithinBounds(c, x) && WithinBounds(c, y) ==> (r.Ok? <==> WithinBounds(c, x + y))
  {
    MaxScaledFits(c);
    if c.sign == Signed then
      if x > 0 && y > 0 && x > MaxScaled(c) - y then Err(Overflow)
      else if x < 0 && y < 0 && x < -(MaxScaled(c) as int) - y then Err(Overflow)
      else Ok(Wrap(c.sign, x + y))
    else
      if y > MaxScaled(c) - x then Err(Overflow)
      else Ok(Wrap(c.sign, x + y))
  }

  /** operator+= as written: the guard against UINT64_MAX - fp is applied to
      the bit patterns (both operands read as uint64_t) whatever the
      signedness, and the stored sum is the native one. */
  function AddAssignAsWritten(c: Config, x: int, y: int): (r: Result<int>)
    requires Operand(c, x) && Operand(c, y)
    ensures r.Err? ==> r.error == Overflow
    ensures r.Ok? ==> InNative(c.sign, r.value)
    ensures c.sign == Unsigned ==> (r.Err? <==> !InNative(c.sign, x + y))
    ensures c.sign == Unsigned && r.Ok? ==> r.value == x + y
  {
    if Wrap(Unsigned, y) > IntMax(Unsigned) - Wrap(Unsigned, x) then Err(Overflow)
    else Ok(Wrap(c.sign, x + y))
  }

  /** operator+= as its guard evidently intends: rejected exactly when the sum
      leaves the native type. */
  function AddAssign(c: Config, x: int, y: int): (r: Result<int>)
    requires Operand(c, x) && Operand(c, y)
    ensures r.Err? ==> r.error == Overflow && !InNative(c.sign, x + y)
    ensures r.Ok? ==> r.value == x + y && InNative(c.sign, r.value)
  {
    if InNative(c.sign, x + y) then Ok(x + y) else Err(Overflow)
  }

  /** For unsigned storage the written guard is the intended one. */
  lemma AddAssignUnsignedAgrees(c: Config, x: int, y: int)
    requires Operand(c, x) && Operand(c, y) && c.sign == Unsigned
    ensures AddAssignAsWritten(c, x, y) == AddAssign(c, x, y)
  {
  }

  /** For signed storage it is not: -1 += 1 (one unit each, 8 places) is
      rejected, because -1 read as uint64_t is UINT64_MAX. */
  lemma AddAssignSignedRejectsZeroSum()
    ensures AddAssignAsWritten(Config(8, Signed, Current), -1, 1) == Err(Overflow)
    ensures AddAssign(Config(8, Signed, Current), -1, 1) == Ok(0)
  {
  }

  // ---------------------------------------------------------------- sub

  /** operator-. Signed: operands of opposite signs are rejected when the
      difference passes MAX or MIN, again reading the scaled difference in
      real units. Unsigned: rejected exactly when the result would be
      negative. */
  function Sub(c: Config, x: int, y: int): (r: Result<int>)
    requires Operand(c, x) && Operand(c, y)
    ensures r.Err? ==> r.error == Overflow
    ensures r.Ok? ==> InNative(c.sign, r.value)
    ensures c.sign == Signed && InNative(c.sign, x - y) ==>
      && (r.Err? <==> (x > 0 && y < 0 && x - y > MaxIntPart(c)) || (x < 0 && y > 0 && x - y < -(MaxIntPart(c) as int)))
      && (r.Ok? ==> r.value == x - y)
    ensures c.sign == Signed && !InNative(c.sign, x - y) ==> r == Ok(Wrap(c.sign, x - y))
    ensures c.sign == Unsigned ==> (r.Err? <==> x < y) && (r.Ok? ==> r.value == x - y)
  {
    CompareWithMax(c, x - y);
    if c.sign == Signed then
      SubWrapSide(c, x, y);
      var diff := Wrap(c.sign, x - y);
      if x > 0 && y < 0 && (diff as real) > MaxReal(c) then Err(Overflow)
      else if x < 0 && y > 0 && (diff as real) < MinReal(c) then Err(Overflow)
      else Ok(diff)
    else
      if x < y then Err(Overflow) else Ok(Wrap(c.sign, x - y))
  }

  /** A signed difference that leaves int64_t wraps to the other side of
      zero: a positive minus a negative comes out negative, and a negative
      minus a positive comes out non-negative. */
  lemma SubWrapSide(c: Config, x: int, y: int)
    requires Operand(c, x) && Operand(c, y) && c.sign == Signed
    ensures !InNative(c.sign, x - y) && x > 0 ==> Wrap(c.sign, x - y) == x - y - TWO_64 < 0
    ensures !InNative(c.sign, x - y) && x < 0 ==> Wrap(c.sign, x - y) == x - y + TWO_64 >= 0
    ensures MaxReal(c) > 0.0 && MinReal(c) == -MaxReal(c)
  {
    MaxScaledFits(c);
    if !InNative(c.sign, x - y) {
      if x - y >= TWO_63 {
        assert (x - y + TWO_63) % TWO_64 == x - y + TWO_63 - TWO_64;
      } else {
        assert (x - y + TWO_63) % TWO_64 == x - y + TWO_63 + TWO_64;
      }
    }
  }

  /** The same unit mismatch in operator-: for a signed type with 8 places,
      50.00000001 - (-50) (scaled difference 10^10 + 1) is rejected although
      100.00000001 is far inside the type's range. */
  lemma SubRejectsSmallDifference()
    ensures Sub(Config(8, Signed, Current), 5_000_000_001, -5_000_000_000) == Err(Overflow)
    ensures SubBounded(Config(8, Signed, Current), 5_000_000_001, -5_000_000_000) == Ok(10_000_000_001)
  {
    var c := Config(8, Signed, Current);
    assert MaxIntPart(c) == 9_999_999_999 by {
      assert Pow10(5) == 100_000;
      Pow10Add(5, 5);
    }
    assert MaxScaled(c) == 999_999_999_999_999_999 by { Pow10Values(); }
  }

  /** operator- evaluates fp - f0.fp before its guard: for a signed type
      with 8 places, INT64_MAX - (-1) wraps to INT64_MIN, which is not
      above MAX, so the wrapped value is returned instead of Overflow. */
  lemma SubWrapsPastGuard()
    ensures Sub(Config(8, Signed, Current), TWO_63 - 1, -1) == Ok(-TWO_63)
    ensures SubBounded(Config(8, Signed, Current), TWO_63 - 1, -1) == Err(Overflow)
  {
    var c := Config(8, Signed, Current);
    assert Wrap(Signed, TWO_63) == -TWO_63;
    assert MaxScaled(c) == 999_999_999_999_999_999 by { Pow10Values(); }
  }

  /** operator- as its guard evidently intends: the difference compared with
      MAX and MIN in the scaled unit. Between operands within MIN..MAX it
      fails exactly when the difference leaves MIN..MAX, and the difference
      never wraps. */
  function SubBounded(c: Config, x: int, y: int): (r: Result<int>)
    requires Operand(c, x) && Operand(c, y)
    ensures r.Err? ==> r.error == Overflow
    ensures r.Ok? ==> r.value == x - y && InNative(c.sign, r.value)
    ensures WithinBounds(c, x) && WithinBounds(c, y) ==> (r.Ok? <==> WithinBounds(c, x - y))
  {
    MaxScaledFits(c);
    if c.sign == Signed then
      if x >= 0 && y < 0 && x > MaxScaled(c) + y then Err(Overflow)
      else if x < 0 && y > 0 && x < -(MaxScaled(c) as int) + y then Err(Overflow)
      else Ok(Wrap(c.sign, x - y))
    else
      if x < y then Err(Overflow) else Ok(Wrap(c.sign, x - y))
  }

  /** Operands within MIN..MAX never make the signed difference wrap. */
  lemma SubInBoundsNoWrap(c: Config, x: int, y: int)
    requires ValidConfig(c) && c.sign == Signed
    requires WithinBounds(c, x) && WithinBounds(c, y)
    ensures InNative(c.sign, x - y)
  {
    MaxScaledFits(c);
    Pow10Values();
  }

  /** operator-= as written: fp < f0.fp rejects, whatever the signedness. */
  function SubAssignAsWritten(c: Config, x: int, y: int): (r: Result<int>)
    requires Operand(c, x) && Operand(c, y)
    ensures r.Err? ==> r.error == Overflow
    ensures r.Err? <==> x < y
    ensures r.Ok? ==> InNative(c.sign, r.value)
    ensures r.Ok? && InNative(c.sign, x - y) ==> r.value == x - y
  {
    if x < y then Err(Overflow) else Ok(Wrap(c.sign, x - y))
  }

  /** operator-= as its guard evidently intends: rejected exactly when the
      difference leaves the native type. */
  function SubAssign(c: Config, x: int, y: int): (r: Result<int>)
    requires Operand(c, x) && Operand(c, y)
    ensures r.Err? ==> r.error == Overflow && !InNative(c.sign, x - y)
    ensures r.Ok? ==> r.value == x - y && InNative(c.sign, r.value)
  {
    if InNative(c.sign, x - y) then Ok(x - y) else Err(Overflow)
  }

  /** Unsigned: a - b, a -= b as written and as intended all fail exactly when
      a < b and otherwise give a - b. */
  lemma SubUnsignedAgrees(c: Config, x: int, y: int)
    requires Operand(c, x) && Operand(c, y) && c.sign == Unsigned
    ensures SubAssignAsWritten(c, x, y) == SubAssign(c, x, y) == Sub(c, x, y)
  {
  }

  /** Signed: 1 -= 2 (units, 8 places) is rejected although -1 is a value. */
  lemma SubAssignSignedRejectsNegative()
    ensures SubAssignAsWritten(Config(8, Signed, Current), 1, 2) == Err(Overflow)
    ensures SubAssign(Config(8, Signed, Current), 1, 2) == Ok(-1)
  {
  }

  // ---------------------------------------------------------------- mul

  /** v lies on the side of zero given by nonneg (zero lies on both). */
  predicate OnSide(v: int, nonneg: bool) {
    if nonneg then v >= 0 else v <= 0
  }

  /** Splitting fp into fp / scale and fp % scale (both truncating) keeps the
      sign of fp in both parts. */
  lemma PartsOnSide(x: int, s: int)
    requires s > 0
    ensures OnSide(TDiv(x, s), x >= 0) && OnSide(TMod(x, s), x >= 0)
  {
    TDivShrinks(x, s);
    TDivMod(x, s);
  }

  lemma ProductOnSide(u: int, v: int, pu: bool, pv: bool)
    requires OnSide(u, pu) && OnSide(v, pv)
    ensures OnSide(u * v, pu == pv)
  {
    AbsMul(u, v);
  }

  /** So all four cross terms of a product lie on the side of zero of that
      product. */
  lemma CrossTermsSameSide(x: int, y: int, s: int)
    requires s > 0
    ensures var a, b, c, d, pos := TDiv(x, s), TMod(x, s), TDiv(y, s), TMod(y, s), (x >= 0) == (y >= 0);
      && OnSide(a * c * s, pos) && OnSide(b * c, pos) && OnSide(a * d, pos)
      && OnSide(b * d, pos) && OnSide(TDiv(b * d, s), pos)
  {
    var a, b, c, d := TDiv(x, s), TMod(x, s), TDiv(y, s), TMod(y, s);
    var px, py := x >= 0, y >= 0;
    PartsOnSide(x, s);
    PartsOnSide(y, s);
    ProductOnSide(a, c, px, py);
    ProductOnSide(a * c, s, px == py, true);
    ProductOnSide(b, c, px, py);
    ProductOnSide(a, d, px, py);
    ProductOnSide(b, d, px, py);
    PartsOnSide(b * d, s);
  }

  /** The decomposition behind mul is exact: with x = a*scale + b and
      y = c*scale + d, the truncated product x*y/scale is
      a*c*scale + b*c + a*d + b*d/scale. */
  lemma MulDecomposition(x: int, y: int, s: int)
    requires s > 0
    ensures TDiv(x * y, s) ==
      TDiv(x, s) * TDiv(y, s) * s + TMod(x, s) * TDiv(y, s) + TDiv(x, s) * TMod(y, s) + TDiv(TMod(x, s) * TMod(y, s), s)
  {
    var a, b, c, d := TDiv(x, s), TMod(x, s), TDiv(y, s), TMod(y, s);
    TDivMod(x, s);
    TDivMod(y, s);
    var m := a * c * s + b * c + a * d;
    ProductOfParts(x, y, a, b, c, d, s);
    CrossTermsSameSide(x, y, s);
    TDivShift(m, b * d, s);
  }

  /** (a*s + b) * (c*s + d), collected by powers of s. */
  lemma ProductOfParts(x: int, y: int, a: int, b: int, c: int, d: int, s: int)
    requires x == a * s + b && y == c * s + d
    ensures x * y == (a * c * s + b * c + a * d) * s + b * d
  {
    assert x * y == a * s * y + b * y;
    assert a * s * y == a * s * (c * s) + a * s * d;
    assert b * y == b * (c * s) + b * d;
    assert a * s * (c * s) == (a * c * s) * s;
    assert a * s * d == (a * d) * s;
    assert b * (c * s) == (b * c) * s;
    assert (a * c * s + b * c + a * d) * s == (a * c * s) * s + (b * c) * s + (a * d) * s;
  }

  /** mul as written: the integer parts' product a*c is computed natively and
      compared with MAX, then the cross terms are added natively. */
  function MulAsWritten(c: Config, x: int, y: int): (r: Result<int>)
    requires Operand(c, x) && Operand(c, y)
    ensures r.Err? ==> r.error == Overflow && TDiv(y, Scale(c)) != 0
    ensures r.Ok? ==> InNative(c.sign, r.value)
  {
    var s := Scale(c);
    CombineParts(c, TDiv(x, s), TMod(x, s), TDiv(y, s), TMod(y, s))
  }

  /** The body of mul once fp and f0 are split into (a, b) and (c0, d): the
      MAX check on the native a*c0, the whole-part terms, then the fraction
      terms. */
  function CombineParts(c: Config, a: int, b: int, c0: int, d: int): (r: Result<int>)
    requires ValidConfig(c)
    ensures r.Err? ==> r.error == Overflow && c0 != 0
    ensures r.Ok? ==> InNative(c.sign, r.value)
  {
    if c0 != 0 && (Wrap(c.sign, a * c0) as real) > MaxReal(c) then Err(Overflow)
    else
      var whole := if c0 != 0 then WholeTerms(c, a, b, c0) else 0;
      Ok(if d != 0 then FractionTerms(c, whole, a, b, d) else whole)
  }

  /** (a*c0) * scale + b*c0, every step native. */
  function WholeTerms(c: Config, a: int, b: int, c0: int): (r: int)
    requires ValidConfig(c)
    ensures InNative(c.sign, r)
    ensures && InNative(c.sign, a * c0) && InNative(c.sign, a * c0 * Scale(c)) && InNative(c.sign, b * c0)
            && InNative(c.sign, a * c0 * Scale(c) + b * c0)
      ==> r == a * c0 * Scale(c) + b * c0
  {
    Wrap(c.sign, Wrap(c.sign, Wrap(c.sign, a * c0) * Scale(c)) + Wrap(c.sign, b * c0))
  }

  /** whole + a*d + (b*d) / scale, every step native. */
  function FractionTerms(c: Config, whole: int, a: int, b: int, d: int): (r: int)
    requires ValidConfig(c)
    ensures InNative(c.sign, r)
    ensures && InNative(c.sign, a * d) && InNative(c.sign, whole + a * d) && InNative(c.sign, b * d)
            && InNative(c.sign, whole + a * d + TDiv(b * d, Scale(c)))
      ==> r == whole + a * d + TDiv(b * d, Scale(c))
  {
    Wrap(c.sign, Wrap(c.sign, whole + Wrap(c.sign, a * d)) + TDiv(Wrap(c.sign, b * d), Scale(c)))
  }

  /** When the four cross terms lie on one side of zero, their sum fits the
      native type and so does b*d, no step of the combination wraps. */
  lemma CombinePartsExact(c: Config, a: int, b: int, c0: int, d: int, pos: bool)
    requires ValidConfig(c)
    requires OnSide(a * c0 * Scale(c), pos) && OnSide(b * c0, pos) && OnSide(a * d, pos)
    requires OnSide(TDiv(b * d, Scale(c)), pos)
    requires InNative(c.sign, a * c0 * Scale(c) + b * c0 + a * d + TDiv(b * d, Scale(c)))
    requires InNative(c.sign, b * d)
    requires c0 == 0 ==> b * c0 == 0 && a * c0 == 0
    requires d == 0 ==> a * d == 0 && b * d == 0
    ensures CombineParts(c, a, b, c0, d) ==
      if c0 != 0 && a * c0 > MaxIntPart(c) then Err(Overflow)
      else Ok(a * c0 * Scale(c) + b * c0 + a * d + TDiv(b * d, Scale(c)))
  {
    var s := Scale(c);
    var ac := a * c0;
    var t1, t2, t3, t4 := ac * s, b * c0, a * d, TDiv(b * d, s);
    PartialSums(c.sign, t1, t2, t3, t4, pos);
    FactorNative(c.sign, ac, s);
    assert Wrap(c.sign, ac) == ac;
    if c0 != 0 && ac > MaxIntPart(c) {
      assert (ac as real) > MaxReal(c) by { CompareWithMax(c, ac); }
    } else {
      assert c0 != 0 ==> !((ac as real) > MaxReal(c)) by { CompareWithMax(c, ac); }
      var whole := if c0 != 0 then WholeTerms(c, a, b, c0) else 0;
      assert whole == t1 + t2;
      var r := if d != 0 then FractionTerms(c, whole, a, b, d) else whole;
      if d != 0 {
        assert r == t1 + t2 + t3 + t4;
      } else {
        assert b * d == 0;
        TDivOfZero(s);
      }
      assert CombineParts(c, a, b, c0, d) == Ok(r);
    }
  }

  /** Terms on one side of zero whose sum fits: so does every partial sum. */
  lemma PartialSums(sign: Signedness, t1: int, t2: int, t3: int, t4: int, pos: bool)
    requires OnSide(t1, pos) && OnSide(t2, pos) && OnSide(t3, pos) && OnSide(t4, pos)
    requires InNative(sign, t1 + t2 + t3 + t4)
    ensures InNative(sign, t1) && InNative(sign, t2) && InNative(sign, t3)
    ensures InNative(sign, t1 + t2) && InNative(sign, t1 + t2 + t3)
  {
  }

  /** A factor of a native product with a positive multiplier is native. */
  lemma FactorNative(sign: Signedness, k: int, s: int)
    requires s >= 1 && InNative(sign, k * s)
    ensures InNative(sign, k)
  {
    AbsMul(k, s);
    MulLe(Abs(k), 1, s);
  }

  /** When the truncated product and the fraction term b*d fit the native
      type, mul as written fails exactly when a*c exceeds MAX and otherwise
      returns the truncated product x*y/scale. */
  lemma MulAsWrittenExact(c: Config, x: int, y: int)
    requires Operand(c, x) && Operand(c, y)
    requires InNative(c.sign, TDiv(x * y, Scale(c)))
    requires InNative(c.sign, TMod(x, Scale(c)) * TMod(y, Scale(c)))
    ensures var a, c0 := TDiv(x, Scale(c)), TDiv(y, Scale(c));
      MulAsWritten(c, x, y) == if c0 != 0 && a * c0 > MaxIntPart(c) then Err(Overflow) else Ok(TDiv(x * y, Scale(c)))
  {
    var s := Scale(c);
    var a, b, c0, d := TDiv(x, s), TMod(x, s), TDiv(y, s), TMod(y, s);
    MulDecomposition(x, y, s);
    CrossTermsSameSide(x, y, s);
    CombinePartsExact(c, a, b, c0, d, (x >= 0) == (y >= 0));
  }

  /** mul as the guard evidently intends: the truncated product x*y/scale,
      rejected when it falls outside MIN..MAX. */
  function Mul(c: Config, x: int, y: int): (r: Result<int>)
    requires Operand(c, x) && Operand(c, y)
    ensures r.Err? ==> r.error == Overflow
    ensures r.Ok? ==> TruncatedQuotient(x * y, Scale(c), r.value) && WithinBounds(c, r.value)
    ensures r.Err? <==> !WithinBounds(c, TDiv(x * y, Scale(c)))
    ensures r.Ok? ==> InNative(c.sign, r.value)
  {
    TDivIsTruncated(x * y, Scale(c));
    MaxScaledFits(c);
    var q := TDiv(x * y, Scale(c));
    if WithinBounds(c, q) then Ok(q) else Err(Overflow)
  }

  /** A product within MIN..MAX never trips the integer-part check. */
  lemma MulGuardQuietInBounds(c: Config, x: int, y: int)
    requires Operand(c, x) && Operand(c, y)
    requires WithinBounds(c, TDiv(x * y, Scale(c)))
    ensures TDiv(x, Scale(c)) * TDiv(y, Scale(c)) <= MaxIntPart(c)
  {
    var s := Scale(c);
    var a, b, c0, d := TDiv(x, s), TMod(x, s), TDiv(y, s), TMod(y, s);
    var ac := a * c0;
    var t1, t2, t3, t4 := ac * s, b * c0, a * d, TDiv(b * d, s);
    MulDecomposition(x, y, s);
    assert TDiv(x * y, s) == t1 + t2 + t3 + t4;
    if ac > 0 {
      CrossTermsSameSide(x, y, s);
      AbsMul(ac, s);
      assert t1 > 0;
      assert t1 <= MaxScaled(c);
      MaxIntPartScaled(c);
      assert (MaxIntPart(c) + 1) * s == MaxScaled(c) + 1;
      MulStrict(s, ac, MaxIntPart(c) + 1);
    }
  }

  /** Whenever the product lies within MIN..MAX and b*d fits, mul as written
      and the intended mul agree. */
  lemma MulAgreesInBounds(c: Config, x: int, y: int)
    requires Operand(c, x) && Operand(c, y)
    requires WithinBounds(c, TDiv(x * y, Scale(c)))
    requires InNative(c.sign, TMod(x, Scale(c)) * TMod(y, Scale(c)))
    ensures MulAsWritten(c, x, y) == Mul(c, x, y)
  {
    MaxScaledFits(c);
    MulGuardQuietInBounds(c, x, y);
    MulAsWrittenExact(c, x, y);
  }

  /** 4294967296 * 4294967296 with 8 unsigned places: the integer parts'
      product 2^64 wraps to 0 before the MAX check, and mul returns 0. */
  lemma MulWrapsPastGuard()
    ensures MulAsWritten(Config(8, Unsigned, Current), 429_496_729_600_000_000, 429_496_729_600_000_000) == Ok(0)
    ensures Mul(Config(8, Unsigned, Current), 429_496_729_600_000_000, 429_496_729_600_000_000) == Err(Overflow)
  {
    var c := Config(8, Unsigned, Current);
    var x := 429_496_729_600_000_000;
    assert Scale(c) == 100_000_000 by {
      assert Pow10(6) == 1_000_000;
      Pow10Add(6, 2);
    }
    assert MaxScaled(c) == 9_999_999_999_999_999_999 by {
      Pow10Values();
    }
    assert TDiv(x, Scale(c)) == 4_294_967_296 && TMod(x, Scale(c)) == 0;
    assert Wrap(Unsigned, 4_294_967_296 * 4_294_967_296) == 0;
    assert WholeTerms(c, 4_294_967_296, 0, 4_294_967_296) == 0;
    assert TDiv(x * x, Scale(c)) == 1_844_674_407_370_955_161_600_000_000;
  }

  /** 99999999999.5 * 1.5 with 8 unsigned places: the integer parts'
      product 99999999999 passes the MAX check, and the cross terms carry
      the product, 149999999999.25, past MAX without any wrap. */
  lemma MulCrossTermsPastMax()
    ensures MulAsWritten(Config(8, Unsigned, Current), 9_999_999_999_950_000_000, 150_000_000)
      == Ok(14_999_999_999_925_000_000)
    ensures Mul(Config(8, Unsigned, Current), 9_999_999_999_950_000_000, 150_000_000) == Err(Overflow)
  {
    var c := Config(8, Unsigned, Current);
    var x, y := 9_999_999_999_950_000_000, 150_000_000;
    assert Scale(c) == 100_000_000 by {
      assert Pow10(6) == 1_000_000;
      Pow10Add(6, 2);
    }
    assert MaxScaled(c) == 9_999_999_999_999_999_999 && MaxIntPart(c) == 99_999_999_999 by {
      Pow10Values();
    }
    assert TDiv(x, Scale(c)) == 99_999_999_999 && TMod(x, Scale(c)) == 50_000_000;
    assert TDiv(y, Scale(c)) == 1 && TMod(y, Scale(c)) == 50_000_000;
    assert !((99_999_999_999 as real) > MaxReal(c)) by {
      CompareWithMax(c, 99_999_999_999);
    }
    assert WholeTerms(c, 99_999_999_999, 50_000_000, 1) == 9_999_999_999_950_000_000;
    assert TDiv(50_000_000 * 50_000_000, Scale(c)) == 25_000_000;
    assert TDiv(x * y, Scale(c)) == 14_999_999_999_925_000_000;
  }

  /** 0.5 * 0.5 with 10 unsigned places: b*d = 2.5 * 10^19 wraps, and mul
      returns 0.0655325592 instead of 0.25. */
  lemma MulFractionTermWraps()
    ensures MulAsWritten(Config(10, Unsigned, Current), 5_000_000_000, 5_000_000_000) == Ok(655_325_592)
    ensures Mul(Config(10, Unsigned, Current), 5_000_000_000, 5_000_000_000) == Ok(2_500_000_000)
  {
    var c := Config(10, Unsigned, Current);
    assert Scale(c) == 10_000_000_000 by {
      assert Pow10(5) == 100_000;
      Pow10Add(5, 5);
    }
    assert MaxScaled(c) == 9_999_999_999_999_999_999 by {
      Pow10Values();
    }
  }

  // ---------------------------------------------------------------- div

  /** div as written: the 128-bit quotient fp*scale/f0 is checked against the
      native maximum only, narrowed, and moved one unit away from zero when
      twice the remainder reaches the divisor (upward for unsigned). */
  function DivAsWritten(c: Config, x: int, y: int): (r: Result<int>)
    requires Operand(c, x) && Operand(c, y)
    ensures r.Err? <==> y == 0 || TDiv(x * Scale(c), y) > IntMax(c.sign)
    ensures r.Err? ==> r.error == (if y == 0 then DivisionByZero else Overflow)
    ensures r.Ok? ==> InNative(c.sign, r.value)
  {
    if y == 0 then Err(DivisionByZero)
    else
      var t := x * Scale(c);
      var rem := TMod(t, y);
      var t0 := TDiv(t, y);
      if t0 > IntMax(c.sign) then Err(Overflow)
      else
        var q := Wrap(c.sign, t0);
        if c.sign == Signed then
          Ok(if 2 * Abs(rem) >= Abs(y) then Wrap(c.sign, q + (if (x < 0) != (y < 0) then -1 else 1)) else q)
        else
          Ok(if 2 * rem >= y then Wrap(c.sign, q + 1) else q)
  }

  /** When the rounded quotient fits the native type, div as written returns
      x*scale/y rounded half away from zero. */
  lemma DivAsWrittenRounds(c: Config, x: int, y: int)
    requires Operand(c, x) && Operand(c, y) && y != 0
    requires InNative(c.sign, RoundHalfAway(x * Scale(c), y))
    ensures DivAsWritten(c, x, y) == Ok(RoundHalfAway(x * Scale(c), y))
  {
    var t := x * Scale(c);
    assert (x < 0) == (t < 0) && (x >= 0 ==> t >= 0) by {
      AbsMul(x, Scale(c));
    }
    RoundStepExact(c.sign, t, y, (x < 0) != (y < 0), RoundHalfAway(t, y));
  }

  /** The rounding step of div on the 128-bit quotient: the narrowed
      truncated quotient, moved one unit away from zero when twice the
      remainder reaches the divisor, is the rounded quotient when that fits. */
  lemma RoundStepExact(sign: Signedness, t: int, y: int, flip: bool, rounded: int)
    requires y != 0 && rounded == RoundHalfAway(t, y) && InNative(sign, rounded)
    requires flip == ((t < 0) != (y < 0))
    requires sign == Unsigned ==> t >= 0 && y > 0
    ensures TDiv(t, y) <= IntMax(sign)
    ensures sign == Signed ==>
      (if 2 * Abs(TMod(t, y)) >= Abs(y) then Wrap(sign, Wrap(sign, TDiv(t, y)) + (if flip then -1 else 1))
       else Wrap(sign, TDiv(t, y))) == rounded
    ensures sign == Unsigned ==>
      (if 2 * TMod(t, y) >= y then Wrap(sign, Wrap(sign, TDiv(t, y)) + 1) else Wrap(sign, TDiv(t, y))) == rounded
  {
    RoundFromRemainder(t, y);
    TDivMod(t, y);
    TDivIsTruncated(t, y);
    assert Abs(TDiv(t, y)) <= Abs(rounded);
  }

  /** div as the overflow check evidently intends: x*scale/y rounded half
      away from zero, rejected when it leaves the native type on either
      side. */
  function Div(c: Config, x: int, y: int): (r: Result<int>)
    requires Operand(c, x) && Operand(c, y)
    ensures y == 0 <==> r == Err(DivisionByZero)
    ensures r.Err? && y != 0 ==> r.error == Overflow
    ensures r.Ok? ==> NearestHalfAway(x * Scale(c), y, r.value) && InNative(c.sign, r.value)
    ensures y != 0 ==> (r.Ok? <==> exists q :: NearestHalfAway(x * Scale(c), y, q) && InNative(c.sign, q))
  {
    if y == 0 then Err(DivisionByZero)
    else
      var q := RoundHalfAway(x * Scale(c), y);
      RoundHalfAwayIsNearest(x * Scale(c), y);
      assert forall q' :: NearestHalfAway(x * Scale(c), y, q') ==> q' == q by {
        forall q' | NearestHalfAway(x * Scale(c), y, q') {
          NearestHalfAwayUnique(x * Scale(c), y, q');
        }
      }
      if InNative(c.sign, q) then Ok(q) else Err(Overflow)
  }

  /** Within the native range the written and the intended division agree. */
  lemma DivAgreesInRange(c: Config, x: int, y: int)
    requires Operand(c, x) && Operand(c, y) && y != 0
    requires InNative(c.sign, RoundHalfAway(x * Scale(c), y))
    ensures DivAsWritten(c, x, y) == Div(c, x, y)
  {
    DivAsWrittenRounds(c, x, y);
  }

  /** -10^9 / 10^-8 with 8 signed places: the quotient -10^25 is far below the
      native minimum, the written check looks only at the maximum, and div
      returns the wrapped quotient. */
  lemma DivMissesLowerBound()
    ensures DivAsWritten(Config(8, Signed, Current), -100_000_000_000_000_000, 1)
         == Ok(Wrap(Signed, -10_000_000_000_000_000_000_000_000))
    ensures Div(Config(8, Signed, Current), -100_000_000_000_000_000, 1) == Err(Overflow)
  {
    var c := Config(8, Signed, Current);
    assert Scale(c) == 100_000_000 by {
      assert Pow10(6) == 1_000_000;
      Pow10Add(6, 2);
    }
    assert RoundHalfAway(-10_000_000_000_000_000_000_000_000, 1) == -10_000_000_000_000_000_000_000_000;
  }

  /** Dividing by scale itself returns fp unchanged: convert_precision relies
      on this. */
  lemma DivByScale(c: Config, x: int)
    requires Operand(c, x)
    ensures Div(c, x, Scale(c)) == Ok(x)
  {
    var s := Scale(c);
    assert x * s - x * s == 0;
    assert NearestHalfAway(x * s, s, x);
    NearestHalfAwayUnique(x * s, s, x);
  }

  // ---------------------------------------------------------------- to_int

  /** to_int: fp / scale, truncated toward zero. */
  function ToInt(c: Config, x: int): (r: int)
    requires Operand(c, x)
    ensures TruncatedQuotient(x, Scale(c), r)
    ensures InNative(c.sign, r)
  {
    TDivIsTruncated(x, Scale(c));
    TDiv(x, Scale(c))
  }
}

=== FILE: codec.dfy ===
/** The binary codec: encode_binary writes fp as little-endian groups of
    seven bits, 0x80 set on every byte but the last, followed by one byte
    holding nPlaces; decode_binary reads such a run back from an offset and
    rescales the value when the stored nPlaces differs from its own. */
module Codec {
  import opened Numbers
  import opened Outcomes
  import opened Native
  import opened Decimals
  import opened Rounding

  /** An element of std::vector<uint8_t>. */
  type Byte = b: int | 0 <= b < 256

  // ---------------------------------------------------------------- groups

  /** The bytes the do-while of encode_binary emits for a non-negative
      value: its low seven bits, plus 0x80 while bits remain above them. */
  function Groups(v: nat): (r: seq<Byte>)
    ensures |r| >= 1 && r[|r| - 1] < 128
    ensures forall i :: 0 <= i < |r| - 1 ==> r[i] >= 128
    decreases v
  {
    if v / 128 == 0 then [v % 128]
    else [v % 128 + 128] + Groups(v / 128)
  }

  /** The number a run of groups spells, least significant first. The bit
      fields of the groups are disjoint, so the sum is the decoder's bitwise
      or of (byte & 0x7F) << shift. */
  function GroupsValue(bs: seq<Byte>): nat {
    if |bs| == 0 then 0 else bs[0] % 128 + 128 * GroupsValue(bs[1..])
  }

  /** Reading the groups back gives the value written. */
  lemma {:induction false} GroupsRoundTrip(v: nat)
    ensures GroupsValue(Groups(v)) == v
  {
    if v / 128 != 0 {
      var r := Groups(v);
      assert r[1..] == Groups(v / 128);
      GroupsRoundTrip(v / 128);
    }
  }

  function Pow128(k: nat): nat {
    if k == 0 then 1 else 128 * Pow128(k - 1)
  }

  /** A value below 128^k takes at most k groups. */
  lemma {:induction false} GroupsLength(v: nat, k: nat)
    requires 1 <= k && v < Pow128(k)
    ensures |Groups(v)| <= k
  {
    if v / 128 != 0 {
      GroupsLength(v / 128, k - 1);
    }
  }

  /** A 64-bit pattern takes at most ten groups, so the decoder's shift
      stays below 64. */
  lemma NativeGroups(v: nat)
    requires v < TWO_64
    ensures |Groups(v)| <= 10
  {
    assert Pow128(10) == 0x40_0000_0000_0000_0000;
    GroupsLength(v, 10);
  }

  // ---------------------------------------------------------------- encoding

  /** The 64-bit pattern of fp: fp itself when it is not negative. */
  function Bits(fp: int): (r: nat)
    ensures r < TWO_64
    ensures fp >= 0 && fp < TWO_64 ==> r == fp
  {
    Wrap(Unsigned, fp)
  }

  /** What encode_binary writes for fp: the groups of its bits, then the
      nPlaces byte. */
  function Image(c: Config, fp: int): (r: seq<Byte>)
    requires ValidConfig(c)
  {
    Groups(Bits(fp)) + [c.places]
  }

  /** data[at] = b, after data.resize(at + 1) when at is past the end; the
      bytes resize adds are zero. */
  function WriteByte(data: seq<Byte>, at: nat, b: Byte): (r: seq<Byte>)
    ensures |r| == if at < |data| then |data| else at + 1
    ensures r[at] == b
    ensures forall i :: 0 <= i < |r| && i != at ==> r[i] == if i < |data| then data[i] else 0
  {
    var grown := if at < |data| then data else data + seq(at + 1 - |data|, _ => 0);
    grown[at := b]
  }

  /** The bytes bs written one at a time from at on, each as WriteByte. */
  function WriteRun(data: seq<Byte>, at: nat, bs: seq<Byte>): (r: seq<Byte>)
    requires |bs| >= 1
    ensures |r| == if at + |bs| <= |data| then |data| else at + |bs|
    ensures forall i :: 0 <= i < |bs| ==> r[at + i] == bs[i]
    ensures forall i :: 0 <= i < |r| && !(at <= i < at + |bs|) ==> r[i] == if i < |data| then data[i] else 0
    decreases |bs|
  {
    if |bs| == 1 then WriteByte(data, at, bs[0])
    else WriteRun(WriteByte(data, at, bs[0]), at + 1, bs[1..])
  }

  /** The buffer and offset encode_binary(data, offset) leaves. */
  datatype Encoded = Encoded(data: seq<Byte>, offset: nat)

  /** encode_binary(data, offset): the groups and the nPlaces byte written
      from offset on, growing data as needed, and offset moved past them.
      Every byte outside the written run keeps its value; bytes resize adds
      between the old end and offset are zero. */
  function EncodeInto(c: Config, fp: int, data: seq<Byte>, offset: nat): (r: Encoded)
    requires ValidConfig(c) && InNative(c.sign, fp)
    ensures r.offset == offset + |Groups(Bits(fp))| + 1
    ensures |r.data| == if r.offset <= |data| then |data| else r.offset
    ensures forall i :: 0 <= i < offset && i < |data| ==> r.data[i] == data[i]
    ensures forall i :: |data| <= i < offset ==> r.data[i] == 0
    ensures r.data[offset..r.offset] == Groups(Bits(fp)) + [c.places]
    ensures forall i :: r.offset <= i < |data| ==> r.data[i] == data[i]
  {
    var bytes := Image(c, fp);
    var written := WriteRun(data, offset, bytes);
    assert written[offset..offset + |bytes|] == bytes;
    Encoded(written, offset + |bytes|)
  }

  /** encode_binary(): a fresh vector holding exactly the groups and the
      nPlaces byte. */
  function Encode(c: Config, fp: int): (r: seq<Byte>)
    requires ValidConfig(c) && InNative(c.sign, fp)
    ensures r == Groups(Bits(fp)) + [c.places]
    ensures 2 <= |r| <= 11
  {
    NativeGroups(Bits(fp));
    var e := EncodeInto(c, fp, [], 0);
    assert e.data == e.data[0..e.offset];
    e.data
  }

  // ---------------------------------------------------------------- decoding

  /** Where the decode loop stops, starting at i: the first byte without
      0x80 that lies before the last byte of data. None when the loop runs
      up to the last byte, after which the nPlaces byte would be read past
      the end. */
  function Stop(data: seq<Byte>, i: nat): (r: Option<nat>)
    ensures r.Some? ==> i <= r.value < |data| - 1 && data[r.value] < 128
    ensures r.Some? ==> forall j :: i <= j < r.value ==> data[j] >= 128
    ensures r.None? ==> forall j :: i <= j < |data| - 1 ==> data[j] >= 128
    decreases |data| - i
  {
    if i + 1 >= |data| then None
    else if data[i] < 128 then Some(i)
    else Stop(data, i + 1)
  }

  /** What decode_binary needs to be defined: the loop stops on a byte
      before the last one (so the nPlaces byte after it exists), and within
      ten bytes (so no group is shifted by 64 bits or more). */
  predicate Decodable(data: seq<Byte>, offset: nat) {
    var s := Stop(data, offset);
    s.Some? && s.value - offset < 10
  }

  /** The value and offset decode_binary leaves. */
  datatype Decoded = Decoded(fp: int, offset: nat)

  /** decode_binary(data, offset), and decode_binary_data, which returns the
      offset it leaves: the groups up to the stop byte, reduced to the
      native type; then, when the stored nPlaces differs, divided (truncating)
      or multiplied (wrapping) by the power of ten between them. A stored
      nPlaces past the power-of-ten table fails. The offset ends past the
      nPlaces byte. */
  function Decode(c: Config, data: seq<Byte>, offset: nat): (r: Result<Decoded>)
    requires ValidConfig(c) && Decodable(data, offset)
    ensures r.Ok? ==> InNative(c.sign, r.value.fp)
    ensures r.Ok? ==> offset + 2 <= r.value.offset <= |data| && data[r.value.offset - 2] < 128
    ensures r.Ok? ==> forall j :: offset <= j < r.value.offset - 2 ==> data[j] >= 128
    ensures var t := Stop(data, offset).value;
      && (r.Err? <==> data[t + 1] > c.places + TableLast(c.sign))
      && (r.Err? ==> r.error == InvalidExponent)
    ensures var t := Stop(data, offset).value; var v := Wrap(c.sign, GroupsValue(data[offset..t + 1]));
      && (data[t + 1] == c.places ==> r == Ok(Decoded(v, t + 2)))
      && (r.Ok? && data[t + 1] > c.places ==> TruncatedQuotient(v, Pow10(data[t + 1] - c.places), r.value.fp))
      && (data[t + 1] < c.places && InNative(c.sign, v * Pow10(c.places - data[t + 1])) ==>
            r == Ok(Decoded(v * Pow10(c.places - data[t + 1]), t + 2)))
  {
    var t := Stop(data, offset).value;
    var value := Wrap(c.sign, GroupsValue(data[offset..t + 1]));
    var stored := data[t + 1];
    if stored == c.places then Ok(Decoded(value, t + 2))
    else if stored > c.places then
      match Pow10Table(c.sign, stored - c.places)
      case Err(e) => Err(e)
      case Ok(pow) =>
        TDivIsTruncated(value, pow);
        TDivShrinks(value, pow);
        Ok(Decoded(TDiv(value, pow), t + 2))
    else
      TableFits(c.sign, c.places - stored);
      Ok(Decoded(Wrap(c.sign, value * Pow10(c.places - stored)), t + 2))
  }

  // ---------------------------------------------------------------- round trips

  /** The decode loop stops at k when the bytes from i to k carry 0x80, the
      one at k does not, and a byte follows it. */
  lemma {:induction false} StopAt(data: seq<Byte>, i: nat, k: nat)
    requires i <= k && k + 1 < |data| && data[k] < 128
    requires forall j :: i <= j < k ==> data[j] >= 128
    ensures Stop(data, i) == Some(k)
    decreases k - i
  {
    if i < k {
      StopAt(data, i + 1, k);
    }
  }

  /** Two values of a native type that agree modulo 2^64 are equal. */
  lemma NativeUnique(s: Signedness, a: int, b: int)
    requires InNative(s, a) && InNative(s, b) && (a - b) % TWO_64 == 0
    ensures a == b
  {
    var q := (a - b) / TWO_64;
    assert a - b == q * TWO_64;
  }

  /** The bits of a native value, read back into the same native type. */
  lemma BitsBack(s: Signedness, fp: int)
    requires InNative(s, fp)
    ensures Wrap(s, Bits(fp)) == fp
  {
    var u := Bits(fp);
    var r := Wrap(s, u);
    assert (r - fp) % TWO_64 == 0 by {
      assert (r - u) % TWO_64 == 0 && (u - fp) % TWO_64 == 0;
      SumOfMultiples(r - u, u - fp);
    }
    NativeUnique(s, r, fp);
  }

  lemma SumOfMultiples(x: int, y: int)
    requires x % TWO_64 == 0 && y % TWO_64 == 0
    ensures (x + y) % TWO_64 == 0
  {
    var p, q := x / TWO_64, y / TWO_64;
    assert x + y == (p + q) * TWO_64;
  }

  /** The encoding of fp, wherever it sits in a buffer, decodes at the same
      places to fp, and the offset ends just past the nPlaces byte. */
  lemma EncodeDecode(c: Config, fp: int, data: seq<Byte>, offset: nat)
    requires ValidConfig(c) && InNative(c.sign, fp)
    ensures Decodable(EncodeInto(c, fp, data, offset).data, offset)
    ensures Decode(c, EncodeInto(c, fp, data, offset).data, offset) == Ok(Decoded(fp, EncodeInto(c, fp, data, offset).offset))
  {
    var e, g := EncodeInto(c, fp, data, offset), Groups(Bits(fp));
    EncodedRun(c, fp, data, offset);
    Written(c, fp, offset, e, g);
    assert Wrap(c.sign, GroupsValue(g)) == fp by {
      BitsBack(c.sign, fp);
    }
    DecodeRun(c, e.data, offset, g, fp, e.offset);
  }

  /** A run of at most ten groups followed by this type's nPlaces byte
      decodes to the groups' value, reduced to the native type. */
  lemma DecodeRun(c: Config, data: seq<Byte>, offset: nat, g: seq<Byte>, v: int, next: nat)
    requires ValidConfig(c) && 1 <= |g| <= 10
    requires Stop(data, offset) == Some(offset + |g| - 1) && data[offset..offset + |g|] == g
    requires data[offset + |g|] == c.places
    requires Wrap(c.sign, GroupsValue(g)) == v && next == offset + |g| + 1
    ensures Decodable(data, offset)
    ensures Decode(c, data, offset) == Ok(Decoded(v, next))
  {
  }

  /** The run EncodeInto writes: at most ten group bytes spelling the bits
      of fp, 0x80 on all but the last, then the nPlaces byte, so the decode
      loop stops on the last group byte. */
  lemma Written(c: Config, fp: int, offset: nat, e: Encoded, g: seq<Byte>)
    requires ValidConfig(c) && InNative(c.sign, fp) && g == Groups(Bits(fp))
    requires e.offset == offset + |g| + 1 <= |e.data| && e.data[offset..e.offset] == g + [c.places]
    ensures 1 <= |g| <= 10 && GroupsValue(g) == Bits(fp)
    ensures Stop(e.data, offset) == Some(offset + |g| - 1)
    ensures e.data[offset..offset + |g|] == g
    ensures e.data[offset + |g|] == c.places
  {
    GroupsOf(Bits(fp), g);
    RunEndsAt(e.data, offset, e.offset, g, c.places);
  }

  /** Written, with the groups read back as a value of storage s. */
  lemma WrittenAs(c: Config, s: Signedness, fp: int, offset: nat, e: Encoded, g: seq<Byte>)
    requires ValidConfig(c) && s == c.sign && InNative(c.sign, fp) && g == Groups(Bits(fp))
    requires e.offset == offset + |g| + 1 <= |e.data| && e.data[offset..e.offset] == g + [c.places]
    ensures 1 <= |g| <= 10 && Wrap(s, GroupsValue(g)) == fp
    ensures Stop(e.data, offset) == Some(offset + |g| - 1)
    ensures e.data[offset..offset + |g|] == g && e.data[offset + |g|] == c.places
  {
    Written(c, fp, offset, e, g);
    BitsBack(s, fp);
  }

  /** EncodeInto's run: the groups and the nPlaces byte end at the new
      offset, inside the data. */
  lemma EncodedRun(c: Config, fp: int, data: seq<Byte>, offset: nat)
    requires ValidConfig(c) && InNative(c.sign, fp)
    ensures var e := EncodeInto(c, fp, data, offset);
      && e.offset == offset + |Groups(Bits(fp))| + 1 <= |e.data|
      && e.data[offset..e.offset] == Groups(Bits(fp)) + [c.places]
  {
  }

  /** The groups of a 64-bit value: one to ten bytes that read back as it,
      the last without the continuation bit. */
  lemma GroupsOf(v: nat, g: seq<Byte>)
    requires v < TWO_64 && g == Groups(v)
    ensures 1 <= |g| <= 10 && GroupsValue(g) == v
    ensures g[|g| - 1] < 128 && forall i :: 0 <= i < |g| - 1 ==> g[i] >= 128
  {
    NativeGroups(v);
    GroupsRoundTrip(v);
  }

  /** RunStops for a run given by its end: the groups and the trailing byte
      fill data[offset..end]. */
  lemma RunEndsAt(data: seq<Byte>, offset: nat, end: nat, g: seq<Byte>, p: Byte)
    requires end == offset + |g| + 1 <= |data| && data[offset..end] == g + [p]
    requires |g| >= 1 && g[|g| - 1] < 128 && forall i :: 0 <= i < |g| - 1 ==> g[i] >= 128
    ensures Stop(data, offset) == Some(offset + |g| - 1)
    ensures data[offset..offset + |g|] == g && data[offset + |g|] == p
  {
    RunStops(data, offset, g, p);
  }

  /** Where groups and a trailing byte sit in data, the decode loop stops on
      the last group byte. */
  lemma RunStops(data: seq<Byte>, offset: nat, g: seq<Byte>, p: Byte)
    requires |g| >= 1 && offset + |g| < |data| && data[offset..offset + |g| + 1] == g + [p]
    requires g[|g| - 1] < 128 && forall i :: 0 <= i < |g| - 1 ==> g[i] >= 128
    ensures Stop(data, offset) == Some(offset + |g| - 1)
    ensures data[offset..offset + |g|] == g && data[offset + |g|] == p
  {
    var w := data[offset..offset + |g| + 1];
    assert data[offset..offset + |g|] == w[..|g|] == g;
    forall j | offset <= j < offset + |g| - 1
      ensures data[j] >= 128
    {
      assert data[j] == w[j - offset] == g[j - offset];
    }
    assert data[offset + |g| - 1] == w[|g| - 1] == g[|g| - 1];
    assert data[offset + |g|] == w[|g|];
    StopAt(data, offset, offset + |g| - 1);
  }

  /** Read at fewer places with the same storage, the encoding of fp yields
      fp's value with the extra digits dropped toward zero, and the offset
      ends past the nPlaces byte. */
  lemma DecodeNarrows(c: Config, d: Config, fp: int, data: seq<Byte>, offset: nat)
    requires ValidConfig(c) && ValidConfig(d) && c.sign == d.sign && InNative(c.sign, fp)
    requires c.places >= d.places
    ensures Decodable(EncodeInto(c, fp, data, offset).data, offset)
    ensures var r := Decode(d, EncodeInto(c, fp, data, offset).data, offset);
      && r.Ok? && r.value.offset == EncodeInto(c, fp, data, offset).offset
      && TruncatedQuotient(fp, Pow10(c.places - d.places), r.value.fp)
  {
    var e, g := EncodeInto(c, fp, data, offset), Groups(Bits(fp));
    EncodedRun(c, fp, data, offset);
    Written(c, fp, offset, e, g);
    assert Wrap(d.sign, GroupsValue(g)) == fp by {
      BitsBack(d.sign, fp);
    }
    RescaledRun(d, e.data, offset, g, c.places, fp);
  }

  /** Read at more places with the same storage, the encoding of fp yields
      fp scaled up by the power of ten between the places when that fits,
      and the offset ends past the nPlaces byte. */
  lemma DecodeScalesUp(c: Config, d: Config, fp: int, data: seq<Byte>, offset: nat)
    requires ValidConfig(c) && ValidConfig(d) && c.sign == d.sign && InNative(c.sign, fp)
    requires c.places < d.places && InNative(d.sign, fp * Pow10(d.places - c.places))
    ensures Decodable(EncodeInto(c, fp, data, offset).data, offset)
    ensures Decode(d, EncodeInto(c, fp, data, offset).data, offset)
      == Ok(Decoded(fp * Pow10(d.places - c.places), EncodeInto(c, fp, data, offset).offset))
  {
    var e := EncodeInto(c, fp, data, offset);
    EncodedRun(c, fp, data, offset);
    ScaledEncoding(c, d, fp, offset, e, Groups(Bits(fp)), fp * Pow10(d.places - c.places));
  }

  /** DecodeScalesUp for an encoding e given by its run g and a product w. */
  lemma ScaledEncoding(c: Config, d: Config, fp: int, offset: nat, e: Encoded, g: seq<Byte>, w: int)
    requires ValidConfig(c) && ValidConfig(d) && c.sign == d.sign && InNative(c.sign, fp)
    requires c.places < d.places && w == fp * Pow10(d.places - c.places) && InNative(d.sign, w)
    requires g == Groups(Bits(fp))
    requires e.offset == offset + |g| + 1 <= |e.data| && e.data[offset..e.offset] == g + [c.places]
    ensures Decodable(e.data, offset)
    ensures Decode(d, e.data, offset) == Ok(Decoded(w, e.offset))
  {
    WrittenAs(c, d.sign, fp, offset, e, g);
    ScaledRun(d, e.data, offset, g, c.places, fp, w, e.offset);
  }

  /** A run of at most ten groups spelling v, followed by a stored nPlaces
      p below this type's, where v times the power of ten between them fits:
      decoding yields that product. */
  lemma ScaledRun(d: Config, data: seq<Byte>, offset: nat, g: seq<Byte>, p: Byte, v: int, w: int, next: nat)
    requires ValidConfig(d) && 1 <= |g| <= 10 && p < d.places
    requires Stop(data, offset) == Some(offset + |g| - 1) && data[offset..offset + |g|] == g
    requires data[offset + |g|] == p && Wrap(d.sign, GroupsValue(g)) == v
    requires w == v * Pow10(d.places - p) && InNative(d.sign, w) && next == offset + |g| + 1
    ensures Decodable(data, offset)
    ensures Decode(d, data, offset) == Ok(Decoded(w, next))
  {
  }

  /** A run of at most ten groups spelling v, followed by a stored nPlaces
      p within the power-of-ten table's reach: decoding divides v by the
      power of ten between p and nPlaces, truncating, or multiplies it. */
  lemma RescaledRun(d: Config, data: seq<Byte>, offset: nat, g: seq<Byte>, p: Byte, v: int)
    requires ValidConfig(d) && 1 <= |g| <= 10 && p - d.places <= TableLast(d.sign)
    requires Stop(data, offset) == Some(offset + |g| - 1) && data[offset..offset + |g|] == g
    requires data[offset + |g|] == p && Wrap(d.sign, GroupsValue(g)) == v
    ensures Decodable(data, offset)
    ensures var r := Decode(d, data, offset);
      && r.Ok? && r.value.offset == offset + |g| + 1
      && (p >= d.places ==> TruncatedQuotient(v, Pow10(p - d.places), r.value.fp))
  {
    if p == d.places {
      assert Pow10(0) == 1;
      TDivIsTruncated(v, 1);
    }
  }

  /** Decoding at more places agrees with convert_precision to those places
      whenever the conversion succeeds. */
  lemma DecodeWidens(c: Config, fp: int, t: nat, data: seq<Byte>, offset: nat)
    requires ValidConfig(c) && c.header == Current && InNative(c.sign, fp)
    requires c.places < t && ValidConfig(TargetConfig(c, t))
    requires ConvertPrecision(c, fp, t).Ok?
    ensures Decodable(EncodeInto(c, fp, data, offset).data, offset)
    ensures Decode(TargetConfig(c, t), EncodeInto(c, fp, data, offset).data, offset)
      == Ok(Decoded(ConvertPrecision(c, fp, t).value, EncodeInto(c, fp, data, offset).offset))
  {
    DecodeScalesUp(c, TargetConfig(c, t), fp, data, offset);
  }

  /** Encoding after a prefix, at the prefix's end, appends the fresh
      encoding to it. */
  lemma EncodeAfterPrefix(c: Config, fp: int, prefix: seq<Byte>)
    requires ValidConfig(c) && InNative(c.sign, fp)
    ensures EncodeInto(c, fp, prefix, |prefix|) == Encoded(prefix + Encode(c, fp), |prefix| + |Encode(c, fp)|)
  {
    var e, image := EncodeInto(c, fp, prefix, |prefix|), Encode(c, fp);
    assert |e.data| == e.offset;
    assert e.data[..|prefix|] == prefix;
    assert e.data[|prefix|..e.offset] == image;
    assert e.data == e.data[..|prefix|] + e.data[|prefix|..e.offset];
  }

  /** Decoding a fresh encoding followed by other bytes gives fp back and
      leaves the offset at the first of those bytes. */
  lemma DecodeLeavesRest(c: Config, fp: int, rest: seq<Byte>)
    requires ValidConfig(c) && InNative(c.sign, fp)
    ensures Decodable(Encode(c, fp) + rest, 0)
    ensures Decode(c, Encode(c, fp) + rest, 0) == Ok(Decoded(fp, |Encode(c, fp)|))
  {
    var image := Encode(c, fp);
    var data := image + rest;
    var e := EncodeInto(c, fp, data, 0);
    assert e.data == data by {
      assert e.data[..|image|] == image;
      assert e.data == e.data[..|image|] + e.data[|image|..];
      assert e.data[|image|..] == rest;
    }
    EncodeDecode(c, fp, data, 0);
  }

  /** 3.00 with two places (fp 300) encodes as 0xAC 0x02 and the places
      byte: 300 is 44 + 2 * 128. */
  lemma EncodeExample()
    ensures Encode(Config(2, Signed, Current), 300) == [0xAC, 0x02, 2]
  {
    assert Groups(2) == [2];
    assert Groups(300) == [0xAC] + Groups(2);
  }

  // ---------------------------------------------------------------- as written

  /** The do-while of encode_binary as written, run for at most fuel rounds:
      the byte is value & 0x7F (value modulo 128), then value >>= 7, which on
      a signed value is an arithmetic shift (floor division by 128). None
      when the loop has not ended within fuel rounds. */
  function ShiftLoop(v: int, fuel: nat): Option<seq<Byte>>
    decreases fuel
  {
    if fuel == 0 then None
    else
      var next := v / 128;
      var b := v % 128 + (if next != 0 then 128 else 0);
      if next == 0 then Some([b])
      else
        match ShiftLoop(next, fuel - 1)
        case None => None
        case Some(rest) => Some([b] + rest)
  }

  /** For a negative value the arithmetic shift never reaches 0, so the loop
      never ends, however many rounds it is given. */
  lemma {:induction false} NegativeNeverEnds(v: int, fuel: nat)
    requires v < 0
    ensures ShiftLoop(v, fuel) == None
    decreases fuel
  {
    if fuel > 0 {
      assert v / 128 < 0;
      NegativeNeverEnds(v / 128, fuel - 1);
    }
  }

  /** For a value that is not negative, the loop as written ends and emits
      exactly Groups, the bytes of the corrected encoding. */
  lemma {:induction false} ShiftLoopGroups(v: nat, fuel: nat)
    requires fuel >= |Groups(v)|
    ensures ShiftLoop(v, fuel) == Some(Groups(v))
    decreases v
  {
    if v / 128 != 0 {
      ShiftLoopGroups(v / 128, fuel - 1);
    }
  }
}

=== FILE: construct.dfy ===
/** Building a value from an integer and a decimal shift: newI (behind the
    Decimal(i, n) constructor) and FromExp. */
module Construct {
  import opened Numbers
  import opened Outcomes
  import opened Native
  import opened Decimals
  import opened Arith

  const UINT32_LIMIT: int := 0x1_0000_0000

  /** i with half of pow added on i's side of zero: the rounding addend of
      newI and round. */
  function Biased(i: int, pow: int): int {
    if i < 0 then i - pow / 2 else i + pow / 2
  }

  /** newI(i, n): the scaled value of i * 10^-n. Up to nPlaces shifts are
      exact (i times a power of ten); past nPlaces the extra digits are
      dropped after adding half of the divisor on i's side of zero, which
      rounds half away from zero. A shift past the power-of-ten table fails. */
  function NewI(c: Config, i: int, n: nat): (r: Result<int>)
    requires Operand(c, i) && n < UINT32_LIMIT
    ensures r.Err? <==> n > c.places && n - c.places > TableLast(c.sign)
    ensures r.Err? ==> r.error == InvalidExponent
    ensures r.Ok? ==> InNative(c.sign, r.value)
    ensures n <= c.places && InNative(c.sign, i * Pow10(c.places - n)) ==> r == Ok(i * Pow10(c.places - n))
    ensures r.Ok? && n > c.places && InNative(c.sign, Biased(i, Pow10(n - c.places))) ==>
      NearestHalfAway(i, Pow10(n - c.places), r.value)
  {
    if n > c.places then
      var table := Pow10Table(c.sign, n - c.places);
      if table.Err? then Err(table.error)
      else
        // the quotient is then multiplied by precomputed_pow_10(0) == 1
        Ok(DropDigits(c, i, n - c.places))
    else
      TableFits(c.sign, c.places - n);
      Ok(Wrap(c.sign, i * Pow10(c.places - n)))
  }

  /** The n > nPlaces branch of newI: add the sign-aware half of 10^k
      natively, then divide by 10^k truncating. */
  function DropDigits(c: Config, i: int, k: nat): (r: int)
    requires Operand(c, i) && 1 <= k <= TableLast(c.sign)
    ensures InNative(c.sign, r)
    ensures InNative(c.sign, Biased(i, Pow10(k))) ==> NearestHalfAway(i, Pow10(k), r)
  {
    var pow := Pow10(k);
    var biased :=
      if c.sign == Signed then
        (if i < 0 then Wrap(c.sign, i - pow / 2) else Wrap(c.sign, i + pow / 2))
      else Wrap(c.sign, i + pow / 2);
    Pow10Even(k);
    TDivShrinks(biased, pow);
    RoundedDrop(i, pow, biased);
    TDiv(biased, pow)
  }

  /** When the addend does not wrap, the truncated quotient is i / pow
      rounded half away from zero. */
  lemma RoundedDrop(i: int, pow: int, biased: int)
    requires pow >= 2 && pow % 2 == 0
    ensures biased == Biased(i, pow) ==> NearestHalfAway(i, pow, TDiv(biased, pow))
  {
    BiasedDivision(i, pow);
    RoundHalfAwayIsNearest(i, pow);
  }

  /** Decimal<3>(123, 5) is 0.001 and Decimal<3, Signed>(-123, 5) is -0.001:
      0.00123 rounded to three places. */
  lemma NewIRoundsExamples()
    ensures NewI(Config(3, Unsigned, Current), 123, 5) == Ok(1)
    ensures NewI(Config(3, Signed, Current), -123, 5) == Ok(-1)
  {
    assert Pow10(2) == 100;
    Pow10Values();
  }

  /** FromExp(value, exp): value * 10^exp. A non-negative exponent goes
      through the power-of-ten table and mul of the two scaled integers,
      whose only check is the one-sided integer-part guard; a negative one
      is newI(value, -exp). */
  function FromExp(c: Config, v: int, e: int): (r: Result<int>)
    requires Operand(c, v) && -0x8000_0000 < e < 0x8000_0000
    ensures r.Ok? ==> InNative(c.sign, r.value)
    ensures e >= 0 && e > TableLast(c.sign) ==> r == Err(InvalidExponent)
    ensures e >= 0 && e <= TableLast(c.sign)
              && InNative(c.sign, v * Scale(c)) && InNative(c.sign, Pow10(e) * Scale(c))
              && InNative(c.sign, v * Pow10(e) * Scale(c)) ==>
      r == if v * Pow10(e) > MaxIntPart(c) then Err(Overflow) else Ok(v * Pow10(e) * Scale(c))
    ensures e < 0 && -e <= c.places && InNative(c.sign, v * Pow10(c.places + e)) ==>
      r == Ok(v * Pow10(c.places + e))
    ensures e < 0 && -e > c.places ==> (r.Err? <==> -e - c.places > TableLast(c.sign))
    ensures r.Ok? && e < 0 && -e > c.places && InNative(c.sign, Biased(v, Pow10(-e - c.places))) ==>
      NearestHalfAway(v, Pow10(-e - c.places), r.value)
  {
    if e >= 0 then
      var table := Pow10Table(c.sign, e);
      if table.Err? then Err(table.error)
      else
        // newI(v, 0) and newI(10^e, 0) cannot fail
        var x := NewI(c, v, 0).value;
        var y := NewI(c, table.value, 0).value;
        FromExpProduct(c, v, e, x, y);
        MulAsWritten(c, x, y)
    else
      NewI(c, v, -e)
  }

  /** With both factors and the product exact, mul on value * scale and
      10^exp * scale refuses exactly the products whose integer part passes
      MAX's, and otherwise yields the exact product. */
  lemma FromExpProduct(c: Config, v: int, e: nat, x: int, y: int)
    requires Operand(c, v) && Operand(c, x) && Operand(c, y)
    ensures x == v * Scale(c) && y == Pow10(e) * Scale(c) && InNative(c.sign, v * Pow10(e) * Scale(c)) ==>
      MulAsWritten(c, x, y) == if v * Pow10(e) > MaxIntPart(c) then Err(Overflow) else Ok(v * Pow10(e) * Scale(c))
  {
    var s := Scale(c);
    if x == v * s && y == Pow10(e) * s && InNative(c.sign, v * Pow10(e) * s) {
      assert TDiv(x, s) == v && TMod(x, s) == 0 by {
        TDivExact(v, s);
        TDivMod(x, s);
      }
      assert TDiv(y, s) == Pow10(e) && TMod(y, s) == 0 by {
        TDivExact(Pow10(e), s);
        TDivMod(y, s);
      }
      assert TDiv(x * y, s) == v * Pow10(e) * s by {
        ScaledProduct(v, Pow10(e), s);
      }
      MulAsWrittenExact(c, x, y);
    }
  }

  /** FromExp as the bounds check evidently intends: the corrected mul, so
      that a non-negative exponent fails exactly when value * 10^exp lies
      outside MIN..MAX. */
  function FromExpBounded(c: Config, v: int, e: int): (r: Result<int>)
    requires Operand(c, v) && -0x8000_0000 < e < 0x8000_0000
    ensures r.Ok? ==> InNative(c.sign, r.value)
    ensures e >= 0 && e > TableLast(c.sign) ==> r == Err(InvalidExponent)
    ensures e >= 0 && e <= TableLast(c.sign)
              && InNative(c.sign, v * Scale(c)) && InNative(c.sign, Pow10(e) * Scale(c)) ==>
      && (r.Ok? <==> WithinBounds(c, v * Pow10(e) * Scale(c)))
      && (r.Ok? ==> r.value == v * Pow10(e) * Scale(c))
      && (r.Err? ==> r.error == Overflow)
    ensures e < 0 ==> r == FromExp(c, v, e)
  {
    if e >= 0 then
      var table := Pow10Table(c.sign, e);
      if table.Err? then Err(table.error)
      else
        var x := NewI(c, v, 0).value;
        var y := NewI(c, table.value, 0).value;
        BoundedProduct(c, v, e);
        Mul(c, x, y)
    else
      NewI(c, v, -e)
  }

  /** The product mul forms for a non-negative exponent is exact. */
  lemma BoundedProduct(c: Config, v: int, e: nat)
    requires ValidConfig(c)
    ensures TDiv((v * Scale(c)) * (Pow10(e) * Scale(c)), Scale(c)) == v * Pow10(e) * Scale(c)
  {
    ScaledProduct(v, Pow10(e), Scale(c));
  }

  /** Within MIN..MAX, and with every product exact, FromExp and its
      corrected form agree. */
  lemma FromExpAgrees(c: Config, v: int, e: nat)
    requires Operand(c, v) && e <= TableLast(c.sign)
    requires InNative(c.sign, v * Scale(c)) && InNative(c.sign, Pow10(e) * Scale(c))
    requires WithinBounds(c, v * Pow10(e) * Scale(c))
    ensures FromExp(c, v, e) == FromExpBounded(c, v, e) == Ok(v * Pow10(e) * Scale(c))
  {
    var s := Scale(c);
    assert InNative(c.sign, v * Pow10(e) * s) && v * Pow10(e) <= MaxIntPart(c) by {
      MaxScaledFits(c);
      BoundedIntPart(c, v * Pow10(e));
    }
  }

  /** A scaled integer within MAX has an integer part within MAX's. */
  lemma BoundedIntPart(c: Config, k: int)
    requires ValidConfig(c) && k * Scale(c) <= MaxScaled(c)
    ensures k <= MaxIntPart(c)
  {
    var s, m := Scale(c), MaxIntPart(c);
    MaxIntPartScaled(c);
    if k > m {
      MulLe(s, m + 1, k);
    }
  }

  /** FromExp(-20000000000, 0) with eight signed places: mul's guard looks
      only above, so the product -2 * 10^18, below MIN, is returned; the
      corrected form refuses it. */
  lemma FromExpBelowMin()
    ensures FromExp(Config(8, Signed, Current), -20_000_000_000, 0) == Ok(-2_000_000_000_000_000_000)
    ensures FromExpBounded(Config(8, Signed, Current), -20_000_000_000, 0) == Err(Overflow)
  {
    var c := Config(8, Signed, Current);
    SignedEightPlaces(c);
    assert Pow10(0) == 1;
    assert FromExp(c, -20_000_000_000, 0) == Ok(-2_000_000_000_000_000_000);
  }

  /** The constants of a signed type with 8 places. */
  lemma SignedEightPlaces(c: Config)
    requires c == Config(8, Signed, Current)
    ensures Scale(c) == 100_000_000 && MaxIntPart(c) == 9_999_999_999
    ensures MaxScaled(c) == 999_999_999_999_999_999
  {
    assert Pow10(8) == 100_000_000 by {
      assert Pow10(4) == 10_000;
      Pow10Add(4, 4);
    }
    Pow10Add(8, 2);
    Pow10Values();
  }

  /** FromExp(123, 1) with 8 unsigned places is 1230; FromExp(123456789012,
      -9) keeps 123.45678901. */
  lemma FromExpExamples()
    ensures FromExp(Config(8, Unsigned, Current), 123, 1) == Ok(123_000_000_000)
    ensures FromExp(Config(8, Unsigned, Current), 123_456_789_012, -9) == Ok(12_345_678_901)
  {
    var c := Config(8, Unsigned, Current);
    assert Scale(c) == 100_000_000 && MaxIntPart(c) == 99_999_999_999 by {
      assert Pow10(8) == 100_000_000 by {
        assert Pow10(4) == 10_000;
        Pow10Add(4, 4);
      }
      Pow10Add(8, 3);
    }
    assert Pow10(1) == 10;
    Pow10Values();
    assert NewI(c, 123_456_789_012, 9) == Ok(12_345_678_901);
  }
}

=== FILE: decimals.dfy ===
/** The decimal value: a scaled native integer fp = value * 10^places, with
    the type parameters of the C++ template (places, signedness) and the
    header whose behaviour applies, and the derived constants scale, MAX and
    MIN. */
module Decimals {
  import opened Numbers
  import opened Native

  /** Which header's behaviour applies: include/decimal.hpp (Current) or the
      earlier include/udecimal.hpp (Snapshot). They share every algorithm
      body; they differ only in MIN and in convert_precision. */
  datatype Header = Current | Snapshot

  /** The template arguments: nPlaces and the signedness of the storage. */
  datatype Config = Config(places: nat, sign: Signedness, header: Header)

  /** The two static_asserts: 0 < nPlaces < digits. */
  predicate ValidConfig(c: Config) {
    0 < c.places < Digits10(c.sign)
  }

  /** scale = 10^nPlaces, a value of the native type. */
  function Scale(c: Config): (r: nat)
    ensures ValidConfig(c) ==> InNative(c.sign, r)
  {
    TableFits(c.sign, c.places);
    Pow10(c.places)
  }

  /** The largest integer not above MAX: 10^(digits - places) - 1. */
  function MaxIntPart(c: Config): nat
    requires ValidConfig(c)
  {
    Pow10(Digits10(c.sign) - c.places) - 1
  }

  /** MAX, in real units: the exact value of the source's formula
      (10^(digits - places) - 1) + (scale - 1) / scale, written as the
      scaled bound over scale (MaxRealFormula shows the two agree). */
  function MaxReal(c: Config): real
    requires ValidConfig(c)
  {
    (MaxScaled(c) as real) / (Scale(c) as real)
  }

  /** MIN: -MAX when signed; for unsigned storage 0 in the current header but
      -MAX in the snapshot. */
  function MinReal(c: Config): real
    requires ValidConfig(c)
  {
    if c.sign == Signed || c.header == Snapshot then -MaxReal(c) else 0.0
  }

  /** MAX expressed in the scaled unit of fp: 10^digits - 1. */
  function MaxScaled(c: Config): nat {
    Pow10(Digits10(c.sign)) - 1
  }

  /** (s - 1) / s is a proper fraction, and k + (s - 1) / s scaled by s is
      the integer k * s + s - 1. */
  lemma ProperFraction(k: int, s: int)
    requires s > 0
    ensures 0.0 <= ((s - 1) as real) / (s as real) < 1.0
    ensures ((k as real) + ((s - 1) as real) / (s as real)) * (s as real) == (k * s + s - 1) as real
  {
    var f := ((s - 1) as real) / (s as real);
    assert f * (s as real) == (s - 1) as real;
    assert ((k as real) + f) * (s as real) == (k as real) * (s as real) + f * (s as real);
  }

  /** An integer exceeds MAX exactly when it exceeds MAX's integer part, so
      every comparison of a native integer with MAX is an integer comparison. */
  lemma CompareWithMax(c: Config, x: int)
    requires ValidConfig(c)
    ensures (x as real) > MaxReal(c) <==> x > MaxIntPart(c)
    ensures (x as real) < -MaxReal(c) <==> x < -(MaxIntPart(c) as int)
  {
    MaxRealFormula(c);
    ProperFraction(MaxIntPart(c), Scale(c));
  }

  /** MAX is the source's formula: its integer part plus the largest
      fraction scale can hold. */
  lemma MaxRealFormula(c: Config)
    requires ValidConfig(c)
    ensures MaxReal(c) == MaxIntPart(c) as real + ((Scale(c) - 1) as real) / (Scale(c) as real)
  {
    MaxIntPartScaled(c);
    FormulaValue(MaxIntPart(c), Scale(c), MaxScaled(c));
  }

  /** (k + (s - 1) / s) is (k*s + s - 1) / s. */
  lemma FormulaValue(k: int, s: int, top: int)
    requires s > 0 && k * s + s - 1 == top
    ensures (top as real) / (s as real) == k as real + ((s - 1) as real) / (s as real)
  {
    var m := k as real + ((s - 1) as real) / (s as real);
    RealScaled(k, s, top, m);
    RealDivUnique(top as real, s as real, m);
  }

  lemma RealDivUnique(a: real, s: real, q: real)
    requires s > 0.0 && q * s == a
    ensures q == a / s
  {
  }

  /** MAX's integer part times scale, plus the largest fraction, is the
      scaled bound 10^digits - 1. */
  lemma MaxIntPartScaled(c: Config)
    requires ValidConfig(c)
    ensures MaxIntPart(c) * Scale(c) + Scale(c) - 1 == MaxScaled(c)
  {
    var e := Digits10(c.sign) - c.places;
    Pow10Add(e, c.places);
    OneBelow(MaxIntPart(c), Scale(c), Pow10(e), Pow10(Digits10(c.sign)));
  }

  /** (hi - 1) * s + s - 1 is hi * s - 1. */
  lemma OneBelow(k: int, s: int, hi: int, top: int)
    requires k + 1 == hi && hi * s == top
    ensures k * s + s - 1 == top - 1
  {
    assert k * s + s == (k + 1) * s;
  }

  /** MAX times scale is the scaled bound 10^digits - 1. */
  lemma MaxRealScaled(c: Config)
    requires ValidConfig(c)
    ensures MaxReal(c) * (Scale(c) as real) == MaxScaled(c) as real
  {
    RealDivMul(MaxScaled(c) as real, Scale(c) as real);
  }

  lemma RealDivMul(a: real, s: real)
    requires s > 0.0
    ensures (a / s) * s == a
  {
  }

  lemma RealScaled(k: int, s: int, top: int, m: real)
    requires s > 0 && k * s + s - 1 == top
    requires m == (k as real) + ((s - 1) as real) / (s as real)
    ensures m * (s as real) == top as real
  {
    ProperFraction(k, s);
  }

  /** The integer part limit is a native value of either sign. */
  lemma MaxIntPartFits(c: Config)
    requires ValidConfig(c)
    ensures MaxIntPart(c) <= IntMax(c.sign)
    ensures c.sign == Signed ==> MaxIntPart(c) < TWO_63
  {
    MaxScaledFits(c);
  }

  /** MAX scaled (and -MAX scaled when signed) fits the native type, and
      scale and the integer part limit are no larger. */
  lemma MaxScaledFits(c: Config)
    requires ValidConfig(c)
    ensures InNative(c.sign, MaxScaled(c))
    ensures c.sign == Signed ==> InNative(c.sign, -(MaxScaled(c) as int))
    ensures Scale(c) <= MaxScaled(c)
    ensures MaxIntPart(c) <= MaxScaled(c)
  {
    MaxIntPartScaled(c);
    MulLe(MaxIntPart(c), 1, Scale(c));
    Pow10Values();
    Pow10Monotone(c.places, Digits10(c.sign) - 1);
    Pow10Add(Digits10(c.sign) - 1, 1);
  }

  /** A decimal value: the template configuration and the scaled integer. */
  datatype Decimal = Decimal(cfg: Config, fp: int)

  /** A value the C++ type can hold: a valid template and an fp of the
      native type. */
  predicate Valid(d: Decimal) {
    ValidConfig(d.cfg) && InNative(d.cfg.sign, d.fp)
  }

  /** The invariant MIN <= value <= MAX, stated on fp. For unsigned
      storage the lower bound is the native one. */
  predicate WithinBounds(c: Config, x: int) {
    && (if c.sign == Signed then -(MaxScaled(c) as int) else 0) <= x
    && x <= MaxScaled(c)
  }

  /** WithinBounds is the range MIN <= fp / scale <= MAX, for both
      headers (the snapshot's unsigned MIN of -MAX is below the native
      range, so the native bound is the binding one). */
  lemma WithinBoundsIsMinMax(c: Config, x: int)
    requires ValidConfig(c)
    ensures WithinBounds(c, x) <==>
      && InNative(c.sign, x)
      && MinReal(c) * (Scale(c) as real) <= x as real
      && x as real <= MaxReal(c) * (Scale(c) as real)
  {
    UpperIsMax(c, x);
    if c.sign == Signed || c.header == Snapshot {
      LowerIsMin(c);
    }
    MaxScaledFits(c);
  }

  /** MAX scaled, compared with fp. */
  lemma UpperIsMax(c: Config, x: int)
    requires ValidConfig(c)
    ensures x as real <= MaxReal(c) * (Scale(c) as real) <==> x <= MaxScaled(c)
  {
    MaxRealScaled(c);
  }

  /** MIN scaled, where MIN is -MAX: -MaxScaled. */
  lemma LowerIsMin(c: Config)
    requires ValidConfig(c) && (c.sign == Signed || c.header == Snapshot)
    ensures MinReal(c) * (Scale(c) as real) == -(MaxScaled(c) as real)
  {
    NegDiv(MaxScaled(c) as real, Scale(c) as real, MinReal(c));
  }

  lemma NegDiv(t: real, s: real, n: real)
    requires s > 0.0 && n == -(t / s)
    ensures n * s == -t
  {
    RealDivMul(t, s);
  }}

=== FILE: digits.dfy ===
/** Decimal digit strings: rendering a natural number with and without
    leading zeros, and reading a digit string back as a number. */
module Digits {
  import opened Numbers

  predicate IsDigit(ch: char) {
    '0' <= ch <= '9'
  }

  predicate AllDigits(s: string) {
    forall i :: 0 <= i < |s| ==> IsDigit(s[i])
  }

  /** The character of a digit value, as val % 10 + '0' computes it. */
  function Digit(d: int): (r: char)
    requires 0 <= d < 10
    ensures IsDigit(r)
  {
    ('0' as int + d) as char
  }

  function DigitValue(ch: char): (r: nat)
    requires IsDigit(ch)
    ensures r < 10 && Digit(r) == ch
  {
    ch as int - '0' as int
  }

  /** The number a digit string spells, most significant digit first; the
      empty string spells 0. */
  function DigitsValue(s: string): nat
    requires AllDigits(s)
  {
    if |s| == 0 then 0 else DigitsValue(s[..|s| - 1]) * 10 + DigitValue(s[|s| - 1])
  }

  /** n with its last k decimal digits dropped. */
  function Shifted(n: nat, k: nat): nat {
    DivNat(n, Pow10(k));
    n / Pow10(k)
  }

  /** n in decimal without leading zeros ("0" for zero). */
  function Show(n: nat): (r: string)
    ensures |r| >= 1 && AllDigits(r)
    ensures |r| > 1 ==> r[0] != '0'
  {
    if n < 10 then [Digit(n)] else Show(n / 10) + [Digit(n % 10)]
  }

  /** The last k decimal digits of n, zero-padded to exactly k characters. */
  function ShowPadded(n: nat, k: nat): (r: string)
    ensures |r| == k && AllDigits(r)
  {
    if k == 0 then [] else ShowPadded(n / 10, k - 1) + [Digit(n % 10)]
  }

  lemma {:induction false} DigitsValueSplit(s: string, t: string)
    requires AllDigits(s) && AllDigits(t)
    ensures AllDigits(s + t)
    ensures DigitsValue(s + t) == DigitsValue(s) * Pow10(|t|) + DigitsValue(t)
    decreases |t|
  {
    if |t| == 0 {
      assert s + t == s;
    } else {
      var t' := t[..|t| - 1];
      var u := s + t;
      assert AllDigits(t');
      DigitsValueSplit(s, t');
      assert u[..|u| - 1] == s + t' && u[|u| - 1] == t[|t| - 1];
      var a, b, d, p := DigitsValue(s), DigitsValue(t'), DigitValue(t[|t| - 1]), Pow10(|t'|);
      assert DigitsValue(u) == DigitsValue(s + t') * 10 + d;
      assert DigitsValue(t) == b * 10 + d;
      assert Pow10(|t|) == 10 * p;
      ShiftDigit(a, p, b, d);
    }
  }

  lemma ShiftDigit(a: int, p: int, b: int, d: int)
    ensures (a * p + b) * 10 + d == a * (10 * p) + (b * 10 + d)
  {
  }

  /** Show is inverted by DigitsValue. */
  lemma {:induction false} ShowValue(n: nat)
    ensures DigitsValue(Show(n)) == n
  {
    if n >= 10 {
      ShowValue(n / 10);
      var r := Show(n);
      assert r[..|r| - 1] == Show(n / 10);
    }
  }

  /** ShowPadded keeps exactly n modulo 10^k. */
  lemma {:induction false} ShowPaddedValue(n: nat, k: nat)
    ensures DigitsValue(ShowPadded(n, k)) == n % Pow10(k)
  {
    if k > 0 {
      ShowPaddedValue(n / 10, k - 1);
      var r := ShowPadded(n, k);
      assert r[..|r| - 1] == ShowPadded(n / 10, k - 1);
      ModTen(n, Pow10(k - 1));
    }
  }

  /** The last digit and the higher digits of n modulo 10 * m. */
  lemma ModTen(n: nat, m: nat)
    requires m >= 1
    ensures ((n / 10) % m) * 10 + n % 10 == n % (10 * m)
  {
    var a, b := n / 10, n % 10;
    var q, r := a / m, a % m;
    assert n == (10 * m) * q + (10 * r + b);
    ModUnique(n, 10 * m, q, 10 * r + b);
  }

  lemma ModUnique(n: int, d: int, q: int, r: int)
    requires d > 0 && 0 <= r < d && n == d * q + r
    ensures n % d == r && n / d == q
  {
    DivUnique(n, d, q);
  }

  /** A padded rendering one digit longer gains digit k of n at the front. */
  lemma {:induction false} ShowPaddedPrepend(n: nat, k: nat)
    ensures ShowPadded(n, k + 1) == [Digit((n / Pow10(k)) % 10)] + ShowPadded(n, k)
  {
    if k > 0 {
      ShowPaddedPrepend(n / 10, k - 1);
      DivDiv(n, 10, Pow10(k - 1));
    }
  }

  /** When q has m + 1 digits, Show(q) is its leading digit followed by its
      last m digits. */
  lemma {:induction false} ShowSplit(q: nat, m: nat)
    requires q / Pow10(m) < 10
    requires m > 0 ==> q / Pow10(m) >= 1
    ensures Show(q) == [Digit(q / Pow10(m))] + ShowPadded(q, m)
  {
    if m > 0 {
      DivDiv(q, 10, Pow10(m - 1));
      assert q >= 10 by {
        DivBounds(q, Pow10(m));
        Pow10Monotone(1, m);
      }
      ShowSplit(q / 10, m - 1);
    }
  }

  /** A number below 10^m takes at most m digits. */
  lemma {:induction false} ShowLength(n: nat, m: nat)
    requires 1 <= m && n < Pow10(m)
    ensures |Show(n)| <= m
  {
    assert Pow10(1) == 10;
    if n >= 10 {
      DivUnique(n, 10, n / 10);
      ShowLength(n / 10, m - 1);
    }
  }

  /** A digit string of more than one character without a leading zero is
      at least 10^(length - 1). */
  lemma {:induction false} NoLeadingZeroBound(s: string)
    requires AllDigits(s) && |s| >= 1 && (|s| > 1 ==> s[0] != '0')
    ensures |s| > 1 ==> DigitsValue(s) >= Pow10(|s| - 1)
    ensures DigitsValue(s) < Pow10(|s|)
  {
    DigitsBelow(s);
    if |s| > 1 {
      LeadingDigitBound(s);
    }
  }

  lemma LeadingDigitBound(s: string)
    requires AllDigits(s) && |s| > 1 && s[0] != '0'
    ensures DigitsValue(s) >= Pow10(|s| - 1)
  {
    var head, tail := s[..1], s[1..];
    DigitsValueSplit(head, tail);
    assert head + tail == s;
    var h, p := DigitsValue(head), Pow10(|tail|);
    assert DigitsValue(s) == h * p + DigitsValue(tail);
    assert h == DigitValue(s[0]) by {
      assert head[..0] == [];
    }
    MulLe(p, 1, h);
  }

  lemma {:induction false} DigitsBelow(s: string)
    requires AllDigits(s)
    ensures DigitsValue(s) < Pow10(|s|)
  {
    if |s| > 0 {
      DigitsBelow(s[..|s| - 1]);
    }
  }
}

=== FILE: format.dfy ===
/** Text output: to_str (every place printed), to_string() (trailing
    fraction zeros dropped) and to_string(decimals) (cut after a number of
    places). */
module Format {
  import opened Numbers
  import opened Outcomes
  import opened Native
  import opened Decimals
  import opened Digits

  /** to_str negates a negative fp natively, which has no result for the
      most negative int64_t; every other value of the type prints. */
  predicate Printable(c: Config, x: int) {
    ValidConfig(c) && InNative(c.sign, x) && x != -TWO_63
  }

  /** The digits before and after the point: |fp| / scale and
      |fp| % scale. */
  function WholeOf(c: Config, x: int): (r: nat)
    requires ValidConfig(c)
  {
    Shifted(Abs(x), c.places)
  }

  function FractionOf(c: Config, x: int): (r: nat)
    requires ValidConfig(c)
    ensures r < Scale(c)
  {
    DivNat(Abs(x), Scale(c));
    Abs(x) % Scale(c)
  }

  function SignPrefix(x: int): string {
    if x < 0 then "-" else ""
  }

  /** What to_str produces, read back: a '-' exactly for negative values,
      the whole part in digits without leading zeros, a point, and exactly
      nPlaces fraction digits, which spell |fp| / scale and |fp| % scale. */
  predicate Renders(c: Config, x: int, r: string)
    requires ValidConfig(c)
  {
    var lead := if x < 0 then 1 else 0;
    && |r| >= lead + c.places + 2
    && (x < 0 ==> r[0] == '-')
    && var point := |r| - c.places - 1;
    && r[point] == '.'
    && AllDigits(r[lead..point]) && AllDigits(r[point + 1..])
    && (point - lead > 1 ==> r[lead] != '0')
    && DigitsValue(r[lead..point]) == WholeOf(c, x)
    && DigitsValue(r[point + 1..]) == FractionOf(c, x)
  }

  /** to_str: sign, whole part, point, and every one of the nPlaces fraction
      digits. */
  function ToStr(c: Config, x: int): (r: string)
    requires Printable(c, x)
    ensures Renders(c, x, r)
  {
    var n := Abs(x);
    var whole, frac := Show(WholeOf(c, x)), ShowPadded(n, c.places);
    ShowValue(WholeOf(c, x));
    ShowPaddedValue(n, c.places);
    RenderLayout(c, x, SignPrefix(x), whole, frac);
    SignPrefix(x) + whole + "." + frac
  }

  lemma RenderLayout(c: Config, x: int, sign: string, whole: string, frac: string)
    requires ValidConfig(c) && sign == SignPrefix(x)
    requires AllDigits(whole) && |whole| >= 1 && (|whole| > 1 ==> whole[0] != '0')
    requires AllDigits(frac) && |frac| == c.places
    requires DigitsValue(whole) == WholeOf(c, x) && DigitsValue(frac) == FractionOf(c, x)
    ensures Renders(c, x, sign + whole + "." + frac)
  {
    var r := sign + whole + "." + frac;
    var lead, point := |sign|, |sign| + |whole|;
    assert |r| - c.places - 1 == point;
    assert r[lead..point] == whole;
    assert r[point + 1..] == frac;
    assert r[point] == '.';
  }

  /** The text to_str's buffer loop writes from the state (val, k), where k
      digits are already out: the remaining digits of val, most significant
      first, with the point where the nPlaces-th digit from the right ends. */
  function Rest(v: nat, k: nat, places: nat): string
    decreases v + (if k < places then places - k else 0)
  {
    if v >= 10 || k < places then
      Rest(v / 10, k + 1, places) + PointAt(k + 1, places) + [Digit(v % 10)]
    else [Digit(v)]
  }

  /** The point goes in once exactly nPlaces digits are out. */
  function PointAt(k: nat, places: nat): string {
    if k == places then "." else ""
  }

  /** A digit written in front of before, and the point in front of it at
      step nPlaces. */
  lemma Prepended(k: nat, places: nat, d: char, before: string, out: string)
    requires out == if k == places then ['.'] + ([d] + before) else [d] + before
    ensures out == PointAt(k, places) + [d] + before
  {
  }

  /** One turn of the loop, in terms of what is left to write. */
  lemma RestStep(v: nat, k: nat, places: nat, out: string)
    requires v >= 10 || k < places
    ensures Rest(v, k, places) + out == Rest(v / 10, k + 1, places) + (PointAt(k + 1, places) + [Digit(v % 10)] + out)
  {
  }

  /** After the loop the last digit is written, then the sign: the text is
      ToStr. */
  lemma RestDone(c: Config, x: int, v: nat, k: nat, out: string)
    requires Printable(c, x) && x != 0
    requires !(v >= 10 || k < c.places)
    requires Rest(v, k, c.places) + out == Rest(Abs(x), 0, c.places)
    ensures SignPrefix(x) + ([Digit(v)] + out) == ToStr(c, x)
  {
    RestFraction(Abs(x), c.places, c.places);
    ToStrText(c, x);
  }

  /** Once the fraction is out, the loop writes Show. */
  lemma {:induction false} RestWhole(v: nat, k: nat, places: nat)
    requires k >= places
    ensures Rest(v, k, places) == Show(v)
    decreases v
  {
    if v >= 10 {
      RestWhole(v / 10, k + 1, places);
    }
  }

  /** With j fraction digits still to write, the loop writes the whole part,
      the point and the last j digits. */
  lemma {:induction false} RestFraction(v: nat, j: nat, places: nat)
    requires 0 < j <= places
    ensures Rest(v, places - j, places) == Show(Shifted(v, j)) + "." + ShowPadded(v, j)
  {
    var d := [Digit(v % 10)];
    if j == 1 {
      RestWhole(v / 10, places, places);
      assert ShowPadded(v, 1) == d;
    } else {
      RestFraction(v / 10, j - 1, places);
      DivDiv(v, 10, Pow10(j - 1));
      assert Shifted(v / 10, j - 1) == Shifted(v, j);
      assert Rest(v, places - j, places) == Rest(v / 10, places - j + 1, places) + d;
      assert (Show(Shifted(v, j)) + "." + ShowPadded(v / 10, j - 1)) + d
          == Show(Shifted(v, j)) + "." + (ShowPadded(v / 10, j - 1) + d);
    }
  }

  /** The loop's bounds survive a turn: val * 10^k <= |fp|, k stays below
      the digit count of the native type, and a whole digit is left once
      the fraction is out. */
  lemma StepBounds(v: nat, k: nat, n: nat, sign: Signedness, places: nat)
    requires v * Pow10(k) <= n <= IntMax(sign) && places < Digits10(sign)
    requires k < (if sign == Signed then 19 else 20)
    requires v >= 10 || k < places
    ensures (v / 10) * Pow10(k + 1) <= n
    ensures k + 1 < (if sign == Signed then 19 else 20)
    ensures k + 1 > places ==> v / 10 >= 1
  {
    DropDigitBound(v, Pow10(k), n);
    if v >= 10 {
      StepsBound(v / 10, k + 1, n, sign);
    }
  }

  /** Dropping the last digit of v and scaling by ten more stays below n. */
  lemma DropDigitBound(v: nat, p: nat, n: nat)
    requires v * p <= n
    ensures (v / 10) * (10 * p) <= n
  {
    var q := v / 10;
    assert q * (10 * p) == (10 * q) * p;
    MulLe(p, 10 * q, v);
  }

  /** A digit still left at step k means 10^k <= |fp| < 2^64 (2^63 when
      signed), which bounds k. */
  lemma StepsBound(v: nat, k: nat, n: nat, sign: Signedness)
    requires v >= 1 && v * Pow10(k) <= n && n <= IntMax(sign)
    ensures k < (if sign == Signed then 19 else 20)
  {
    MulLe(Pow10(k), 1, v);
    var bound := if sign == Signed then 19 else 20;
    Pow10Values();
    assert Pow10(20) == 10 * Pow10(19);
    if k >= bound {
      Pow10Monotone(bound, k);
    }
  }

  lemma ZerosPadded(k: nat)
    ensures ShowPadded(0, k) == seq(k, _ => '0')
  {
    if k > 0 {
      ZerosPadded(k - 1);
    }
  }

  /** to_str's buffer algorithm: digits are written from the end of a
      25-character buffer, the point after nPlaces of them, until no whole
      digits remain but the last, then the sign. The text it returns is
      ToStr, and it never writes outside the buffer. */
  method ToStrBuffer(c: Config, x: int) returns (s: string)
    requires Printable(c, x)
    ensures s == ToStr(c, x)
    ensures |s| <= 25
  {
    if x == 0 {
      ZerosPadded(c.places);
      return "0." + seq(c.places, _ => '0');
    }
    var val, k, out := WriteDigits(c, Abs(x));
    RestDone(c, x, val, k, out);
    out := [Digit(val)] + out;
    if x < 0 {
      out := ['-'] + out;
    }
    s := out;
  }

  /** The loop of to_str: from position 24 of the buffer leftwards, the last
      digit of val is written and val divided by ten, with the point placed
      at position 24 - nPlaces, while whole digits beyond the first remain or
      the point is still to come. What it leaves to write is the leading
      digit alone. */
  method WriteDigits(c: Config, n: nat) returns (val: nat, k: nat, out: string)
    requires ValidConfig(c) && 0 < n <= IntMax(c.sign)
    ensures !(val >= 10 || k < c.places)
    ensures Rest(val, k, c.places) + out == Rest(n, 0, c.places)
    ensures |out| <= 21
  {
    var bound := if c.sign == Signed then 19 else 20;
    val := n;
    var i := 24;
    var idec := i - c.places;
    k := 0;
    out := [];
    while val >= 10 || i >= idec
      invariant 0 <= k < bound
      invariant i == if k < c.places then 24 - k else 23 - k
      invariant |out| == 24 - i
      invariant Rest(val, k, c.places) + out == Rest(n, 0, c.places)
      invariant val * Pow10(k) <= n
      invariant k > c.places ==> val >= 1
      decreases val + (if k < c.places then c.places - k else 0)
    {
      StepBounds(val, k, n, c.sign, c.places);
      ghost var before := out;
      RestStep(val, k, c.places, before);
      var d := Digit(val % 10);
      out := [d] + out;
      i := i - 1;
      k := k + 1;
      if i == idec {
        out := ['.'] + out;
        i := i - 1;
      }
      Prepended(k, c.places, d, before, out);
      val := val / 10;
    }
  }

  lemma ToStrText(c: Config, x: int)
    requires Printable(c, x)
    ensures ToStr(c, x) == SignPrefix(x) + (Show(Shifted(Abs(x), c.places)) + "." + ShowPadded(Abs(x), c.places))
  {
  }

  /** Finding the point of text + "." + rest, where text has none, lands on
      that point. */
  lemma {:induction false} FindAfter(a: string, b: string)
    requires '.' !in a
    ensures Find(a + "." + b, '.') == Some(|a|)
  {
    var s := a + "." + b;
    if |a| > 0 {
      assert s[1..] == a[1..] + "." + b;
      assert a == [a[0]] + a[1..];
      FindAfter(a[1..], b);
    }
  }

  /** The point of to_str's text is the only one, nPlaces from the end. */
  lemma FindPoint(c: Config, x: int)
    requires Printable(c, x)
    ensures Find(ToStr(c, x), '.') == Some(|ToStr(c, x)| - c.places - 1)
  {
    var whole := Show(WholeOf(c, x));
    SignedDigitsNoPoint(SignPrefix(x), whole);
    FindAfter(SignPrefix(x) + whole, ShowPadded(Abs(x), c.places));
  }

  /** An optional '-' and digits hold no point. */
  lemma SignedDigitsNoPoint(sign: string, digits: string)
    requires sign == "" || sign == "-"
    requires AllDigits(digits)
    ensures '.' !in sign + digits
  {
    var a := sign + digits;
    forall j | 0 <= j < |a|
      ensures a[j] != '.'
    {
      if j >= |sign| {
        assert a[j] == digits[j - |sign|];
      }
    }
  }

  /** std::string::find: the first position of ch, if any. */
  function Find(s: string, ch: char): (r: Option<nat>)
    ensures r.Some? ==> r.value < |s| && s[r.value] == ch && ch !in s[..r.value]
    ensures r.None? <==> ch !in s
  {
    if |s| == 0 then None
    else if s[0] == ch then Some(0)
    else
      var rest := Find(s[1..], ch);
      assert s == [s[0]] + s[1..];
      if rest.None? then None
      else
        assert s[..rest.value + 1] == [s[0]] + s[1..][..rest.value];
        Some(rest.value + 1)
  }

  /** to_string()'s backward scan from the last character toward the point:
      the text up to the last non-zero fraction digit, or up to the point
      (excluded) when every scanned digit is '0'. */
  function TrimFrom(s: string, point: nat, index: nat): (r: string)
    requires point <= index < |s|
    ensures |r| <= index + 1 && r == s[..|r|]
    ensures |r| == point || (point + 1 < |r| && s[|r| - 1] != '0')
    ensures forall j :: point < j <= index && |r| <= j ==> s[j] == '0'
    decreases index - point
  {
    if index == point then s[..point]
    else if s[index] != '0' then s[..index + 1]
    else TrimFrom(s, point, index - 1)
  }

  /** to_string(): to_str without the trailing zeros of the fraction, and
      without the point when the fraction is zero. */
  function ToString(c: Config, x: int): (r: string)
    requires Printable(c, x)
    ensures var s := ToStr(c, x); var point := |s| - c.places - 1;
      && |r| <= |s| && r == s[..|r|]
      && (|r| == point || (point + 1 < |r| && r[|r| - 1] != '0'))
      && (forall j :: point < j < |s| && |r| <= j ==> s[j] == '0')
  {
    var s := ToStr(c, x);
    FindPoint(c, x);
    match Find(s, '.')
    case None => s
    case Some(point) => TrimFrom(s, point, |s| - 1)
  }

  /** to_string(decimals): everything before the point for 0, otherwise the
      first point + decimals + 1 characters, the count computed in size_t
      (so a negative count wraps to a huge one) and clipped to the text. */
  function ToStringDecimals(c: Config, x: int, d: int): (r: string)
    requires Printable(c, x) && -0x8000_0000 <= d < 0x8000_0000
    ensures var s := ToStr(c, x); var point := |s| - c.places - 1;
      && |r| <= |s| && r == s[..|r|]
      && (d == 0 ==> |r| == point)
      && (0 < d <= c.places ==> |r| == point + d + 1)
      && (d >= c.places ==> r == s)
      && (d < 0 && point + d + 1 >= 0 ==> |r| == point + d + 1)
      && (d < 0 && point + d + 1 < 0 ==> r == s)
  {
    var s := ToStr(c, x);
    FindPoint(c, x);
    ToStrLength(c, x);
    match Find(s, '.')
    case None => s
    case Some(point) =>
      if d == 0 then s[..point]
      else
        var count := SizeT(point + d + 1);
        s[..if count < |s| then count else |s|]
  }

  /** The conversion of a small int to size_t: negative values wrap to the
      top of the 64-bit range. */
  function SizeT(v: int): (r: nat)
    requires -TWO_64 < v < TWO_64
    ensures r == Wrap(Unsigned, v)
  {
    if v >= 0 then v else v + TWO_64
  }

  /** to_str's text is short: at most twenty whole digits, the point, at most
      eighteen places and a sign. */
  lemma ToStrLength(c: Config, x: int)
    requires Printable(c, x)
    ensures |ToStr(c, x)| < 64
  {
    var n := Abs(x);
    DivNat(n, Scale(c));
    assert WholeOf(c, x) <= n by {
      DivBounds(n, Scale(c));
      MulLe(WholeOf(c, x), 1, Scale(c));
    }
    Pow10Values();
    assert Pow10(20) == 10 * Pow10(19);
    ShowLength(WholeOf(c, x), 20);
    ToStrText(c, x);
  }

  /** 1.5 with two unsigned places prints as "1.50". */
  lemma ToStrExample()
    ensures ToStr(Config(2, Unsigned, Current), 150) == "1.50"
  {
    OneFiftyWhole();
    OneFiftyFraction();
    assert Show(1) == "1";
    assert "" + "1" + "." + "50" == "1.50";
    ToStrParts(Config(2, Unsigned, Current), 150, "1", "50");
  }

  lemma OneFiftyWhole()
    ensures WholeOf(Config(2, Unsigned, Current), 150) == 1
  {
    assert Pow10(2) == 100;
  }

  lemma OneFiftyFraction()
    ensures ShowPadded(150, 2) == "50"
  {
    assert ShowPadded(1, 0) == [];
    assert ShowPadded(15, 1) == "5";
  }

  /** ToStr in terms of its pieces. */
  lemma ToStrParts(c: Config, x: int, whole: string, frac: string)
    requires Printable(c, x)
    requires whole == Show(WholeOf(c, x)) && frac == ShowPadded(Abs(x), c.places)
    ensures ToStr(c, x) == SignPrefix(x) + whole + "." + frac
  {
    ToStrText(c, x);
  }

  /** ... and to_string drops the trailing zero: "1.5". */
  lemma ToStringExample()
    ensures ToString(Config(2, Unsigned, Current), 150) == "1.5"
  {
    ToStrExample();
    FindPoint(Config(2, Unsigned, Current), 150);
    assert TrimFrom("1.50", 1, 3) == "1.5";
  }

  /** -0.05 with two signed places prints as "-0.05". */
  lemma ToStrNegativeExample()
    ensures ToStr(Config(2, Signed, Current), -5) == "-0.05"
  {
    MinusFiveWhole();
    MinusFiveFraction();
    assert Show(0) == "0";
    assert "-" + "0" + "." + "05" == "-0.05";
    ToStrParts(Config(2, Signed, Current), -5, "0", "05");
  }

  lemma MinusFiveWhole()
    ensures WholeOf(Config(2, Signed, Current), -5) == 0
  {
    assert Pow10(2) == 100;
  }

  lemma MinusFiveFraction()
    ensures ShowPadded(5, 2) == "05"
  {
    assert ShowPadded(0, 0) == [];
    assert ShowPadded(0, 1) == "0";
  }

  /** Zero prints as "0.00"... */
  lemma ToStrZeroExample()
    ensures ToStr(Config(2, Signed, Current), 0) == "0.00"
  {
    var c := Config(2, Signed, Current);
    assert WholeOf(c, 0) == 0 by {
      assert Pow10(2) == 100;
    }
    assert Show(0) == "0";
    assert ShowPadded(0, 2) == "00" by {
      assert ShowPadded(0, 0) == [];
      assert ShowPadded(0, 1) == "0";
    }
    ToStrParts(c, 0, "0", "00");
    assert "" + "0" + "." + "00" == "0.00";
  }

  /** ... and as "0". */
  lemma ToStringZeroExample()
    ensures ToString(Config(2, Signed, Current), 0) == "0"
  {
    ToStrZeroExample();
    FindPoint(Config(2, Signed, Current), 0);
    assert TrimFrom("0.00", 1, 3) == "0";
  }

  /** 12.345 with three unsigned places prints as "12.345". */
  lemma TwelveText()
    ensures ToStr(Config(3, Unsigned, Current), 12_345) == "12.345"
    ensures Find("12.345", '.') == Some(2)
  {
    var c := Config(3, Unsigned, Current);
    assert WholeOf(c, 12_345) == 12 by {
      assert Pow10(3) == 1000;
    }
    assert Show(12) == "12";
    assert ShowPadded(12_345, 3) == "345" by {
      assert ShowPadded(12, 0) == [];
      assert ShowPadded(123, 1) == "3";
      assert ShowPadded(1234, 2) == "34";
    }
    ToStrParts(c, 12_345, "12", "345");
    assert "" + "12" + "." + "345" == "12.345";
    FindPoint(c, 12_345);
  }

  /** "12.345" cut to one place is "12.3". */
  lemma ToStringDecimalsOneExample()
    ensures ToStringDecimals(Config(3, Unsigned, Current), 12_345, 1) == "12.3"
  {
    TwelveText();
  }

  /** ... and to none, "12". */
  lemma ToStringDecimalsZeroExample()
    ensures ToStringDecimals(Config(3, Unsigned, Current), 12_345, 0) == "12"
  {
    TwelveText();
  }

  /** decimals = -1 asks for point + 0 characters: "12". */
  lemma ToStringDecimalsMinusOneExample()
    ensures ToStringDecimals(Config(3, Unsigned, Current), 12_345, -1) == "12"
  {
    TwelveText();
  }

  /** decimals = -2 cuts into the whole part: "1". */
  lemma ToStringDecimalsMinusTwoExample()
    ensures ToStringDecimals(Config(3, Unsigned, Current), 12_345, -2) == "1"
  {
    TwelveText();
  }
}

=== FILE: native.dfy ===
/** The machine integer behind a decimal: int64_t when signed, uint64_t when
    unsigned, and the table of powers of ten the engine indexes. */
module Native {
  import opened Numbers
  import opened Outcomes

  datatype Signedness = Signed | Unsigned

  const TWO_63: int := 0x8000_0000_0000_0000
  const TWO_64: int := 0x1_0000_0000_0000_0000

  function IntMin(s: Signedness): int {
    if s == Signed then -TWO_63 else 0
  }

  function IntMax(s: Signedness): int {
    if s == Signed then TWO_63 - 1 else TWO_64 - 1
  }

  predicate InNative(s: Signedness, x: int) {
    IntMin(s) <= x <= IntMax(s)
  }

  /** The value a native operation leaves when its exact result does not fit:
      reduction modulo 2^64 into the native range. For uint64_t this is the
      language's rule; for int64_t, where overflow is undefined, it is the
      two's-complement wrap-around of the compiled code. */
  function Wrap(s: Signedness, x: int): (r: int)
    ensures InNative(s, r)
    ensures (r - x) % TWO_64 == 0
    ensures InNative(s, x) ==> r == x
  {
    if s == Unsigned then x % TWO_64 else (x + TWO_63) % TWO_64 - TWO_63
  }

  /** std::numeric_limits<IntType>::digits10: how many decimal digits every
      value of the native type can hold. */
  function Digits10(s: Signedness): nat {
    if s == Signed then 18 else 19
  }

  /** Index of the last entry of the power-of-ten table: 20 entries for
      uint64_t, 19 for int64_t. */
  function TableLast(s: Signedness): nat {
    if s == Signed then 18 else 19
  }

  lemma Pow10Values()
    ensures Pow10(18) == 1_000_000_000_000_000_000
    ensures Pow10(19) == 10_000_000_000_000_000_000
  {
    assert Pow10(6) == 1_000_000;
    Pow10Add(6, 6);
    Pow10Add(12, 6);
    Pow10Add(18, 1);
  }

  /** Every power of ten up to 10^TableLast fits the native type, and the
      next one does not. */
  lemma TableFits(s: Signedness, e: nat)
    ensures e <= TableLast(s) ==> InNative(s, Pow10(e))
    ensures !InNative(s, Pow10(TableLast(s) + 1))
  {
    Pow10Values();
    if e <= TableLast(s) {
      Pow10Monotone(e, TableLast(s));
    }
  }

  /** precomputed_pow_10: 10^e from a fixed table, or InvalidExponent past the
      table's end. */
  function Pow10Table(s: Signedness, e: nat): (r: Result<int>)
    ensures r.Ok? <==> e <= TableLast(s)
    ensures r.Err? ==> r.error == InvalidExponent
    ensures r.Ok? ==> r.value == Pow10(e) && InNative(s, r.value)
  {
    TableFits(s, e);
    if e > TableLast(s) then Err(InvalidExponent) else Ok(Pow10(e))
  }
}

=== FILE: numbers.dfy ===
/** Integer facts the engine relies on: powers of ten, the C++ truncating
    division and remainder, and the reference definition of rounding half away
    from zero against which every rounding step of the engine is checked. */
module Numbers {

  function Abs(x: int): nat {
    if x < 0 then -x else x
  }

  function Pow10(e: nat): (r: nat)
    ensures r >= 1
  {
    if e == 0 then 1 else 10 * Pow10(e - 1)
  }

  lemma {:induction false} Pow10Add(a: nat, b: nat)
    ensures Pow10(a + b) == Pow10(a) * Pow10(b)
  {
    if a > 0 {
      Pow10Add(a - 1, b);
      assert Pow10(a + b) == 10 * Pow10(a - 1 + b);
    }
  }

  lemma Pow10Monotone(a: nat, b: nat)
    requires a <= b
    ensures Pow10(a) <= Pow10(b)
  {
    Pow10Add(a, b - a);
  }

  /** A power of ten above 10^0 is even, so halving it is exact. */
  lemma Pow10Even(e: nat)
    requires e >= 1
    ensures Pow10(e) % 2 == 0 && Pow10(e) >= 10
  {
    var k := Pow10(e - 1);
    assert Pow10(e) == 2 * (5 * k);
    DivUnique(2 * (5 * k), 2, 5 * k);
  }

  /** C++ `a / b`: the quotient truncated toward zero. */
  function TDiv(a: int, b: int): int
    requires b != 0
  {
    var q := Abs(a) / Abs(b);
    if (a < 0) == (b < 0) then q else -q
  }

  /** C++ `a % b`: the remainder takes the sign of the dividend. */
  function TMod(a: int, b: int): int
    requires b != 0
  {
    if a < 0 then -(Abs(a) % Abs(b)) else Abs(a) % Abs(b)
  }

  /** The C++ division identity: quotient and remainder recompose the
      dividend, the remainder is smaller than the divisor and never has the
      opposite sign of the dividend. */
  lemma TDivMod(a: int, b: int)
    requires b != 0
    ensures TDiv(a, b) * b + TMod(a, b) == a
    ensures Abs(TMod(a, b)) < Abs(b)
    ensures a >= 0 ==> TMod(a, b) >= 0
    ensures a <= 0 ==> TMod(a, b) <= 0
  {
    var q := Abs(a) / Abs(b);
    var m := Abs(a) % Abs(b);
    assert q * Abs(b) + m == Abs(a);
  }

  /** Truncating division by a positive divisor moves toward zero without
      crossing it. */
  lemma TDivShrinks(a: int, b: int)
    requires b > 0
    ensures a >= 0 ==> 0 <= TDiv(a, b) <= a
    ensures a <= 0 ==> a <= TDiv(a, b) <= 0
  {
    var q := Abs(a) / b;
    DivBounds(Abs(a), b);
    MulLe(q, 1, b);
  }

  lemma TDivOfZero(b: int)
    requires b != 0
    ensures TDiv(0, b) == 0
  {
    DivUnique(0, Abs(b), 0);
  }

  /** On a non-negative dividend and positive divisor the C++ operators agree
      with Dafny's. */
  lemma TDivNonNegative(a: int, b: int)
    requires a >= 0 && b > 0
    ensures TDiv(a, b) == a / b && TMod(a, b) == a % b
  {
  }

  /** Reference rounding: num/den rounded to the nearest integer, a tie going
      away from zero. */
  function RoundHalfAway(num: int, den: int): int
    requires den != 0
  {
    var q := (2 * Abs(num) + Abs(den)) / (2 * Abs(den));
    if (num < 0) == (den < 0) then q else -q
  }

  /** What "nearest, ties away from zero" means without a formula: the
      rounded multiple of den is within half of den of num, and a tie is only
      allowed on the side farther from zero. */
  ghost predicate NearestHalfAway(num: int, den: int, r: int) {
    && 2 * Abs(num - r * den) <= Abs(den)
    && (2 * Abs(num - r * den) == Abs(den) ==> Abs(r * den) > Abs(num))
  }

  /** Dafny's division on a positive divisor, pinned by its bounds. */
  lemma DivBounds(a: int, b: int)
    requires b > 0
    ensures b * (a / b) <= a < b * (a / b) + b
  {
  }

  /** Dividing a non-negative number by a positive one gives a quotient
      and remainder that are natural numbers. */
  lemma DivNat(a: int, b: int)
    requires a >= 0 && b > 0
    ensures a / b >= 0 && 0 <= a % b < b
  {
    DivBounds(a, b);
    if a / b < 0 {
      MulLe(b, a / b, -1);
    }
  }

  lemma MulLe(b: int, x: int, y: int)
    requires b >= 0 && x <= y
    ensures b * x <= b * y
  {
    assert b * y - b * x == b * (y - x);
  }

  /** Multiplying by a positive s preserves strict order, both ways. */
  lemma MulStrict(s: int, k: int, m: int)
    requires s > 0
    ensures k * s < m * s <==> k < m
  {
    if k < m {
      MulLe(s, k + 1, m);
    } else {
      MulLe(s, m, k);
    }
  }

  lemma DivUnique(a: int, b: int, q: int)
    requires b > 0
    requires b * q <= a < b * q + b
    ensures a / b == q
  {
    var q' := a / b;
    DivBounds(a, b);
    if q' < q {
      MulLe(b, q' + 1, q);
    } else if q' > q {
      MulLe(b, q + 1, q');
    }
  }

  /** Existence on non-negative operands. */
  lemma NearestNormalized(n: int, d: int)
    requires n >= 0 && d > 0
    ensures 2 * Abs(n - (2 * n + d) / (2 * d) * d) <= d
    ensures 2 * Abs(n - (2 * n + d) / (2 * d) * d) == d ==> (2 * n + d) / (2 * d) * d > n
  {
    var q := (2 * n + d) / (2 * d);
    DivBounds(2 * n + d, 2 * d);
    var p := q * d;
    assert (2 * d) * q == 2 * p;
    assert 2 * p <= 2 * n + d < 2 * p + 2 * d;
  }

  lemma RoundHalfAwayIsNearest(num: int, den: int)
    requires den != 0
    ensures NearestHalfAway(num, den, RoundHalfAway(num, den))
  {
    var n: int, d: int := Abs(num), Abs(den);
    DivNat(2 * n + d, 2 * d);
    var q := (2 * n + d) / (2 * d);
    NearestNormalized(n, d);
    NearestFromMagnitude(num, den, RoundHalfAway(num, den), q);
  }

  /** A candidate of magnitude q, nearest to |num| / |den| with ties away,
      and with the sign of num / den, is nearest to num / den. */
  lemma NearestFromMagnitude(num: int, den: int, r: int, q: int)
    requires den != 0 && q >= 0
    requires r == (if (num < 0) == (den < 0) then q else -q)
    requires 2 * Abs(Abs(num) - q * Abs(den)) <= Abs(den)
    requires 2 * Abs(Abs(num) - q * Abs(den)) == Abs(den) ==> q * Abs(den) > Abs(num)
    ensures NearestHalfAway(num, den, r)
  {
    assert Abs(r) == q;
    SignNormalize(num, den, r);
  }

  /** Moving the signs of num and den onto the quotient candidate r: the
      distance and the magnitude of r * den are those of |num| against
      |r| * |den|. */
  lemma SignNormalize(num: int, den: int, r: int)
    requires den != 0
    requires r == 0 || ((num < 0) == (den < 0)) == (r > 0) || num == 0
    ensures Abs(num - r * den) == Abs(Abs(num) - Abs(r) * Abs(den))
    ensures Abs(r * den) == Abs(r) * Abs(den)
  {
    if r != 0 && num != 0 {
      if den > 0 && num > 0 {
        assert r > 0;
      } else if den > 0 && num < 0 {
        assert r < 0;
        assert num - r * den == -(Abs(num) - Abs(r) * Abs(den));
      } else if den < 0 && num > 0 {
        assert r < 0;
        assert r * den == Abs(r) * Abs(den);
      } else {
        assert r > 0;
        assert r * den == -(Abs(r) * Abs(den));
        assert num - r * den == -(Abs(num) - Abs(r) * Abs(den));
      }
    }
    if r != 0 && num == 0 {
      assert Abs(r * den) == Abs(r) * Abs(den) by {
        if r < 0 && den < 0 { assert r * den == Abs(r) * Abs(den); }
        else if r < 0 { assert r * den == -(Abs(r) * Abs(den)); }
        else if den < 0 { assert r * den == -(Abs(r) * Abs(den)); }
      }
    }
  }

  /** Uniqueness on non-negative operands. */
  lemma NearestUniqueNormalized(n: int, d: int, q: int)
    requires n >= 0 && d > 0 && q >= 0
    requires 2 * Abs(n - q * d) <= d
    requires 2 * Abs(n - q * d) == d ==> q * d > n
    ensures q == (2 * n + d) / (2 * d)
  {
    var p := q * d;
    assert 2 * p <= 2 * n + d < 2 * p + 2 * d;
    assert (2 * d) * q == 2 * p;
    DivUnique(2 * n + d, 2 * d, q);
  }

  /** A non-zero multiple of den is at least den away from zero. */
  lemma NonZeroMultiple(den: int, r: int)
    requires den != 0 && r != 0
    ensures Abs(r * den) >= Abs(den)
  {
    SignNormalize(0, den, r);
    MulLe(Abs(den), 1, Abs(r));
  }

  /** A multiple of den on the other side of zero from num is more than half
      of den away from num. */
  lemma WrongSideIsFar(num: int, den: int, r: int)
    requires den != 0 && num != 0 && r != 0
    requires ((num < 0) == (den < 0)) != (r > 0)
    ensures 2 * Abs(num - r * den) > Abs(den)
  {
    NonZeroMultiple(den, r);
    if num > 0 {
      assert r * den < 0;
    } else {
      assert r * den > 0;
    }
  }

  lemma UniqueAtZero(num: int, den: int, r: int)
    requires den != 0
    requires NearestHalfAway(num, den, r)
    requires num == 0 || r == 0
    ensures r == RoundHalfAway(num, den)
  {
    var n: int, d: int := Abs(num), Abs(den);
    if r != 0 {
      NonZeroMultiple(den, r);
    } else {
      DivUnique(2 * n + d, 2 * d, 0);
    }
  }

  lemma UniqueSameSide(num: int, den: int, r: int)
    requires den != 0
    requires NearestHalfAway(num, den, r)
    requires num != 0 && r != 0 && ((num < 0) == (den < 0)) == (r > 0)
    ensures r == RoundHalfAway(num, den)
  {
    SignNormalize(num, den, r);
    NearestUniqueNormalized(Abs(num), Abs(den), Abs(r));
  }

  /** The rounded value is unique: any r with the nearest, ties-away property
      is RoundHalfAway(num, den). */
  lemma NearestHalfAwayUnique(num: int, den: int, r: int)
    requires den != 0
    requires NearestHalfAway(num, den, r)
    ensures r == RoundHalfAway(num, den)
  {
    if num == 0 || r == 0 {
      UniqueAtZero(num, den, r);
    } else if ((num < 0) == (den < 0)) != (r > 0) {
      WrongSideIsFar(num, den, r);
    } else {
      UniqueSameSide(num, den, r);
    }
  }

  lemma DivCancel(a: int, b: int, c: int)
    requires b > 0 && c > 0
    ensures (c * a) / (c * b) == a / b
  {
    var q := a / b;
    DivBounds(a, b);
    MulLe(c, b * q, a);
    MulLe(c, a, b * q + b - 1);
    assert (c * b) * q == c * (b * q);
    assert c * (b * q + b - 1) == (c * b) * q + c * b - c;
    DivUnique(c * a, c * b, q);
  }

  /** Adding half of an even divisor before a truncating division, with the
      half taking the sign of the dividend, is rounding half away from zero. */
  lemma BiasedDivision(i: int, pow: int)
    requires pow >= 2 && pow % 2 == 0
    ensures TDiv(if i < 0 then i - pow / 2 else i + pow / 2, pow) == RoundHalfAway(i, pow)
  {
    var h := pow / 2;
    assert pow == 2 * h;
    DivCancel(Abs(i) + h, pow, 2);
    assert 2 * (Abs(i) + h) == 2 * Abs(i) + pow;
  }

  /** What C++ truncating division means without a formula: q * den is the
      multiple of den nearest to num on num's side of zero, no farther from
      zero than num. */
  ghost predicate TruncatedQuotient(num: int, den: int, q: int) {
    && Abs(q * den) <= Abs(num) < Abs(q * den) + Abs(den)
    && (num > 0 ==> q * den >= 0)
    && (num < 0 ==> q * den <= 0)
  }

  /** The magnitude and sign of a product. */
  lemma AbsMul(a: int, b: int)
    ensures Abs(a * b) == Abs(a) * Abs(b)
    ensures (a >= 0) == (b >= 0) ==> a * b >= 0
    ensures (a >= 0) != (b >= 0) ==> a * b <= 0
  {
    if a < 0 && b < 0 {
      assert a * b == Abs(a) * Abs(b);
    } else if a < 0 || b < 0 {
      assert a * b == -(Abs(a) * Abs(b));
    }
  }

  lemma TDivIsTruncated(num: int, den: int)
    requires den != 0
    ensures TruncatedQuotient(num, den, TDiv(num, den))
  {
    var n: int, d: int := Abs(num), Abs(den);
    DivNat(n, d);
    var m := n / d;
    DivBounds(n, d);
    assert m * d <= n < m * d + d by {
      assert d * m == m * d;
    }
    TruncatedFromMagnitude(num, den, TDiv(num, den), m);
  }

  /** A quotient of magnitude m = |num| / |den| with the sign of num / den is
      the truncated quotient. */
  lemma TruncatedFromMagnitude(num: int, den: int, q: int, m: int)
    requires den != 0 && m >= 0
    requires m * Abs(den) <= Abs(num) < m * Abs(den) + Abs(den)
    requires q == (if (num < 0) == (den < 0) then m else -m)
    ensures TruncatedQuotient(num, den, q)
  {
    AbsMul(q, den);
    assert Abs(q) == m;
    if q == 0 {
      assert q * den == 0;
    }
  }

  /** Truncating division is the only quotient with that meaning. */
  lemma TruncatedQuotientUnique(num: int, den: int, q: int)
    requires den != 0
    requires TruncatedQuotient(num, den, q)
    ensures q == TDiv(num, den)
  {
    var n: int, d: int := Abs(num), Abs(den);
    AbsMul(q, den);
    assert d * Abs(q) <= n < d * Abs(q) + d;
    DivUnique(n, d, Abs(q));
    if q != 0 {
      MulLe(d, 1, Abs(q));
    }
  }

  /** A whole multiple of s on the same side of zero as t passes through
      truncating division unchanged. */
  lemma TDivShift(m: int, t: int, s: int)
    requires s > 0
    requires (m >= 0 && t >= 0) || (m <= 0 && t <= 0)
    ensures TDiv(m * s + t, s) == m + TDiv(t, s)
  {
    var a: int, b: int := Abs(m), Abs(t);
    DivNat(b, s);
    var q := b / s;
    DivBounds(b, s);
    assert s * (a + q) == a * s + s * q;
    DivUnique(a * s + b, s, a + q);
    AbsMul(m, s);
    assert Abs(m * s) == a * s;
    ShiftSigns(m, t, s, a * s + b, a + q, q);
  }

  /** The sign bookkeeping of TDivShift: with |m * s + t| = |m| * s + |t|
      whose quotient is |m| + |t| / s, the signed quotients add up. */
  lemma ShiftSigns(m: int, t: int, s: int, n: int, qn: int, qt: int)
    requires s > 0
    requires (m >= 0 && t >= 0) || (m <= 0 && t <= 0)
    requires Abs(m * s) == Abs(m) * s
    requires n == Abs(m) * s + Abs(t) && n / s == qn && Abs(t) / s == qt
    requires qn == Abs(m) + qt && qt >= 0
    ensures TDiv(m * s + t, s) == m + TDiv(t, s)
  {
    if m >= 0 && t >= 0 {
      MulLe(s, 0, m);
      assert Abs(m * s + t) == n;
    } else {
      MulLe(s, m, 0);
      assert Abs(m * s + t) == n;
      if t == 0 {
        assert qt == 0;
      }
    }
  }

  /** On magnitudes: rounding half up is the floor plus one exactly when the
      remainder is at least half the divisor. */
  lemma RoundMagnitude(n: int, d: int)
    requires n >= 0 && d > 0
    ensures (2 * n + d) / (2 * d) == n / d + (if 2 * (n % d) >= d then 1 else 0)
  {
    var q, m := n / d, n % d;
    DivBounds(n, d);
    assert n == d * q + m;
    var k := q + (if 2 * m >= d then 1 else 0);
    assert (2 * d) * k == 2 * (d * q) + (if 2 * m >= d then 2 * d else 0);
    DivUnique(2 * n + d, 2 * d, k);
  }

  lemma TDivExact(k: int, s: int)
    requires s > 0
    ensures TDiv(k * s, s) == k
  {
    TDivShift(k, 0, s);
    assert TDiv(0, s) == 0;
  }

  /** Two scaled integers multiplied and divided back by the scale. */
  lemma ScaledProduct(v: int, p: int, s: int)
    requires s > 0
    ensures TDiv((v * s) * (p * s), s) == v * p * s
  {
    var k := v * p * s;
    assert (v * s) * (p * s) == k * s by {
      assert (v * s) * (p * s) == v * (s * (p * s));
      assert s * (p * s) == (p * s) * s;
      assert v * ((p * s) * s) == (v * (p * s)) * s;
      assert v * (p * s) == (v * p) * s;
    }
    TDivExact(k, s);
  }

  /** Rounding half away from zero is the truncated quotient moved one step
      away from zero when the remainder is at least half the divisor. */
  lemma RoundFromRemainder(num: int, den: int)
    requires den != 0
    ensures RoundHalfAway(num, den) ==
      TDiv(num, den) + (if 2 * Abs(TMod(num, den)) >= Abs(den) then (if (num < 0) != (den < 0) then -1 else 1) else 0)
  {
    RoundMagnitude(Abs(num), Abs(den));
  }

  /** Dividing by a and then by b is dividing by a * b. */
  lemma DivDiv(n: int, a: int, b: int)
    requires n >= 0 && a > 0 && b > 0
    ensures n / a / b == n / (a * b)
  {
    var q1 := n / a;
    var q2 := q1 / b;
    DivBounds(n, a);
    DivBounds(q1, b);
    MulLe(a, b * q2, q1);
    MulLe(a, q1, b * q2 + b - 1);
    assert (a * b) * q2 == a * (b * q2);
    assert a * (b * q2 + b - 1) + a == (a * b) * q2 + a * b;
    DivUnique(n, a * b, q2);
  }

  /** A whole multiple of d on the same side of zero as t passes through
      rounding half away from zero unchanged. */
  lemma RoundShift(m: int, t: int, d: int)
    requires d > 0
    requires (m >= 0 && t >= 0) || (m <= 0 && t <= 0)
    ensures RoundHalfAway(m * d + t, d) == m + RoundHalfAway(t, d)
  {
    var a: int, b: int := Abs(m), Abs(t);
    DivNat(2 * b + d, 2 * d);
    var q := (2 * b + d) / (2 * d);
    DivBounds(2 * b + d, 2 * d);
    assert (2 * d) * (a + q) == 2 * (a * d) + (2 * d) * q;
    DivUnique(2 * (a * d + b) + d, 2 * d, a + q);
    AbsMul(m, d);
    assert Abs(m * d) == a * d;
    RoundSigns(m, t, d, a * d + b, a + q, q);
  }

  /** The sign bookkeeping of RoundShift: with |m * d + t| = |m| * d + |t|
      whose rounded quotient is |m| plus that of |t|, the signed results add
      up. */
  lemma RoundSigns(m: int, t: int, d: int, n: int, qn: int, qt: int)
    requires d > 0
    requires (m >= 0 && t >= 0) || (m <= 0 && t <= 0)
    requires Abs(m * d) == Abs(m) * d
    requires n == Abs(m) * d + Abs(t)
    requires (2 * n + d) / (2 * d) == qn && (2 * Abs(t) + d) / (2 * d) == qt
    requires qn == Abs(m) + qt && qt >= 0
    ensures RoundHalfAway(m * d + t, d) == m + RoundHalfAway(t, d)
  {
    if m >= 0 && t >= 0 {
      MulLe(d, 0, m);
      assert Abs(m * d + t) == n;
    } else {
      MulLe(d, m, 0);
      assert Abs(m * d + t) == n;
      if t == 0 {
        DivUnique(d, 2 * d, 0);
        assert qt == 0;
      }
    }
  }
}

=== FILE: outcomes.dfy ===
/** The error kinds the decimal engine throws, and a failure-compatible Result
    type so that an exception becomes a value the caller receives. */
module Outcomes {

  /** One constructor per exception object of the engine (plus the two that
      the standard integer parser throws). */
  datatype Error =
    | DivisionByZero   // errDivByZero
    | Overflow         // errOverflow
    | TooLarge         // errTooLarge: integer part of a text above MAX
    | InvalidInput     // std::invalid_argument from the integer parser
    | InvalidExponent  // power-of-ten table index out of range
    | OutOfRange       // std::out_of_range from the integer parser

  datatype Option<+T> = None | Some(value: T)

  datatype Result<+T> = Ok(value: T) | Err(error: Error) {

    predicate IsFailure() {
      Err?
    }

    function PropagateFailure<U>(): Result<U>
      requires Err?
    {
      Err(error)
    }

    function Extract(): T
      requires Ok?
    {
      value
    }
  }
}

=== FILE: parse.dfy ===
/** Reading text: parseInteger (std::stoll / std::stoull) and the
    Decimal(const std::string&) constructor, as the code is written and as
    it is evidently intended. */
module Parsing {
  import opened Numbers
  import opened Outcomes
  import opened Native
  import opened Decimals
  import opened Digits
  import opened Format

  /** The white-space characters of the C locale: space, and tab through
      carriage return. */
  predicate IsSpace(ch: char) {
    ch == ' ' || '\t' <= ch <= '\r'
  }

  /** The number of leading white-space characters. */
  function SpaceRun(s: string): (r: nat)
    ensures r <= |s|
    ensures forall j :: 0 <= j < r ==> IsSpace(s[j])
    ensures r < |s| ==> !IsSpace(s[r])
  {
    if |s| == 0 || !IsSpace(s[0]) then 0
    else
      var rest := SpaceRun(s[1..]);
      assert forall j :: 1 <= j < 1 + rest ==> s[j] == s[1..][j - 1];
      1 + rest
  }

  /** The number of leading decimal digits. */
  function DigitRun(s: string): (r: nat)
    ensures r <= |s| && AllDigits(s[..r])
    ensures r < |s| ==> !IsDigit(s[r])
  {
    if |s| == 0 || !IsDigit(s[0]) then 0
    else
      var rest := DigitRun(s[1..]);
      assert s[..1 + rest] == [s[0]] + s[1..][..rest];
      1 + rest
  }

  /** The text after the leading white space and an optional sign. */
  function AfterSign(s: string): string {
    var t := s[SpaceRun(s)..];
    if |t| > 0 && (t[0] == '-' || t[0] == '+') then t[1..] else t
  }

  /** Whether the first character after the white space is '-'. */
  predicate LeadingMinus(s: string) {
    var t := s[SpaceRun(s)..];
    |t| > 0 && t[0] == '-'
  }

  /** The digits strtoll / strtoull read: the longest run after the sign. */
  function Numeral(s: string): (r: string)
    ensures AllDigits(r)
  {
    var t := AfterSign(s);
    t[..DigitRun(t)]
  }

  /** parseInteger: std::stoll for signed storage, std::stoull for unsigned.
      No digit after the white space and sign is std::invalid_argument; a
      magnitude the type cannot hold is std::out_of_range; stoull negates a
      '-' number modulo 2^64 instead of refusing it. */
  function ParseInteger(sign: Signedness, s: string): (r: Result<int>)
    ensures r.Ok? ==> InNative(sign, r.value)
    ensures r.Err? ==> r.error == InvalidInput || r.error == OutOfRange
    ensures r == Err(InvalidInput) <==> |Numeral(s)| == 0
    ensures r.Ok? && !LeadingMinus(s) ==> r.value == DigitsValue(Numeral(s))
    ensures r.Ok? && LeadingMinus(s) && sign == Signed ==> r.value + DigitsValue(Numeral(s)) == 0
    ensures r.Ok? && LeadingMinus(s) && sign == Unsigned ==>
      (r.value + DigitsValue(Numeral(s))) % TWO_64 == 0
    ensures |Numeral(s)| > 0 ==>
      (r.Ok? <==> DigitsValue(Numeral(s)) <= (if sign == Signed && LeadingMinus(s) then TWO_63 else IntMax(sign)))
  {
    var digits := Numeral(s);
    if |digits| == 0 then Err(InvalidInput)
    else
      var m: int := DigitsValue(digits);
      if sign == Signed then
        if LeadingMinus(s) then (if m <= TWO_63 then Ok(-m) else Err(OutOfRange))
        else if m <= IntMax(Signed) then Ok(m) else Err(OutOfRange)
      else if m > IntMax(Unsigned) then Err(OutOfRange)
      else if LeadingMinus(s) then Ok(Wrap(Unsigned, -m))
      else Ok(m)
  }

  /** A digit string is its own numeral: no white space, no sign, and every
      character read. */
  lemma DigitsAreNumeral(t: string)
    requires AllDigits(t) && |t| > 0
    ensures AfterSign(t) == t && !LeadingMinus(t) && Numeral(t) == t
  {
    assert SpaceRun(t) == 0;
    DigitRunAll(t);
  }

  lemma {:induction false} DigitRunAll(t: string)
    requires AllDigits(t)
    ensures DigitRun(t) == |t|
  {
    if |t| > 0 {
      DigitRunAll(t[1..]);
    }
  }

  /** '-' before a digit string: a negative numeral of those digits. */
  lemma MinusNumeral(t: string)
    requires AllDigits(t) && |t| > 0
    ensures AfterSign("-" + t) == t && LeadingMinus("-" + t) && Numeral("-" + t) == t
  {
    var s := "-" + t;
    assert SpaceRun(s) == 0;
    assert s[1..] == t;
    DigitRunAll(t);
  }

  /** parseInteger reads back a number written in decimal, with a '-' for a
      negative one: the inverse of printing an integer. */
  lemma IntegerRoundTrip(sign: Signedness, v: int)
    requires InNative(sign, v)
    ensures ParseInteger(sign, SignPrefix(v) + Show(Abs(v))) == Ok(v)
  {
    var t := Show(Abs(v));
    ShowValue(Abs(v));
    if v < 0 {
      MinusNumeral(t);
    } else {
      assert SignPrefix(v) + t == t;
      DigitsAreNumeral(t);
    }
  }

  /** A string of digits whose value the type holds parses to that value. */
  lemma ParseDigits(sign: Signedness, t: string)
    requires AllDigits(t) && |t| > 0 && DigitsValue(t) <= IntMax(sign)
    ensures ParseInteger(sign, t) == Ok(DigitsValue(t))
  {
    DigitsAreNumeral(t);
  }

  /** The fraction digits the constructor reads: the text after the point
      padded with '0' up to nPlaces characters, then cut to nPlaces. */
  function FractionText(fs: string, places: nat): (r: string)
    ensures |r| == places
    ensures forall j :: 0 <= j < places ==> r[j] == if j < |fs| then fs[j] else '0'
  {
    var padded := fs + seq(if places > |fs| then places - |fs| else 0, _ => '0');
    padded[..places]
  }

  /** The two readings of the constructor: the code as written, and the
      behaviour it evidently intends (see WholeTooLarge and Negative). */
  datatype Reading = AsWritten | Intended

  /** The TooLarge check on the integer part i read from text. The code
      compares i > MAX and -i > MAX; against the exact MAX these are i >
      MaxIntPart and -i > MaxIntPart (CompareWithMax). As written, -i is a
      native negation, under which the most negative int64_t stays negative
      and passes. Intended, the magnitude is compared, and a '-' number that
      stoull wrapped into range is refused too. */
  predicate WholeTooLarge(c: Config, text: string, i: int, reading: Reading)
    requires ValidConfig(c)
  {
    match reading
    case AsWritten =>
      if c.sign == Signed then
        (i > 0 && i > MaxIntPart(c)) || (i < 0 && Wrap(Signed, -i) > MaxIntPart(c))
      else i > MaxIntPart(c)
    case Intended =>
      Abs(i) > MaxIntPart(c) || (c.sign == Unsigned && LeadingMinus(text) && i != 0)
  }

  /** parseInteger on the integer text, then the TooLarge check. */
  function WholePart(c: Config, text: string, reading: Reading): (r: Result<int>)
    requires ValidConfig(c)
    ensures r.Ok? ==> InNative(c.sign, r.value)
    ensures r.Ok? && (reading == Intended || r.value != -TWO_63) ==> Abs(r.value) <= MaxIntPart(c)
    ensures r.Ok? && reading == Intended && LeadingMinus(text) ==> r.value <= 0
    ensures r.Err? ==> r.error == TooLarge || r == ParseInteger(c.sign, text)
  {
    match ParseInteger(c.sign, text)
    case Err(e) => Err(e)
    case Ok(i) =>
      if WholeTooLarge(c, text, i, reading) then Err(TooLarge) else Ok(i)
  }

  /** Whether the constructor takes the text before the point as negative.
      As written: its first character is '-', looked at for signed storage
      only. Intended: parseInteger reads a '-' there, whatever the storage
      and whatever white space comes first. */
  predicate Negative(c: Config, head: string, reading: Reading) {
    match reading
    case AsWritten => c.sign == Signed && |head| > 0 && head[0] == '-'
    case Intended => LeadingMinus(head)
  }

  /** A text without the 'e' / 'E' that sends the constructor to std::stod. */
  predicate Readable(s: string) {
    'e' !in s && 'E' !in s
  }

  /** The Decimal(const std::string&) constructor, under a reading. Without a
      point the text is an integer, scaled. With one, the text is split at
      the first point. */
  function ParseWith(c: Config, s: string, reading: Reading): (r: Result<int>)
    requires ValidConfig(c) && Readable(s)
    ensures r.Ok? ==> InNative(c.sign, r.value)
    ensures r.Err? ==> r.error in {InvalidInput, OutOfRange, TooLarge}
  {
    match Find(s, '.')
    case None =>
      (match WholePart(c, s, reading)
       case Err(e) => Err(e)
       case Ok(i) => Ok(Wrap(c.sign, i * Scale(c))))
    case Some(period) => ParsePoint(c, s[..period], s[period + 1..], reading)
  }

  /** The branch with a point: the integer part (0 when the text before the
      point is empty, or a lone '-' for signed storage) and the first
      nPlaces fraction digits, zero-padded, combined on the side of zero the
      sign gives, in native arithmetic. */
  function ParsePoint(c: Config, head: string, tail: string, reading: Reading): (r: Result<int>)
    requires ValidConfig(c)
    ensures r.Ok? ==> InNative(c.sign, r.value)
    ensures r.Err? ==> r.error in {InvalidInput, OutOfRange, TooLarge}
  {
    var negative := Negative(c, head, reading);
    match PointWhole(c, head, reading)
    case Err(e) => Err(e)
    case Ok(i) =>
      match ParseInteger(c.sign, FractionText(tail, c.places))
      case Err(e) => Err(e)
      case Ok(f) => Combine(c, i, f, negative, reading)
  }

  /** The integer part before the point: 0 when the text is empty, or a
      lone '-' for signed storage. */
  function PointWhole(c: Config, head: string, reading: Reading): (r: Result<int>)
    requires ValidConfig(c)
    ensures r.Ok? ==> InNative(c.sign, r.value)
    ensures r.Ok? && reading == Intended ==>
      && Abs(r.value) <= MaxIntPart(c)
      && (LeadingMinus(head) ==> r.value <= 0) && (!LeadingMinus(head) ==> r.value >= 0)
      && (c.sign == Unsigned && LeadingMinus(head) ==> r.value == 0)
  {
    if |head| == 0 || (c.sign == Signed && Negative(c, head, reading) && |head| == 1) then Ok(0)
    else
      WholeSigns(c, head);
      WholePart(c, head, reading)
  }

  /** The integer part and the fraction combined in native arithmetic: on
      the negative side when either says so. The intended reading refuses a
      nonzero fraction under a '-' for unsigned storage. */
  function Combine(c: Config, i: int, f: int, negative: bool, reading: Reading): (r: Result<int>)
    requires ValidConfig(c)
    ensures r.Ok? ==> InNative(c.sign, r.value)
    ensures r.Err? ==> r == Err(TooLarge)
    ensures reading == Intended && 0 <= f < Scale(c) && Abs(i) <= MaxIntPart(c)
              && (negative ==> i <= 0) && (!negative ==> i >= 0)
              && (c.sign == Unsigned && negative ==> i == 0) ==>
      && r.Ok? == !(c.sign == Unsigned && negative && f != 0)
      && (r.Ok? ==> && WithinBounds(c, r.value)
                    && r.value == (if negative then i * Scale(c) - f else i * Scale(c) + f)
                    && (negative ==> r.value <= 0) && (!negative ==> r.value >= 0))
  {
    if reading == Intended && c.sign == Unsigned && negative && f != 0 then Err(TooLarge)
    else
      CombinedWhen(c, i, f, negative);
      if i < 0 || negative then Ok(Wrap(c.sign, i * Scale(c) - f))
      else Ok(Wrap(c.sign, i * Scale(c) + f))
  }

  /** The text after the point, when there is one, is all digits: a plain
      decimal numeral such as to_str writes. */
  predicate FractionDigits(s: string) {
    match Find(s, '.')
    case None => true
    case Some(period) => AllDigits(s[period + 1..])
  }

  /** The constructor as the code evidently intends it. Whatever the text,
      the value fits the native type; a plain numeral within MIN..MAX is
      read inside MIN..MAX, and on the side of zero its sign gives. */
  function Parse(c: Config, s: string): (r: Result<int>)
    requires ValidConfig(c) && Readable(s)
    ensures r.Ok? ==> InNative(c.sign, r.value)
    ensures r.Ok? && '.' !in s ==> r.value % Scale(c) == 0
    ensures r.Ok? && FractionDigits(s) ==> WithinBounds(c, r.value)
    ensures r.Ok? && FractionDigits(s) && LeadingMinus(s) ==> r.value <= 0
    ensures r.Ok? && FractionDigits(s) && !LeadingMinus(s) ==> r.value >= 0
  {
    ParseIntendedBounds(c, s);
    ParseWith(c, s, Intended)
  }

  /** The constructor as the code is written (see the findings on the
      integer part's sign and on the most negative int64_t). */
  function ParseAsWritten(c: Config, s: string): (r: Result<int>)
    requires ValidConfig(c) && Readable(s)
    ensures r.Ok? ==> InNative(c.sign, r.value)
    ensures r.Err? ==> r.error in {InvalidInput, OutOfRange, TooLarge}
  {
    ParseWith(c, s, AsWritten)
  }

  /** The bounds of the intended reading. */
  lemma ParseIntendedBounds(c: Config, s: string)
    requires ValidConfig(c) && Readable(s)
    ensures var r := ParseWith(c, s, Intended);
      && (r.Ok? && '.' !in s ==> r.value % Scale(c) == 0)
      && (r.Ok? && FractionDigits(s) ==> WithinBounds(c, r.value))
      && (r.Ok? && FractionDigits(s) && LeadingMinus(s) ==> r.value <= 0)
      && (r.Ok? && FractionDigits(s) && !LeadingMinus(s) ==> r.value >= 0)
  {
    match Find(s, '.')
    case None => WholeTextBounds(c, s);
    case Some(period) =>
      if FractionDigits(s) {
        PointTextBounds(c, s, period);
      }
  }

  /** Without a point the value is the integer part times scale. */
  lemma WholeTextBounds(c: Config, s: string)
    requires ValidConfig(c) && Readable(s) && Find(s, '.') == None
    ensures var r := ParseWith(c, s, Intended);
      r.Ok? ==> && r.value % Scale(c) == 0 && WithinBounds(c, r.value)
                && (LeadingMinus(s) ==> r.value <= 0) && (!LeadingMinus(s) ==> r.value >= 0)
  {
    var w := WholePart(c, s, Intended);
    if w.Ok? {
      var i := w.value;
      WholeSign(c, s, i);
      Combined(c, i, 0, LeadingMinus(s));
      ScaledMultiple(i, Scale(c));
    }
  }

  /** With a point the value is the integer part and the fraction digits
      combined on the side of zero of the sign. */
  lemma PointTextBounds(c: Config, s: string, period: nat)
    requires ValidConfig(c) && Readable(s) && Find(s, '.') == Some(period)
    requires AllDigits(s[period + 1..])
    ensures var r := ParseWith(c, s, Intended);
      r.Ok? ==> && WithinBounds(c, r.value)
                && (LeadingMinus(s) ==> r.value <= 0) && (!LeadingMinus(s) ==> r.value >= 0)
  {
    assert ParseWith(c, s, Intended) == ParsePoint(c, s[..period], s[period + 1..], Intended);
    MinusBeforePoint(s, period);
    PointBounds(c, s[..period], s[period + 1..]);
  }

  lemma PointBounds(c: Config, head: string, tail: string)
    requires ValidConfig(c) && AllDigits(tail)
    ensures var r := ParsePoint(c, head, tail, Intended);
      r.Ok? ==> && WithinBounds(c, r.value)
                && (LeadingMinus(head) ==> r.value <= 0) && (!LeadingMinus(head) ==> r.value >= 0)
  {
    FractionRange(c, tail);
  }

  /** The integer part and fraction digits of a plain numeral, combined: a
      value within MIN..MAX on the side of zero of the sign. */
  lemma Combined(c: Config, i: int, f: int, negative: bool)
    requires ValidConfig(c) && 0 <= f < Scale(c) && Abs(i) <= MaxIntPart(c)
    requires negative ==> i <= 0
    requires !negative ==> i >= 0
    requires c.sign == Unsigned && negative ==> i == 0 && f == 0
    ensures var v := if negative then i * Scale(c) - f else i * Scale(c) + f;
      && WithinBounds(c, v) && InNative(c.sign, v)
      && (negative ==> v <= 0) && (!negative ==> v >= 0)
  {
    MaxIntPartScaled(c);
    MaxScaledFits(c);
    CombineBounds(i, f, MaxIntPart(c), Scale(c), MaxScaled(c), negative);
  }

  /** The sign of an integer part the intended check let through: no larger
      than MAX's integer part, not below zero without a '-', and zero when
      an unsigned text carries a '-'. */
  lemma WholeSign(c: Config, text: string, i: int)
    requires ValidConfig(c) && WholePart(c, text, Intended) == Ok(i)
    ensures Abs(i) <= MaxIntPart(c)
    ensures LeadingMinus(text) ==> i <= 0
    ensures !LeadingMinus(text) ==> i >= 0
    ensures c.sign == Unsigned && LeadingMinus(text) ==> i == 0
  {
  }

  lemma WholeSigns(c: Config, text: string)
    requires ValidConfig(c)
    ensures var w := WholePart(c, text, Intended);
      w.Ok? ==>
        && Abs(w.value) <= MaxIntPart(c)
        && (LeadingMinus(text) ==> w.value <= 0) && (!LeadingMinus(text) ==> w.value >= 0)
        && (c.sign == Unsigned && LeadingMinus(text) ==> w.value == 0)
  {
    var w := WholePart(c, text, Intended);
    if w.Ok? {
      WholeSign(c, text, w.value);
    }
  }

  /** A '-' read before the first point belongs to the integer part. */
  lemma MinusBeforePoint(s: string, period: nat)
    requires Find(s, '.') == Some(period)
    ensures LeadingMinus(s) ==> LeadingMinus(s[..period])
    ensures !LeadingMinus(s) ==> !LeadingMinus(s[..period])
  {
    var n := SpaceRun(s);
    if period > n {
      SpaceRunPrefix(s, period);
    } else {
      assert s[period] == '.';
      SpaceRunPrefix(s, period);
    }
  }

  /** Cutting the text after its leading white space keeps that white space
      run, and cutting inside it leaves only white space. */
  lemma {:induction false} SpaceRunPrefix(s: string, p: nat)
    requires p <= |s|
    ensures p > SpaceRun(s) ==> SpaceRun(s[..p]) == SpaceRun(s)
    ensures p <= SpaceRun(s) ==> SpaceRun(s[..p]) == p
  {
    if |s| > 0 && IsSpace(s[0]) && p > 0 {
      SpaceRunPrefix(s[1..], p - 1);
      assert s[..p][1..] == s[1..][..p - 1];
    }
  }

  /** The fraction digits of a plain numeral read as a number in
      0 .. scale - 1. */
  lemma FractionRange(c: Config, fs: string)
    requires ValidConfig(c) && AllDigits(fs)
    ensures var t := FractionText(fs, c.places);
      && AllDigits(t)
      && ParseInteger(c.sign, t) == Ok(DigitsValue(t))
      && DigitsValue(t) < Scale(c)
  {
    var t := FractionText(fs, c.places);
    assert AllDigits(t);
    DigitsBelow(t);
    MaxScaledFits(c);
    ParseDigits(c.sign, t);
  }

  /** i * s - f (when negative) or i * s + f, for an integer part of at most
      k and a fraction below s, lies within -(k*s + s - 1) .. k*s + s - 1,
      on the side of zero of the sign. */
  lemma CombinedWhen(c: Config, i: int, f: int, negative: bool)
    requires ValidConfig(c)
    ensures && 0 <= f < Scale(c) && Abs(i) <= MaxIntPart(c)
            && (negative ==> i <= 0) && (!negative ==> i >= 0)
            && (c.sign == Unsigned && negative ==> i == 0 && f == 0) ==>
      var v := if negative then i * Scale(c) - f else i * Scale(c) + f;
      && WithinBounds(c, v) && InNative(c.sign, v)
      && (negative ==> v <= 0) && (!negative ==> v >= 0)
  {
    if && 0 <= f < Scale(c) && Abs(i) <= MaxIntPart(c)
       && (negative ==> i <= 0) && (!negative ==> i >= 0)
       && (c.sign == Unsigned && negative ==> i == 0 && f == 0) {
      Combined(c, i, f, negative);
    }
  }

  lemma CombineBounds(i: int, f: int, k: int, s: int, top: int, negative: bool)
    requires s > 0 && 0 <= f < s && -k <= i <= k && k * s + s - 1 == top
    requires negative ==> i <= 0
    requires !negative ==> i >= 0
    ensures negative ==> -top <= i * s - f <= 0
    ensures !negative ==> 0 <= i * s + f <= top
  {
    if negative {
      MulLe(s, -k, i);
      MulLe(s, i, 0);
      assert s * -k == -(k * s);
    } else {
      MulLe(s, i, k);
      MulLe(s, 0, i);
    }
  }

  lemma ScaledMultiple(i: int, s: int)
    requires s > 0
    ensures (i * s) % s == 0
  {
    DivUnique(i * s, s, i);
  }

  /** to_str's text, and to_string's trimmed text, read back: a '-' for
      negative values, the whole digits, a point and fraction digits that
      zero-padded to nPlaces spell |fp| % scale. Both readings of the
      constructor return the value. */
  lemma ParseRendered(c: Config, x: int, reading: Reading, whole: string, frac: string)
    requires Printable(c, x) && WithinBounds(c, x)
    requires AllDigits(whole) && |whole| >= 1 && DigitsValue(whole) == WholeOf(c, x)
    requires AllDigits(frac) && DigitsValue(FractionText(frac, c.places)) == FractionOf(c, x)
    ensures Readable(SignPrefix(x) + whole + "." + frac)
    ensures ParseWith(c, SignPrefix(x) + whole + "." + frac, reading) == Ok(x)
  {
    var head := SignPrefix(x) + whole;
    var s := head + "." + frac;
    RenderedText(SignPrefix(x), whole, frac);
    assert ParseWith(c, s, reading) == ParsePoint(c, head, frac, reading);
    var w := DigitsValue(whole);
    assert DigitsValue(whole) <= MaxIntPart(c) by {
      WholeBound(c, x);
    }
    HeadWhole(c, x, whole, reading);
    FractionRange(c, frac);
    PointParts(c, head, frac, reading, OnSide(x < 0, w), FractionOf(c, x), x < 0);
    CombineValue(c, x, w, FractionOf(c, x), reading);
  }

  /** Plus or minus a magnitude. */
  function OnSide(negative: bool, w: int): int {
    if negative then -w else w
  }

  /** The point branch once its parts are known. */
  lemma PointParts(c: Config, head: string, tail: string, reading: Reading, i: int, f: int, negative: bool)
    requires ValidConfig(c)
    requires PointWhole(c, head, reading) == Ok(i)
    requires ParseInteger(c.sign, FractionText(tail, c.places)) == Ok(f)
    requires Negative(c, head, reading) == negative
    ensures ParsePoint(c, head, tail, reading) == Combine(c, i, f, negative, reading)
  {
  }

  /** A sign, digits, a point and digits: the point is found after the
      digits, and no exponent character occurs. */
  lemma RenderedText(sign: string, whole: string, frac: string)
    requires sign == "" || sign == "-"
    requires AllDigits(whole) && AllDigits(frac)
    ensures var head, s := sign + whole, sign + whole + "." + frac;
      && Find(s, '.') == Some(|head|)
      && s[..|head|] == head && s[|head| + 1..] == frac
      && 'e' !in s && 'E' !in s
  {
    var head, s := sign + whole, sign + whole + "." + frac;
    SignedDigitsNoPoint(sign, whole);
    FindAfter(head, frac);
    assert s[..|head|] == head;
    assert s[|head| + 1..] == frac;
    forall j | 0 <= j < |s|
      ensures s[j] != 'e' && s[j] != 'E'
    {
      if j < |sign| {
      } else if j < |head| {
        assert s[j] == whole[j - |sign|];
      } else if j > |head| {
        assert s[j] == frac[j - |head| - 1];
      }
    }
  }

  /** The text before the point of a rendered value: taken as negative
      exactly for a negative value, and read as plus or minus the whole
      digits under either reading. */
  lemma HeadWhole(c: Config, x: int, whole: string, reading: Reading)
    requires ValidConfig(c) && InNative(c.sign, x)
    requires AllDigits(whole) && |whole| >= 1 && DigitsValue(whole) <= MaxIntPart(c)
    ensures Negative(c, SignPrefix(x) + whole, reading) == (x < 0)
    ensures PointWhole(c, SignPrefix(x) + whole, reading)
      == Ok(OnSide(x < 0, DigitsValue(whole)))
  {
    NegativeHeadWhole(c, x, whole, reading);
    PlainHeadWhole(c, x, whole, reading);
  }

  /** HeadWhole for a negative value. */
  lemma NegativeHeadWhole(c: Config, x: int, whole: string, reading: Reading)
    requires ValidConfig(c) && InNative(c.sign, x)
    requires AllDigits(whole) && |whole| >= 1 && DigitsValue(whole) <= MaxIntPart(c)
    ensures x < 0 ==> Negative(c, SignPrefix(x) + whole, reading)
    ensures x < 0 ==>
      PointWhole(c, SignPrefix(x) + whole, reading) == Ok(OnSide(x < 0, DigitsValue(whole)))
  {
    if x < 0 {
      var head := SignPrefix(x) + whole;
      assert head == "-" + whole;
      MinusNumeral(whole);
      assert |head| >= 2 && head[0] == '-';
      NegativeWhole(c, x < 0, head, whole, reading);
    }
  }

  /** HeadWhole for a value of at least zero. */
  lemma PlainHeadWhole(c: Config, x: int, whole: string, reading: Reading)
    requires ValidConfig(c) && InNative(c.sign, x)
    requires AllDigits(whole) && |whole| >= 1 && DigitsValue(whole) <= MaxIntPart(c)
    ensures x >= 0 ==> !Negative(c, SignPrefix(x) + whole, reading)
    ensures x >= 0 ==>
      PointWhole(c, SignPrefix(x) + whole, reading) == Ok(OnSide(x < 0, DigitsValue(whole)))
  {
    if x >= 0 {
      var head := SignPrefix(x) + whole;
      assert SignPrefix(x) == [];
      NoPrefix(SignPrefix(x), whole);
      DigitsAreNumeral(whole);
      PlainWhole(c, x < 0, head, whole, reading);
    }
  }

  /** A text whose first character is '-' and whose numeral is whole. */
  lemma NegativeWhole(c: Config, negative: bool, head: string, whole: string, reading: Reading)
    requires ValidConfig(c) && c.sign == Signed && negative
    requires |head| >= 2 && head[0] == '-' && LeadingMinus(head) && Numeral(head) == whole
    requires AllDigits(whole) && |whole| >= 1 && DigitsValue(whole) <= MaxIntPart(c)
    ensures Negative(c, head, reading)
    ensures PointWhole(c, head, reading) == Ok(OnSide(negative, DigitsValue(whole)))
  {
    var v := -(DigitsValue(whole) as int);
    assert OnSide(negative, DigitsValue(whole)) == v;
    MaxIntPartFits(c);
    NegativeNumeral(whole, head);
    PointWholeAccepted(c, head, reading, v);
  }

  /** A text of digits alone. */
  lemma PlainWhole(c: Config, negative: bool, head: string, whole: string, reading: Reading)
    requires ValidConfig(c) && !negative
    requires head == whole && !LeadingMinus(head) && Numeral(head) == whole
    requires AllDigits(whole) && |whole| >= 1 && DigitsValue(whole) <= MaxIntPart(c)
    ensures !Negative(c, head, reading)
    ensures PointWhole(c, head, reading) == Ok(OnSide(negative, DigitsValue(whole)))
  {
    MaxIntPartFits(c);
    ParseDigits(c.sign, whole);
    assert IsDigit(head[0]);
    if |head| == 1 {
      assert !WholeTooLarge(c, head, DigitsValue(whole), reading);
    } else {
      PointWholeAccepted(c, head, reading, DigitsValue(whole));
    }
  }

  /** The integer part as PointWhole takes it, when parseInteger reads a
      value within MAX's integer part: no TooLarge. */
  lemma PointWholeAccepted(c: Config, head: string, reading: Reading, i: int)
    requires ValidConfig(c) && |head| >= 2 && ParseInteger(c.sign, head) == Ok(i)
    requires Abs(i) <= MaxIntPart(c) && (c.sign == Signed ==> MaxIntPart(c) < TWO_63)
    requires c.sign == Unsigned ==> i >= 0 && (LeadingMinus(head) ==> i == 0)
    ensures PointWhole(c, head, reading) == Ok(i)
  {
    assert !WholeTooLarge(c, head, i, reading);
  }

  lemma NoPrefix(p: string, s: string)
    requires p == []
    ensures p + s == s
  {
  }

  /** stoll on a text whose numeral, after a '-', is within 2^63. */
  lemma NegativeNumeral(t: string, s: string)
    requires AllDigits(t) && |t| >= 1 && DigitsValue(t) <= TWO_63
    requires Numeral(s) == t && LeadingMinus(s)
    ensures ParseInteger(Signed, s) == Ok(-(DigitsValue(t) as int))
  {
    NegativeRead(s, DigitsValue(t));
  }

  lemma NegativeRead(s: string, m: int)
    requires |Numeral(s)| > 0 && DigitsValue(Numeral(s)) == m <= TWO_63 && LeadingMinus(s)
    ensures ParseInteger(Signed, s) == Ok(-m)
  {
  }

  /** A value within MIN..MAX has an integer part within MAX's. */
  lemma WholeBound(c: Config, x: int)
    requires Printable(c, x) && WithinBounds(c, x)
    ensures WholeOf(c, x) <= MaxIntPart(c)
  {
    MaxIntPartScaled(c);
    QuotientBelow(Abs(x), Scale(c), MaxIntPart(c));
  }

  lemma QuotientBelow(n: nat, s: int, k: int)
    requires s > 0 && n <= k * s + s - 1
    ensures n / s <= k
  {
    DivBounds(n, s);
    assert s * (k + 1) == k * s + s;
    if n / s > k {
      MulLe(s, k + 1, n / s);
    }
  }

  /** Combining plus or minus the whole part with the fraction gives the
      value back. */
  lemma CombineValue(c: Config, x: int, w: nat, f: nat, reading: Reading)
    requires Printable(c, x) && w == WholeOf(c, x) && f == FractionOf(c, x)
    ensures Combine(c, OnSide(x < 0, w), f, x < 0, reading) == Ok(x)
  {
    WholeFraction(c, x);
    if x < 0 {
      NegatedParts(w, Scale(c), f);
    }
  }

  /** |fp| is its whole part times scale plus its fraction. */
  lemma WholeFraction(c: Config, x: int)
    requires ValidConfig(c)
    ensures WholeOf(c, x) * Scale(c) + FractionOf(c, x) == Abs(x)
  {
    DivBounds(Abs(x), Scale(c));
    assert Scale(c) * (Abs(x) / Scale(c)) == (Abs(x) / Scale(c)) * Scale(c);
  }

  lemma NegatedParts(w: int, s: int, f: int)
    ensures (-w) * s - f == -(w * s + f)
  {
  }

  /** Reading back to_str: for every value within MIN..MAX, both the code as
      written and the intended reading return the value printed. */
  lemma ParseToStr(c: Config, x: int)
    requires Printable(c, x) && WithinBounds(c, x)
    ensures Readable(ToStr(c, x))
    ensures Parse(c, ToStr(c, x)) == Ok(x)
    ensures ParseAsWritten(c, ToStr(c, x)) == Ok(x)
  {
    var whole, frac := Show(WholeOf(c, x)), ShowPadded(Abs(x), c.places);
    RenderedPieces(c, x);
    ToStrLength(c, x);
    assert ToStr(c, x) == SignPrefix(x) + whole + "." + frac by {
      ToStrText(c, x);
    }
    ParseRendered(c, x, Intended, whole, frac);
    ParseRendered(c, x, AsWritten, whole, frac);
  }

  /** The pieces to_str prints spell the whole part and the fraction. */
  lemma RenderedPieces(c: Config, x: int)
    requires ValidConfig(c)
    ensures DigitsValue(Show(WholeOf(c, x))) == WholeOf(c, x)
    ensures FractionText(ShowPadded(Abs(x), c.places), c.places) == ShowPadded(Abs(x), c.places)
    ensures DigitsValue(ShowPadded(Abs(x), c.places)) == FractionOf(c, x)
  {
    ShowValue(WholeOf(c, x));
    ShowPaddedValue(Abs(x), c.places);
    FractionTextFull(ShowPadded(Abs(x), c.places), c.places);
  }

  lemma FractionTextFull(fs: string, places: nat)
    requires |fs| == places
    ensures FractionText(fs, places) == fs
  {
  }

  /** Reading back to_string: the trailing zeros it drops are the padding
      the constructor puts back, so both readings return the value. */
  lemma ParseToString(c: Config, x: int)
    requires Printable(c, x) && WithinBounds(c, x)
    ensures Readable(ToString(c, x))
    ensures Parse(c, ToString(c, x)) == Ok(x)
    ensures ParseAsWritten(c, ToString(c, x)) == Ok(x)
  {
    ToStringReads(c, x, Intended);
    ToStringReads(c, x, AsWritten);
  }

  /** ParseToString under one reading. */
  lemma ToStringReads(c: Config, x: int, reading: Reading)
    requires Printable(c, x) && WithinBounds(c, x)
    ensures Readable(ToString(c, x))
    ensures ParseWith(c, ToString(c, x), reading) == Ok(x)
  {
    var k := TrimmedForm(c, x);
    if k == 0 {
      TrimmedWholeReads(c, x, reading);
    } else {
      TrimmedPointReads(c, x, reading, k);
    }
  }

  /** to_string with the point dropped reads back. */
  lemma TrimmedWholeReads(c: Config, x: int, reading: Reading)
    requires Printable(c, x) && WithinBounds(c, x)
    requires forall j :: 0 <= j < c.places ==> ShowPadded(Abs(x), c.places)[j] == '0'
    ensures Readable(SignPrefix(x) + Show(WholeOf(c, x)))
    ensures ParseWith(c, SignPrefix(x) + Show(WholeOf(c, x)), reading) == Ok(x)
  {
    var whole, frac := Show(WholeOf(c, x)), ShowPadded(Abs(x), c.places);
    assert |SignPrefix(x) + whole| < 64 by {
      ToStrText(c, x);
      ToStrLength(c, x);
    }
    assert FractionOf(c, x) == 0 by {
      RenderedPieces(c, x);
      TrimmedZeros(frac, 0);
    }
    assert DigitsValue(whole) == WholeOf(c, x) by {
      ShowValue(WholeOf(c, x));
    }
    ParseWhole(c, x, reading, whole);
  }

  /** to_string keeping k fraction digits reads back. */
  lemma TrimmedPointReads(c: Config, x: int, reading: Reading, k: nat)
    requires Printable(c, x) && WithinBounds(c, x) && k <= c.places
    requires forall j :: k <= j < c.places ==> ShowPadded(Abs(x), c.places)[j] == '0'
    ensures var text := SignPrefix(x) + Show(WholeOf(c, x)) + "." + ShowPadded(Abs(x), c.places)[..k];
      Readable(text) && ParseWith(c, text, reading) == Ok(x)
  {
    var whole, frac := Show(WholeOf(c, x)), ShowPadded(Abs(x), c.places);
    assert |SignPrefix(x) + whole + "." + frac[..k]| < 64 by {
      ToStrText(c, x);
      ToStrLength(c, x);
    }
    assert DigitsValue(FractionText(frac[..k], c.places)) == FractionOf(c, x) by {
      RenderedPieces(c, x);
      TrimmedZeros(frac, k);
    }
    assert DigitsValue(whole) == WholeOf(c, x) by {
      ShowValue(WholeOf(c, x));
    }
    ParseRendered(c, x, reading, whole, frac[..k]);
  }

  /** to_string keeps the sign and whole digits, and either drops the point
      with an all-zero fraction or keeps the first k fraction digits, the
      rest being zeros. */
  lemma TrimmedForm(c: Config, x: int) returns (k: nat)
    requires Printable(c, x)
    ensures var head, frac := SignPrefix(x) + Show(WholeOf(c, x)), ShowPadded(Abs(x), c.places);
      && k <= c.places
      && (forall j :: k <= j < c.places ==> frac[j] == '0')
      && ToString(c, x) == if k == 0 then head else head + "." + frac[..k]
  {
    var head, frac := SignPrefix(x) + Show(WholeOf(c, x)), ShowPadded(Abs(x), c.places);
    assert ToStr(c, x) == head + "." + frac by {
      ToStrText(c, x);
    }
    k := TrimShape(ToStr(c, x), head, frac, ToString(c, x));
  }

  /** A prefix of head + "." + frac that stops at the point or after a
      fraction digit, with only zeros cut. */
  lemma TrimShape(s: string, head: string, frac: string, r: string) returns (k: nat)
    requires s == head + "." + frac && |r| <= |s| && r == s[..|r|]
    requires |r| == |head| || |head| + 1 < |r|
    requires forall j :: |head| < j < |s| && |r| <= j ==> s[j] == '0'
    ensures k <= |frac|
    ensures forall j :: k <= j < |frac| ==> frac[j] == '0'
    ensures r == if k == 0 then head else head + "." + frac[..k]
  {
    var point := |head|;
    if |r| == point {
      k := 0;
      assert r == head;
    } else {
      k := |r| - point - 1;
      assert r == head + "." + frac[..k];
    }
    forall j | k <= j < |frac|
      ensures frac[j] == '0'
    {
      assert frac[j] == s[point + 1 + j];
    }
  }

  /** Padding the first k characters of frac with '0' gives frac back when
      the rest of it is zeros; all zeros spell 0. */
  lemma TrimmedZeros(frac: string, k: nat)
    requires k <= |frac| && AllDigits(frac)
    requires forall j :: k <= j < |frac| ==> frac[j] == '0'
    ensures FractionText(frac[..k], |frac|) == frac
    ensures k == 0 ==> DigitsValue(frac) == 0
  {
    if k == 0 {
      ZerosValue(frac);
    }
  }

  lemma {:induction false} ZerosValue(t: string)
    requires forall j :: 0 <= j < |t| ==> t[j] == '0'
    ensures AllDigits(t) && DigitsValue(t) == 0
  {
    if |t| > 0 {
      ZerosValue(t[..|t| - 1]);
    }
  }

  /** A rendered value whose fraction is zero, printed without the point:
      the integer branch scales the whole part back. */
  lemma ParseWhole(c: Config, x: int, reading: Reading, whole: string)
    requires Printable(c, x) && WithinBounds(c, x) && FractionOf(c, x) == 0
    requires AllDigits(whole) && |whole| >= 1 && DigitsValue(whole) == WholeOf(c, x)
    ensures Readable(SignPrefix(x) + whole)
    ensures ParseWith(c, SignPrefix(x) + whole, reading) == Ok(x)
  {
    var head := SignPrefix(x) + whole;
    RenderedText(SignPrefix(x), whole, "");
    SignedDigitsNoPoint(SignPrefix(x), whole);
    assert 'e' !in head && 'E' !in head by {
      assert head == (SignPrefix(x) + whole + "." + "")[..|head|];
    }
    assert DigitsValue(whole) <= MaxIntPart(c) by {
      WholeBound(c, x);
    }
    HeadWhole(c, x, whole, reading);
    var w := DigitsValue(whole);
    assert WholePart(c, head, reading) == Ok(OnSide(x < 0, w));
    WholeFraction(c, x);
    ScaledSide(x, w, Scale(c));
  }

  lemma ScaledSide(x: int, w: int, s: int)
    requires w * s + 0 == Abs(x)
    ensures OnSide(x < 0, w) * s == x
  {
  }
}

=== FILE: parse_cases.dfy ===
/** Texts on which the string constructor as written and as evidently
    intended part ways, and a few texts read under the intended reading. */
module ParseCases {
  import opened Numbers
  import opened Outcomes
  import opened Native
  import opened Decimals
  import opened Digits
  import opened Format
  import opened Parsing

  /** A '-' or nothing, then digits: no point, no exponent, and short. */
  lemma NumeralText(sign: string, digits: string)
    requires sign == "" || sign == "-"
    requires AllDigits(digits) && |digits| <= 20
    ensures Readable(sign + digits) && Find(sign + digits, '.') == None
  {
    var s := sign + digits;
    SignedDigitsNoPoint(sign, digits);
    forall j | 0 <= j < |s|
      ensures s[j] != 'e' && s[j] != 'E'
    {
      if j >= |sign| {
        assert s[j] == digits[j - |sign|];
      }
    }
  }

  /** "-" followed by the digits of n, for n up to 2^64: the integer
      parser sees a '-' and the numeral n. */
  lemma MinusShow(n: nat, s: string)
    requires n < TWO_64 && s == "-" + Show(n)
    ensures Readable(s) && Find(s, '.') == None
    ensures LeadingMinus(s) && Numeral(s) == Show(n) && DigitsValue(Numeral(s)) == n
  {
    ShowValue(n);
    Pow10Values();
    Pow10Add(19, 1);
    ShowLength(n, 20);
    NumeralText("-", Show(n));
    MinusNumeral(Show(n));
  }

  /** The most negative int64_t, -9223372036854775808, as a text without a
      point: the TooLarge check negates it natively, gets it back negative
      and lets it through, and the scaling wraps. For every signed decimal
      the result is 0; the intended check refuses it. */
  lemma MostNegativeWholeWraps(c: Config, s: string)
    requires ValidConfig(c) && c.sign == Signed && s == "-" + Show(TWO_63)
    ensures Readable(s)
    ensures ParseAsWritten(c, s) == Ok(0)
    ensures Parse(c, s) == Err(TooLarge)
  {
    assert Readable(s) && Find(s, '.') == None && ParseInteger(Signed, s) == Ok(-TWO_63) by {
      MinusShow(TWO_63, s);
      NegativeNumeral(Show(TWO_63), s);
    }
    MostNegativePart(c, s);
    NoPointOk(c, s, AsWritten, -TWO_63);
    NoPointErr(c, s, Intended);
    assert Wrap(Signed, -TWO_63 * Scale(c)) == 0 by {
      Pow10Even(c.places);
      EvenScaleWraps(Scale(c));
    }
  }

  /** The integer part checks on -2^63. */
  lemma MostNegativePart(c: Config, s: string)
    requires ValidConfig(c) && c.sign == Signed && ParseInteger(Signed, s) == Ok(-TWO_63)
    ensures WholePart(c, s, AsWritten) == Ok(-TWO_63)
    ensures WholePart(c, s, Intended) == Err(TooLarge)
  {
    MaxIntPartFits(c);
    assert Wrap(Signed, TWO_63) == -TWO_63;
  }

  /** A text without a point whose integer part passes the checks reads as
      that integer part times scale, in native arithmetic. */
  lemma NoPointOk(c: Config, s: string, reading: Reading, i: int)
    requires ValidConfig(c) && Readable(s) && Find(s, '.') == None
    requires WholePart(c, s, reading) == Ok(i)
    ensures ParseWith(c, s, reading) == Ok(Wrap(c.sign, i * Scale(c)))
  {
  }

  /** NoPointOk when the product fits the native type. */
  lemma NoPointFits(c: Config, s: string, reading: Reading, i: int)
    requires ValidConfig(c) && Readable(s) && Find(s, '.') == None
    requires WholePart(c, s, reading) == Ok(i) && InNative(c.sign, i * Scale(c))
    ensures ParseWith(c, s, reading) == Ok(i * Scale(c))
  {
    NoPointOk(c, s, reading, i);
  }

  /** A text without a point whose integer part fails fails the same way. */
  lemma NoPointErr(c: Config, s: string, reading: Reading)
    requires ValidConfig(c) && Readable(s) && Find(s, '.') == None
    requires WholePart(c, s, reading).Err?
    ensures ParseWith(c, s, reading) == Err(WholePart(c, s, reading).error)
  {
  }

  /** -2^63 times an even scale is a multiple of 2^64. */
  lemma EvenScaleWraps(scale: int)
    requires scale >= 2 && scale % 2 == 0
    ensures Wrap(Signed, -TWO_63 * scale) == 0
  {
    var h := scale / 2;
    assert -TWO_63 * scale + TWO_63 == TWO_64 * -h + TWO_63;
    ModUnique(-TWO_63 * scale + TWO_63, TWO_64, -h, TWO_63);
  }

  /** "-" and the largest uint64_t, for unsigned storage: stoull negates it
      modulo 2^64 into 1, which the TooLarge check lets through, so the text
      reads as 1. The intended reading refuses a negative integer part. */
  lemma NegatedWholeWraps(c: Config, s: string)
    requires ValidConfig(c) && c.sign == Unsigned && s == "-" + Show(TWO_64 - 1)
    ensures Readable(s)
    ensures ParseAsWritten(c, s) == Ok(Scale(c))
    ensures Parse(c, s) == Err(TooLarge)
  {
    assert Readable(s) && Find(s, '.') == None && LeadingMinus(s)
        && DigitsValue(Numeral(s)) == TWO_64 - 1 by {
      MinusShow(TWO_64 - 1, s);
    }
    NegatedLargest(s);
    NegatedPart(c, s);
    NoPointOk(c, s, AsWritten, 1);
    NoPointErr(c, s, Intended);
  }

  /** stoull on '-' and the largest uint64_t: 1. */
  lemma NegatedLargest(s: string)
    requires LeadingMinus(s) && |Numeral(s)| > 0 && DigitsValue(Numeral(s)) == TWO_64 - 1
    ensures ParseInteger(Unsigned, s) == Ok(1)
  {
  }

  /** The integer part checks on 1 read from a '-' text. */
  lemma NegatedPart(c: Config, s: string)
    requires ValidConfig(c) && c.sign == Unsigned
    requires LeadingMinus(s) && ParseInteger(Unsigned, s) == Ok(1)
    ensures WholePart(c, s, AsWritten) == Ok(1)
    ensures WholePart(c, s, Intended) == Err(TooLarge)
  {
    MaxScaledFits(c);
  }

  /** "-0.5" for unsigned storage with two places: only signed storage
      looks for the '-', stoull reads "-0" as 0, and the fraction is added,
      so the text reads as +0.5. The intended reading refuses it. */
  lemma UnsignedMinusFraction()
    ensures Readable("-0.5")
    ensures ParseAsWritten(Config(2, Unsigned, Current), "-0.5") == Ok(50)
    ensures Parse(Config(2, Unsigned, Current), "-0.5") == Err(TooLarge)
  {
    var c, s, head := Config(2, Unsigned, Current), "-0.5", "-0";
    HalfText(head, s);
    MinusZero(c.sign, head);
    assert ParseWith(c, s, AsWritten) == Ok(50) by {
      ZeroHalf(c, s, head, AsWritten);
      assert !Negative(c, head, AsWritten);
      assert Combine(c, 0, 50, false, AsWritten) == Ok(50);
    }
    assert ParseWith(c, s, Intended) == Err(TooLarge) by {
      ZeroHalf(c, s, head, Intended);
      assert Negative(c, head, Intended);
      assert Combine(c, 0, 50, true, Intended) == Err(TooLarge);
    }
  }

  /** " -0.5" for signed storage with two places: the '-' is looked for in
      the first character only, so the white space hides it from the
      combination while stoll reads "-0" as 0; the text reads as +0.5. The
      intended reading takes the sign stoll sees: -0.5. */
  lemma SpacedMinusFraction()
    ensures Readable(" -0.5")
    ensures ParseAsWritten(Config(2, Signed, Current), " -0.5") == Ok(50)
    ensures Parse(Config(2, Signed, Current), " -0.5") == Ok(-50)
  {
    var c := Config(2, Signed, Current);
    SpacedHalf(c, AsWritten);
    SpacedHalf(c, Intended);
  }

  /** " -0.5" under either reading: the integer part 0 and the fraction 50,
      negated only when the reading sees the '-' after the space. */
  lemma SpacedHalf(c: Config, reading: Reading)
    requires c == Config(2, Signed, Current)
    ensures Readable(" -0.5")
    ensures ParseWith(c, " -0.5", reading) == if reading == Intended then Ok(-50) else Ok(50)
  {
    var s, head := " -0.5", " -0";
    HalfText(head, s);
    MinusZero(c.sign, head);
    ZeroHalf(c, s, head, reading);
    HalfCombined(c, Negative(c, head, reading), reading);
    assert Negative(c, head, reading) == (reading == Intended);
  }

  /** The integer part 0 and the fraction 50 with two signed places. */
  lemma HalfCombined(c: Config, negative: bool, reading: Reading)
    requires c == Config(2, Signed, Current)
    ensures Combine(c, 0, 50, negative, reading) == if negative then Ok(-50) else Ok(50)
  {
    assert Scale(c) == 100;
  }

  /** head + ".5" with two places, where head reads as the integer 0: the
      integer part 0 and the fraction 50 are combined on the side the
      reading takes head for. */
  lemma ZeroHalf(c: Config, s: string, head: string, reading: Reading)
    requires ValidConfig(c) && c.places == 2 && |head| >= 2
    requires Readable(s) && Find(s, '.') == Some(|head|)
    requires s[..|head|] == head && s[|head| + 1..] == "5"
    requires ParseInteger(c.sign, head) == Ok(0)
    ensures ParseWith(c, s, reading) == Combine(c, 0, 50, Negative(c, head, reading), reading)
  {
    ZeroWhole(c, head, reading);
    HalfFraction(c.sign);
    PointRead(c, s, head, "5", reading, 0, 50);
  }

  /** A text split at its first point into head and tail reads as the
      combination of head's integer part and tail's fraction. */
  lemma PointRead(c: Config, s: string, head: string, tail: string, reading: Reading, i: int, f: int)
    requires ValidConfig(c) && Readable(s) && Find(s, '.') == Some(|head|)
    requires s[..|head|] == head && s[|head| + 1..] == tail
    requires PointWhole(c, head, reading) == Ok(i)
    requires ParseInteger(c.sign, FractionText(tail, c.places)) == Ok(f)
    ensures ParseWith(c, s, reading) == Combine(c, i, f, Negative(c, head, reading), reading)
  {
    PointSplit(c, s, |head|, reading);
    PointValue(c, head, tail, reading, i, f);
  }

  /** A head that reads as the integer 0 gives the integer part 0. */
  lemma ZeroWhole(c: Config, head: string, reading: Reading)
    requires ValidConfig(c) && |head| >= 2
    requires ParseInteger(c.sign, head) == Ok(0)
    ensures PointWhole(c, head, reading) == Ok(0)
  {
    MaxIntPartFits(c);
    PointWholeAccepted(c, head, reading, 0);
  }

  /** A text with a point is read in two parts around the first one. */
  lemma PointSplit(c: Config, s: string, period: nat, reading: Reading)
    requires ValidConfig(c) && Readable(s) && Find(s, '.') == Some(period)
    ensures ParseWith(c, s, reading) == ParsePoint(c, s[..period], s[period + 1..], reading)
  {
  }

  /** The point branch once the integer part and the fraction are read. */
  lemma PointValue(c: Config, head: string, tail: string, reading: Reading, i: int, f: int)
    requires ValidConfig(c) && PointWhole(c, head, reading) == Ok(i)
    requires ParseInteger(c.sign, FractionText(tail, c.places)) == Ok(f)
    ensures ParsePoint(c, head, tail, reading) == Combine(c, i, f, Negative(c, head, reading), reading)
  {
  }

  /** The fraction digits of ".5" with two places: "50". */
  lemma HalfFraction(sign: Signedness)
    ensures ParseInteger(sign, FractionText("5", 2)) == Ok(50)
  {
    var f := FractionText("5", 2);
    assert f == "50";
    DigitsAreNumeral(f);
    assert DigitsValue(f) == 50 by {
      assert f[..1] == "5";
    }
  }

  /** head + ".5", with no point or exponent letter in head. */
  lemma HalfText(head: string, s: string)
    requires s == head + ".5" && (head == "-0" || head == " -0")
    ensures Readable(s) && Find(s, '.') == Some(|head|)
    ensures s[..|head|] == head && s[|head| + 1..] == "5"
  {
    assert '.' !in head;
    FindAfter(head, "5");
    assert s[..|head|] == head && s[|head| + 1..] == "5";
    forall j | 0 <= j < |s|
      ensures s[j] != 'e' && s[j] != 'E'
    {
      if j < |head| {
        assert s[j] == head[j];
      }
    }
  }

  /** "-0", possibly after white space: a '-' and the numeral 0. */
  lemma MinusZero(sign: Signedness, head: string)
    requires head == "-0" || head == " -0"
    ensures LeadingMinus(head) && ParseInteger(sign, head) == Ok(0)
  {
    var k := |head| - 2;
    assert SpaceRun(head) == k by {
      if k == 1 {
        assert head[1..] == "-0";
      }
    }
    assert head[k..] == "-0";
    MinusNumeral("0");
    assert DigitsValue("0") == 0 by {
      assert "0"[..0] == [];
    }
  }

  /** A numeral without sign or point: within MAX's integer part it reads
      as the number times scale, above it as TooLarge, under either
      reading. */
  lemma IntegerText(c: Config, n: nat, s: string, reading: Reading)
    requires ValidConfig(c) && s == Show(n) && n <= IntMax(c.sign)
    ensures Readable(s)
    ensures ParseWith(c, s, reading) == if n <= MaxIntPart(c) then Ok(n * Scale(c)) else Err(TooLarge)
  {
    PlainShow(c.sign, n, s);
    if n <= MaxIntPart(c) {
      IntegerTextOk(c, n, s, reading);
    } else {
      WholeRefused(c, s, reading, n);
      NoPointErr(c, s, reading);
    }
  }

  lemma IntegerTextOk(c: Config, n: nat, s: string, reading: Reading)
    requires ValidConfig(c) && n <= MaxIntPart(c)
    requires Readable(s) && Find(s, '.') == None
    requires !LeadingMinus(s) && ParseInteger(c.sign, s) == Ok(n)
    ensures ParseWith(c, s, reading) == Ok(n * Scale(c))
  {
    assert WholePart(c, s, reading) == Ok(n) by {
      MaxIntPartFits(c);
      WholeAccepted(c, s, reading, n);
    }
    assert InNative(c.sign, n * Scale(c)) by {
      ScaledFits(c, n);
    }
    NoPointFits(c, s, reading, n);
  }

  /** The digits of n alone: no point, no exponent, and read as n. */
  lemma PlainShow(sign: Signedness, n: nat, s: string)
    requires s == Show(n) && n <= IntMax(sign)
    ensures Readable(s) && Find(s, '.') == None
    ensures !LeadingMinus(s) && ParseInteger(sign, s) == Ok(n)
  {
    ShowValue(n);
    Pow10Values();
    Pow10Add(19, 1);
    ShowLength(n, 20);
    assert "" + s == s;
    NumeralText("", s);
    DigitsAreNumeral(s);
    ParseDigits(sign, s);
  }

  /** '-' and a numeral below 2^63, for signed storage: within MAX's
      integer part it reads as minus the number times scale, above it as
      TooLarge, under either reading. */
  lemma NegativeIntegerText(c: Config, n: nat, s: string, reading: Reading)
    requires ValidConfig(c) && c.sign == Signed && s == "-" + Show(n) && n < TWO_63
    ensures Readable(s)
    ensures ParseWith(c, s, reading)
      == if n <= MaxIntPart(c) then Ok(-(n as int) * Scale(c)) else Err(TooLarge)
  {
    assert Readable(s) && Find(s, '.') == None && LeadingMinus(s) && |Numeral(s)| > 0
        && DigitsValue(Numeral(s)) == n by {
      MinusShow(n, s);
    }
    SignedNegation(s, n);
    if n <= MaxIntPart(c) {
      NegativeIntegerTextOk(c, n, s, reading);
    } else {
      WholeRefused(c, s, reading, -(n as int));
      NoPointErr(c, s, reading);
    }
  }

  lemma NegativeIntegerTextOk(c: Config, n: nat, s: string, reading: Reading)
    requires ValidConfig(c) && c.sign == Signed && n <= MaxIntPart(c)
    requires Readable(s) && Find(s, '.') == None
    requires ParseInteger(Signed, s) == Ok(-(n as int))
    ensures ParseWith(c, s, reading) == Ok(-(n as int) * Scale(c))
  {
    var i := -(n as int);
    assert WholePart(c, s, reading) == Ok(i) by {
      MaxIntPartFits(c);
      WholeAccepted(c, s, reading, i);
    }
    assert InNative(c.sign, i * Scale(c)) by {
      ScaledFits(c, n);
    }
    NoPointFits(c, s, reading, i);
  }

  /** stoll on '-' and a numeral below 2^63: its negation. */
  lemma SignedNegation(s: string, n: nat)
    requires LeadingMinus(s) && |Numeral(s)| > 0 && DigitsValue(Numeral(s)) == n && n < TWO_63
    ensures ParseInteger(Signed, s) == Ok(-(n as int))
  {
  }

  /** '-' and a nonzero numeral, for unsigned storage, where stoull's
      negation modulo 2^64 lands above MAX's integer part: TooLarge under
      either reading. */
  lemma UnsignedNegativeText(c: Config, n: nat, s: string, reading: Reading)
    requires ValidConfig(c) && c.sign == Unsigned && s == "-" + Show(n)
    requires 0 < n < TWO_64 && TWO_64 - n > MaxIntPart(c)
    ensures Readable(s)
    ensures ParseWith(c, s, reading) == Err(TooLarge)
  {
    assert Readable(s) && Find(s, '.') == None && LeadingMinus(s)
        && DigitsValue(Numeral(s)) == n by {
      MinusShow(n, s);
    }
    UnsignedNegation(s, n);
    WholeRefused(c, s, reading, TWO_64 - n);
    NoPointErr(c, s, reading);
  }

  /** stoull on '-' and a nonzero numeral: its negation modulo 2^64. */
  lemma UnsignedNegation(s: string, n: nat)
    requires LeadingMinus(s) && |Numeral(s)| > 0 && DigitsValue(Numeral(s)) == n && 0 < n < TWO_64
    ensures ParseInteger(Unsigned, s) == Ok(TWO_64 - n)
  {
  }

  /** An integer part parseInteger reads within MAX's integer part passes
      the TooLarge check. */
  lemma WholeAccepted(c: Config, s: string, reading: Reading, i: int)
    requires ValidConfig(c) && ParseInteger(c.sign, s) == Ok(i)
    requires Abs(i) <= MaxIntPart(c) && (c.sign == Signed ==> MaxIntPart(c) < TWO_63)
    requires c.sign == Unsigned ==> !LeadingMinus(s) || i == 0
    ensures WholePart(c, s, reading) == Ok(i)
  {
    assert !WholeTooLarge(c, s, i, reading);
  }

  /** An integer part above MAX's integer part fails the TooLarge check. */
  lemma WholeRefused(c: Config, s: string, reading: Reading, i: int)
    requires ValidConfig(c) && ParseInteger(c.sign, s) == Ok(i)
    requires i > MaxIntPart(c) || (c.sign == Signed && -TWO_63 < i < -(MaxIntPart(c) as int))
    ensures WholePart(c, s, reading) == Err(TooLarge)
  {
  }

  /** n scaled, for n within MAX's integer part, is within MIN..MAX and
      fits the native type on either side of zero. */
  lemma ScaledFits(c: Config, n: nat)
    requires ValidConfig(c) && n <= MaxIntPart(c)
    ensures InNative(c.sign, n * Scale(c))
    ensures c.sign == Signed ==> InNative(c.sign, -(n as int) * Scale(c))
  {
    MaxIntPartScaled(c);
    MaxScaledFits(c);
    ProductFits(c.sign, n, MaxIntPart(c), Scale(c), MaxScaled(c));
  }

  /** n * s for n <= m, where m * s + s - 1 is a bound that fits with its
      negation: fits with its negation. */
  lemma ProductFits(sign: Signedness, n: int, m: int, s: int, top: int)
    requires 0 <= n <= m && s > 0 && m * s + s - 1 == top
    requires InNative(sign, top) && (sign == Signed ==> InNative(sign, -(top as int)))
    ensures InNative(sign, n * s)
    ensures sign == Signed ==> InNative(sign, -(n as int) * s)
  {
    ProductBelow(n, m, s, top);
  }

  /** n * s for n <= m, where m * s + s - 1 == top: between 0 and top, and
      its negation is -n * s. */
  lemma ProductBelow(n: int, m: int, s: int, top: int)
    requires 0 <= n <= m && s > 0 && m * s + s - 1 == top
    ensures 0 <= n * s <= top && -n * s == -(n * s)
  {
    MulLe(s, n, m);
    MulLe(s, 0, n);
  }

  /** A text with no digit where the integer parser starts: invalid. */
  lemma NoNumeralText(c: Config, s: string, reading: Reading)
    requires ValidConfig(c) && Readable(s) && Find(s, '.') == None && |Numeral(s)| == 0
    ensures ParseWith(c, s, reading) == Err(InvalidInput)
  {
    assert WholePart(c, s, reading) == Err(InvalidInput);
    NoPointErr(c, s, reading);
  }

  /** U8 reads "12345678901" as 12345678901, eleven digits being its
      integer part's width. */
  lemma U8ReadsEleven()
    ensures Readable("12345678901") && Parse(Config(8, Unsigned, Current), "12345678901") == Ok(1_234_567_890_100_000_000)
  {
    var c, s := Config(8, Unsigned, Current), "12345678901";
    assert Scale(c) == 100_000_000 && MaxIntPart(c) == 99_999_999_999 by {
      EightPlaces(c);
    }
    assert s == Show(12345678901) by {
      ShowEleven();
    }
    IntegerText(c, 12345678901, s, Intended);
  }

  /** U8 refuses "123456789012", one digit past its integer part. */
  lemma U8RefusesTwelve()
    ensures Readable("123456789012") && Parse(Config(8, Unsigned, Current), "123456789012") == Err(TooLarge)
  {
    var c, s := Config(8, Unsigned, Current), "123456789012";
    assert MaxIntPart(c) == 99_999_999_999 by {
      EightPlaces(c);
    }
    assert s == Show(123456789012) by {
      ShowTwelve();
    }
    IntegerText(c, 123456789012, s, Intended);
  }

  /** U8 refuses "-12345678901" under the intended reading: stoull wraps it
      far above MAX. */
  lemma U8NegativeExample()
    ensures Readable("-12345678901") && Parse(Config(8, Unsigned, Current), "-12345678901") == Err(TooLarge)
  {
    var c, s := Config(8, Unsigned, Current), "-12345678901";
    assert MaxIntPart(c) == 99_999_999_999 by {
      EightPlaces(c);
    }
    assert s == "-" + Show(12345678901) by {
      MinusShowEleven();
    }
    UnsignedNegativeText(c, 12345678901, s, Intended);
  }

  /** The code as written refuses "-12345678901" for U8 as well. */
  lemma U8NegativeAsWritten()
    ensures ParseAsWritten(Config(8, Unsigned, Current), "-12345678901") == Err(TooLarge)
  {
    var c, s := Config(8, Unsigned, Current), "-12345678901";
    assert MaxIntPart(c) == 99_999_999_999 by {
      EightPlaces(c);
    }
    assert s == "-" + Show(12345678901) by {
      MinusShowEleven();
    }
    UnsignedNegativeText(c, 12345678901, s, AsWritten);
  }

  /** I8 reads "-1234567890" as -1234567890, ten digits being its integer
      part's width. */
  lemma I8ReadsNegativeTen()
    ensures Readable("-1234567890") && Parse(Config(8, Signed, Current), "-1234567890") == Ok(-123_456_789_000_000_000)
  {
    var c, s := Config(8, Signed, Current), "-1234567890";
    assert Scale(c) == 100_000_000 && MaxIntPart(c) == 9_999_999_999 by {
      EightPlaces(c);
    }
    assert s == "-" + Show(1234567890) by {
      MinusShowTen();
    }
    NegativeIntegerText(c, 1234567890, s, Intended);
  }

  /** I8 refuses "12345678901", one digit past its integer part. */
  lemma I8RefusesEleven()
    ensures Readable("12345678901") && Parse(Config(8, Signed, Current), "12345678901") == Err(TooLarge)
  {
    var c, s := Config(8, Signed, Current), "12345678901";
    assert MaxIntPart(c) == 9_999_999_999 by {
      EightPlaces(c);
    }
    assert s == Show(12345678901) by {
      ShowEleven();
    }
    IntegerText(c, 12345678901, s, Intended);
  }

  /** I8 refuses "-12345678901", one digit past its integer part. */
  lemma I8RefusesNegativeEleven()
    ensures Readable("-12345678901") && Parse(Config(8, Signed, Current), "-12345678901") == Err(TooLarge)
  {
    var c, s := Config(8, Signed, Current), "-12345678901";
    assert MaxIntPart(c) == 9_999_999_999 by {
      EightPlaces(c);
    }
    assert s == "-" + Show(12345678901) by {
      MinusShowEleven();
    }
    NegativeIntegerText(c, 12345678901, s, Intended);
  }

  /** Appending a digit to n appends its character to n's decimal text,
      after any prefix. */
  lemma ShowStep(p: string, n: nat, d: nat, s: string)
    requires 1 <= n && d < 10 && p + Show(n) == s
    ensures p + Show(n * 10 + d) == s + [Digit(d)]
  {
    var m := n * 10 + d;
    assert m / 10 == n && m % 10 == d && m >= 10;
    assert Show(m) == Show(n) + [Digit(d)];
  }

  /** The decimal digits of the numbers of the examples, one digit at a
      time, alone and after a minus sign. */
  lemma ShowTen()
    ensures "" + Show(1234567890) == "1234567890"
  {
    assert "" + Show(1) == "1";
    ShowStep("", 1, 2, "1");
    ShowStep("", 12, 3, "12");
    ShowStep("", 123, 4, "123");
    ShowStep("", 1234, 5, "1234");
    ShowStep("", 12345, 6, "12345");
    ShowStep("", 123456, 7, "123456");
    ShowStep("", 1234567, 8, "1234567");
    ShowStep("", 12345678, 9, "12345678");
    ShowStep("", 123456789, 0, "123456789");
  }

  lemma MinusShowTen()
    ensures "-" + Show(1234567890) == "-1234567890"
  {
    assert "-" + Show(1) == "-1";
    ShowStep("-", 1, 2, "-1");
    ShowStep("-", 12, 3, "-12");
    ShowStep("-", 123, 4, "-123");
    ShowStep("-", 1234, 5, "-1234");
    ShowStep("-", 12345, 6, "-12345");
    ShowStep("-", 123456, 7, "-123456");
    ShowStep("-", 1234567, 8, "-1234567");
    ShowStep("-", 12345678, 9, "-12345678");
    ShowStep("-", 123456789, 0, "-123456789");
  }

  lemma ShowEleven()
    ensures Show(12345678901) == "12345678901"
  {
    ShowTen();
    ShowStep("", 1234567890, 1, "1234567890");
  }

  lemma MinusShowEleven()
    ensures "-" + Show(12345678901) == "-12345678901"
  {
    MinusShowTen();
    ShowStep("-", 1234567890, 1, "-1234567890");
  }

  lemma ShowTwelve()
    ensures Show(123456789012) == "123456789012"
  {
    ShowEleven();
    ShowStep("", 12345678901, 2, "12345678901");
  }

  /** Scale and MAX's integer part with eight places. */
  lemma EightPlaces(c: Config)
    requires c.places == 8
    ensures Scale(c) == 100_000_000
    ensures c.sign == Signed ==> MaxIntPart(c) == 9_999_999_999
    ensures c.sign == Unsigned ==> MaxIntPart(c) == 99_999_999_999
  {
    assert Pow10(8) == 100_000_000 by {
      assert Pow10(4) == 10_000;
      Pow10Add(4, 4);
    }
    assert Pow10(10) == 10_000_000_000 by {
      Pow10Add(8, 2);
    }
    assert Pow10(11) == 100_000_000_000;
  }

  /** ".1" with eight signed places: an empty integer part reads as 0, and
      the fraction digit is padded to 0.10000000. */
  lemma PointTenth()
    ensures Readable(".1") && Parse(Config(8, Signed, Current), ".1") == Ok(10_000_000)
    ensures ParseAsWritten(Config(8, Signed, Current), ".1") == Ok(10_000_000)
  {
    var c, s := Config(8, Signed, Current), ".1";
    assert s == "" + ".1";
    TenthAfter(c, s, "", Intended);
    TenthAfter(c, s, "", AsWritten);
  }

  /** "-.1" with eight signed places: a lone '-' before the point is an
      integer part of 0 on the negative side, under either reading. */
  lemma MinusPointTenth()
    ensures Readable("-.1") && Parse(Config(8, Signed, Current), "-.1") == Ok(-10_000_000)
    ensures ParseAsWritten(Config(8, Signed, Current), "-.1") == Ok(-10_000_000)
  {
    var c, s := Config(8, Signed, Current), "-.1";
    assert s == "-" + ".1";
    TenthAfter(c, s, "-", Intended);
    TenthAfter(c, s, "-", AsWritten);
  }

  /** head + ".1" with eight signed places, where head is empty or a lone
      '-': 0 for the integer part, 10000000 for the fraction, combined on
      the side the '-' gives. */
  lemma TenthAfter(c: Config, s: string, head: string, reading: Reading)
    requires c == Config(8, Signed, Current) && (head == "" || head == "-")
    requires s == head + ".1"
    ensures Readable(s)
    ensures ParseWith(c, s, reading) == Ok(if head == "" then 10_000_000 else -10_000_000)
  {
    TenthShape(s, head);
    TenthFraction(c.sign);
    TenthHead(c, head, reading);
    PointRead(c, s, head, "1", reading, 0, 10_000_000);
    TenthCombined(c, head == "-", reading);
  }

  /** The integer part 0 and the fraction 10000000 with eight signed
      places. */
  lemma TenthCombined(c: Config, negative: bool, reading: Reading)
    requires c == Config(8, Signed, Current)
    ensures Combine(c, 0, 10_000_000, negative, reading)
      == if negative then Ok(-10_000_000) else Ok(10_000_000)
  {
    EightPlaces(c);
  }

  /** An empty integer part, or a lone '-', reads as 0, negative exactly for
      the '-'. */
  lemma TenthHead(c: Config, head: string, reading: Reading)
    requires c == Config(8, Signed, Current) && (head == "" || head == "-")
    ensures Negative(c, head, reading) == (head == "-")
    ensures PointWhole(c, head, reading) == Ok(0)
  {
    assert SpaceRun(head) == 0;
  }

  /** Where the point of head + ".1" sits, and what lies around it. */
  lemma TenthShape(s: string, head: string)
    requires (head == "" || head == "-") && s == head + ".1"
    ensures Readable(s) && Find(s, '.') == Some(|head|)
    ensures s[..|head|] == head && s[|head| + 1..] == "1"
  {
    FindAfter(head, "1");
    assert head + "." + "1" == s;
  }

  /** The fraction digits of ".1" with eight places: "10000000". */
  lemma TenthFraction(sign: Signedness)
    ensures ParseInteger(sign, FractionText("1", 8)) == Ok(10_000_000)
  {
    var f := FractionText("1", 8);
    assert f == Show(10_000_000) by {
      TenthDigits();
      PaddedTenth();
    }
    assert AllDigits(f) && |f| > 0 && DigitsValue(f) == 10_000_000 by {
      ShowValue(10_000_000);
    }
    ParseDigits(sign, f);
  }

  lemma PaddedTenth()
    ensures FractionText("1", 8) == "10000000"
  {
  }

  lemma TenthDigits()
    ensures Show(10_000_000) == "10000000"
  {
    assert Show(1) == "1";
    ShowStep("", 1, 0, "1");
    ShowStep("", 10, 0, "10");
    ShowStep("", 100, 0, "100");
    ShowStep("", 1000, 0, "1000");
    ShowStep("", 10000, 0, "10000");
    ShowStep("", 100000, 0, "100000");
    ShowStep("", 1000000, 0, "1000000");
  }

  /** Texts with no digit where parsing starts, "abc" and ",123456", are
      invalid input. */
  lemma InvalidExamples(c: Config)
    requires ValidConfig(c)
    ensures Readable("abc") && Parse(c, "abc") == Err(InvalidInput)
    ensures Readable(",123456") && Parse(c, ",123456") == Err(InvalidInput)
  {
    NoDigitFirst(c, "abc");
    NoDigitFirst(c, ",123456");
  }

  /** A text whose first character is neither white space, a sign nor a
      digit, with no point or exponent letter. */
  lemma NoDigitFirst(c: Config, s: string)
    requires ValidConfig(c) && (s == "abc" || s == ",123456")
    ensures Readable(s) && ParseWith(c, s, Intended) == Err(InvalidInput)
  {
    assert SpaceRun(s) == 0 && s[0..] == s;
    assert DigitRun(s) == 0;
    assert '.' !in s && 'e' !in s && 'E' !in s;
    NoNumeralText(c, s, Intended);
  }
}

=== FILE: rounding.dfy ===
/** round(n) and convert_precision: rounding a value to fewer places, and
    moving it to a type with a different number of places. */
module Rounding {
  import opened Numbers
  import opened Outcomes
  import opened Native
  import opened Decimals
  import opened Arith
  import opened Construct

  /** round(n): n >= nPlaces keeps the value; n == 0 truncates toward zero to
      a whole number; otherwise the fraction fp % scale is rounded to n places
      half away from zero (half of 10^(nPlaces - n) added on fp's side of
      zero, then divided and multiplied back) and the whole part is added
      back. */
  function Round(c: Config, x: int, n: nat): (r: int)
    requires Operand(c, x)
    ensures InNative(c.sign, r)
    ensures n >= c.places ==> r == x
    ensures n == 0 ==> r % Scale(c) == 0 && TruncatedQuotient(x, Scale(c), r / Scale(c))
    ensures 0 < n < c.places && InNative(c.sign, RoundHalfAway(x, Pow10(c.places - n)) * Pow10(c.places - n)) ==>
      r % Pow10(c.places - n) == 0 && NearestHalfAway(x, Pow10(c.places - n), r / Pow10(c.places - n))
  {
    if n >= c.places then x
    else if n == 0 then
      TruncateToWhole(c, x);
      x - TMod(x, Scale(c))
    else
      RoundBranchNearest(c, x, n);
      Pow10Even(c.places - n);
      RoundedNearest(x, Pow10(c.places - n), RoundHalfAway(x, Pow10(c.places - n)));
      RoundBranch(c, x, n)
  }

  /** round(n) over the whole int range of n. A negative n takes neither
      early return: 10^(nPlaces - n) is read from the power-of-ten table,
      which fails past its end, and half of that power added to fp % scale
      never reaches the power, so the fraction is dropped as by round(0). */
  function RoundAt(c: Config, x: int, n: int): (r: Result<int>)
    requires Operand(c, x) && -0x8000_0000 <= n < 0x8000_0000
    ensures r.Err? <==> n < 0 && c.places - n > TableLast(c.sign)
    ensures r.Err? ==> r.error == InvalidExponent
    ensures n >= 0 ==> r == Ok(Round(c, x, n))
    ensures n < 0 && r.Ok? ==> r.value % Scale(c) == 0 && TruncatedQuotient(x, Scale(c), r.value / Scale(c))
  {
    if n >= 0 then Ok(Round(c, x, n))
    else
      match Pow10Table(c.sign, c.places - n)
      case Err(e) => Err(e)
      case Ok(pow) =>
        var frac := TMod(x, Scale(c));
        FractionBelowPower(c, x, c.places - n);
        TruncateToWhole(c, x);
        var q := TDiv(AddHalf(c, x, frac, pow), pow);
        assert q == 0;
        var dropped := Wrap(c.sign, q * pow);
        assert q * pow == 0 && InNative(c.sign, 0);
        var whole := Wrap(c.sign, (x - frac) + dropped);
        assert whole == x - frac;
        Ok(whole)
  }

  /** For a power of ten past scale, fp % scale biased by half of it stays
      strictly between minus the power and the power, so dividing by the
      power truncating gives zero. */
  lemma FractionBelowPower(c: Config, x: int, k: nat)
    requires Operand(c, x) && c.places < k <= TableLast(c.sign)
    ensures TDiv(AddHalf(c, x, TMod(x, Scale(c)), Pow10(k)), Pow10(k)) == 0
  {
    var s, pow := Scale(c), Pow10(k);
    var frac := TMod(x, s);
    assert Abs(frac) < s && (x >= 0 ==> frac >= 0) && (x < 0 ==> frac <= 0) by {
      TDivMod(x, s);
    }
    assert 10 * s <= pow && pow % 2 == 0 && InNative(c.sign, pow) by {
      PowerPastScale(c, k);
    }
    HalfBiasedDropped(c, x, frac, s, pow);
  }

  /** 10^k for k past nPlaces and within the table: an even native value
      at least ten times scale. */
  lemma PowerPastScale(c: Config, k: nat)
    requires ValidConfig(c) && c.places < k <= TableLast(c.sign)
    ensures 10 * Scale(c) <= Pow10(k) && Pow10(k) % 2 == 0 && InNative(c.sign, Pow10(k))
  {
    Pow10Add(c.places, k - c.places);
    Pow10Even(k - c.places);
    Pow10Even(k);
    TableFits(c.sign, k);
    MulLe(Scale(c), 10, Pow10(k - c.places));
  }

  /** A remainder below s, biased by half of an even native power at least
      10 * s on its side of zero, divides by that power to zero. */
  lemma HalfBiasedDropped(c: Config, x: int, frac: int, s: int, pow: int)
    requires InNative(c.sign, x) && s >= 1 && Abs(frac) < s
    requires (x >= 0 ==> frac >= 0) && (x < 0 ==> frac <= 0)
    requires 10 * s <= pow && pow % 2 == 0 && InNative(c.sign, pow)
    ensures TDiv(AddHalf(c, x, frac, pow), pow) == 0
  {
    var biased := if x < 0 then frac - pow / 2 else frac + pow / 2;
    assert -pow < biased < pow;
    assert InNative(c.sign, biased) && (c.sign == Unsigned ==> x >= 0);
    assert AddHalf(c, x, frac, pow) == biased;
    assert Abs(biased) / pow == 0 by {
      DivUnique(Abs(biased), pow, 0);
    }
  }

  /** The 0 < n < nPlaces branch of round, step by step as the native code
      computes it: frac = fp % scale, half of 10^(nPlaces - n) added on fp's
      side, truncated to a multiple of that power, added back to fp - frac. */
  function RoundBranch(c: Config, x: int, n: nat): (r: int)
    requires Operand(c, x) && 0 < n < c.places
    ensures InNative(c.sign, r)
  {
    var frac := TMod(x, Scale(c));
    var pow := Pow10(c.places - n);
    var rounded := Wrap(c.sign, TDiv(AddHalf(c, x, frac, pow), pow) * pow);
    Wrap(c.sign, (x - frac) + rounded)
  }

  /** frac plus half of pow, natively: subtracted when signed storage holds
      a negative fp, added otherwise. */
  function AddHalf(c: Config, x: int, frac: int, pow: int): (r: int)
    ensures InNative(c.sign, r)
    ensures (c.sign == Unsigned ==> x >= 0) && InNative(c.sign, if x < 0 then frac - pow / 2 else frac + pow / 2) ==>
      r == if x < 0 then frac - pow / 2 else frac + pow / 2
  {
    if c.sign == Signed then
      (if x < 0 then Wrap(c.sign, frac - pow / 2) else Wrap(c.sign, frac + pow / 2))
    else Wrap(c.sign, frac + pow / 2)
  }

  /** fp - fp % scale is the whole part, truncated toward zero. */
  lemma TruncateToWhole(c: Config, x: int)
    requires Operand(c, x)
    ensures InNative(c.sign, x - TMod(x, Scale(c)))
    ensures (x - TMod(x, Scale(c))) % Scale(c) == 0
    ensures TruncatedQuotient(x, Scale(c), (x - TMod(x, Scale(c))) / Scale(c))
  {
    var s := Scale(c);
    var q := TDiv(x, s);
    TDivMod(x, s);
    TDivIsTruncated(x, s);
    TDivShrinks(x, s);
    assert x - TMod(x, s) == q * s;
    assert (q * s) / s == q && (q * s) % s == 0 by {
      DivUnique(q * s, s, q);
    }
    AbsMul(q, s);
    MulLe(Abs(q), 1, s);
  }

  /** When the rounded result fits, the branch computes x rounded half away
      from zero to a multiple of 10^(nPlaces - n). */
  lemma RoundBranchNearest(c: Config, x: int, n: nat)
    requires Operand(c, x) && 0 < n < c.places
    ensures InNative(c.sign, RoundHalfAway(x, Pow10(c.places - n)) * Pow10(c.places - n)) ==>
      RoundBranch(c, x, n) == RoundHalfAway(x, Pow10(c.places - n)) * Pow10(c.places - n)
  {
    var s, pow := Scale(c), Pow10(c.places - n);
    var frac := TMod(x, s);
    PowSplit(c, n);
    var rf := RoundHalfAway(frac, pow);
    RoundedFraction(c, x, pow);
    assert TDiv(AddHalf(c, x, frac, pow), pow) * pow == rf * pow;
    WholeRounds(x, s, pow, Pow10(n));
  }

  /** 10^(nPlaces - n) is an even power below scale, and scale is it times
      10^n. */
  lemma PowSplit(c: Config, n: nat)
    requires ValidConfig(c) && 0 < n < c.places
    ensures var pow := Pow10(c.places - n);
      Scale(c) == pow * Pow10(n) && pow >= 2 && pow % 2 == 0 && pow < Scale(c)
  {
    var k := c.places - n;
    Pow10Even(k);
    Pow10Add(k, n);
    Pow10Monotone(k + 1, c.places);
    assert Pow10(k + 1) == 10 * Pow10(k);
  }

  /** The biased remainder does not wrap, and dividing it by pow truncating
      rounds fp % scale half away from zero, to a multiple that fits. */
  lemma RoundedFraction(c: Config, x: int, pow: int)
    requires Operand(c, x) && pow >= 2 && pow % 2 == 0 && pow < Scale(c)
    ensures var frac := TMod(x, Scale(c));
      && TDiv(AddHalf(c, x, frac, pow), pow) == RoundHalfAway(frac, pow)
      && InNative(c.sign, RoundHalfAway(frac, pow) * pow)
  {
    var s := Scale(c);
    var frac := TMod(x, s);
    TDivMod(x, s);
    ScaleRoom(c);
    var exact := if x < 0 then frac - pow / 2 else frac + pow / 2;
    assert InNative(c.sign, exact);
    assert AddHalf(c, x, frac, pow) == exact;
    SideBiasedDivision(x, frac, pow);
    RoundedBound(frac, pow, RoundHalfAway(frac, pow));
  }

  /** fp - fp % scale plus fp % scale rounded to a multiple of pow is fp
      rounded to a multiple of pow: the whole part is already one. */
  lemma WholeRounds(x: int, s: int, pow: int, m: int)
    requires pow >= 1 && m >= 1 && s == pow * m
    ensures x - TMod(x, s) + RoundHalfAway(TMod(x, s), pow) * pow == RoundHalfAway(x, pow) * pow
  {
    var frac := TMod(x, s);
    var w := TDiv(x, s) * m;
    TDivMod(x, s);
    WholeOnSide(x, s, m);
    RegroupWhole(TDiv(x, s), pow, m);
    assert x == w * pow + frac;
    RoundShift(w, frac, pow);
    Distribute(w, RoundHalfAway(frac, pow), pow);
  }

  lemma RegroupWhole(q: int, pow: int, m: int)
    ensures q * (pow * m) == (q * m) * pow
  {
  }

  lemma Distribute(w: int, r: int, pow: int)
    ensures (w + r) * pow == w * pow + r * pow
  {
  }

  /** Ten times scale still fits under MAX's scaled bound, which fits the
      native type. */
  lemma ScaleRoom(c: Config)
    requires ValidConfig(c)
    ensures 10 * Scale(c) <= MaxScaled(c) + 1
    ensures InNative(c.sign, MaxScaled(c))
    ensures c.sign == Signed ==> InNative(c.sign, -(MaxScaled(c) as int))
  {
    MaxScaledFits(c);
    Pow10Monotone(c.places + 1, Digits10(c.sign));
  }

  /** The rounded multiple of pow is within half of pow of the value, and on
      its side of zero. */
  lemma RoundedBound(frac: int, pow: int, rf: int)
    requires pow >= 2 && rf == RoundHalfAway(frac, pow)
    ensures 2 * Abs(rf * pow) <= 2 * Abs(frac) + pow
    ensures frac >= 0 ==> rf * pow >= 0
    ensures frac <= 0 ==> rf * pow <= 0
  {
    RoundHalfAwayIsNearest(frac, pow);
    HalfAwayBound(frac, rf * pow, pow);
    RoundHalfAwaySign(frac, pow);
    AbsMul(rf, pow);
  }

  lemma HalfAwayBound(a: int, p: int, d: int)
    requires 2 * Abs(a - p) <= d
    ensures 2 * Abs(p) <= 2 * Abs(a) + d
  {
  }

  /** Rounding never moves a value across zero. */
  lemma RoundHalfAwaySign(num: int, den: int)
    requires den > 0
    ensures num >= 0 ==> RoundHalfAway(num, den) >= 0
    ensures num <= 0 ==> RoundHalfAway(num, den) <= 0
  {
    assert (2 * Abs(num) + den) / (2 * den) >= 0;
  }

  /** Adding half of pow on x's side of zero to a remainder on x's side and
      truncating is rounding the remainder half away from zero. */
  lemma SideBiasedDivision(x: int, frac: int, pow: int)
    requires pow >= 2 && pow % 2 == 0
    requires (x >= 0 ==> frac >= 0) && (x < 0 ==> frac <= 0)
    ensures TDiv(if x < 0 then frac - pow / 2 else frac + pow / 2, pow) == RoundHalfAway(frac, pow)
  {
    BiasedDivision(frac, pow);
    if x < 0 && frac == 0 {
      assert Abs(-(pow / 2)) / pow == 0;
    }
  }

  /** fp / scale times m lies on fp % scale's side of zero. */
  lemma WholeOnSide(x: int, s: int, m: int)
    requires s > 0 && m > 0
    ensures var w, frac := TDiv(x, s) * m, TMod(x, s); (w >= 0 && frac >= 0) || (w <= 0 && frac <= 0)
  {
    TDivShrinks(x, s);
    TDivMod(x, s);
    AbsMul(TDiv(x, s), m);
  }

  /** A multiple q * pow that fits is divisible by pow and divides back to q,
      which is the nearest quotient. */
  lemma RoundedNearest(x: int, pow: int, q: int)
    requires pow >= 2
    requires q == RoundHalfAway(x, pow)
    ensures (q * pow) % pow == 0 && (q * pow) / pow == q
    ensures NearestHalfAway(x, pow, q)
  {
    DivUnique(q * pow, pow, q);
    RoundHalfAwayIsNearest(x, pow);
  }

  /** Rounding an already rounded value changes nothing, whenever the first
      rounding fits. */
  lemma RoundIdempotent(c: Config, x: int, n: nat)
    requires Operand(c, x)
    requires 0 < n < c.places ==>
      InNative(c.sign, RoundHalfAway(x, Pow10(c.places - n)) * Pow10(c.places - n))
    ensures Round(c, Round(c, x, n), n) == Round(c, x, n)
  {
    var y := Round(c, x, n);
    if n == 0 {
      MultipleHasNoRemainder(y, Scale(c));
    } else if n < c.places {
      RoundKeepsMultiple(c, y, n);
    }
  }

  /** A multiple of 10^(nPlaces - n) passes round(n) unchanged. */
  lemma RoundKeepsMultiple(c: Config, y: int, n: nat)
    requires Operand(c, y) && 0 < n < c.places && y % Pow10(c.places - n) == 0
    ensures Round(c, y, n) == y
  {
    var pow := Pow10(c.places - n);
    MultipleIsNearest(y, pow);
    assert InNative(c.sign, RoundHalfAway(y, pow) * pow);
    NearestOnGrid(y, pow, Round(c, y, n));
  }

  /** The only multiple of pow nearest to a multiple of pow is itself. */
  lemma NearestOnGrid(y: int, pow: int, z: int)
    requires pow > 0 && y % pow == 0
    requires z % pow == 0 && NearestHalfAway(y, pow, z / pow)
    ensures z == y
  {
    MultipleIsNearest(y, pow);
    RoundedNearestUnique(y, pow, z / pow, y / pow);
    DivBounds(z, pow);
  }

  /** A multiple of pow is its own nearest multiple. */
  lemma MultipleIsNearest(y: int, pow: int)
    requires pow > 0 && y % pow == 0
    ensures y == (y / pow) * pow
    ensures RoundHalfAway(y, pow) == y / pow && NearestHalfAway(y, pow, y / pow)
  {
    var q := y / pow;
    DivBounds(y, pow);
    assert y - q * pow == 0;
    NearestHalfAwayUnique(y, pow, q);
  }

  lemma MultipleHasNoRemainder(y: int, s: int)
    requires s > 0 && y % s == 0
    ensures TMod(y, s) == 0
  {
    DivBounds(y, s);
    var k := y / s;
    assert y == k * s;
    AbsMul(k, s);
    assert Abs(y) == Abs(k) * s;
    DivUnique(Abs(y), s, Abs(k));
  }

  lemma ScaleEight()
    ensures Scale(Config(8, Signed, Current)) == 100_000_000
  {
    assert Pow10(8) == 100_000_000;
  }

  /** 1.12345 with 8 signed places rounds to 1.1235 at four places and 1.12
      at two; -1.12345 rounds to -1.1235. */
  lemma RoundExamples()
    ensures Round(Config(8, Signed, Current), 112_345_000, 4) == 112_350_000
    ensures Round(Config(8, Signed, Current), -112_345_000, 4) == -112_350_000
    ensures Round(Config(8, Signed, Current), 112_345_000, 2) == 112_000_000
  {
    ScaleEight();
    var c := Config(8, Signed, Current);
    assert Pow10(4) == 10_000 && Pow10(6) == 1_000_000;
    assert TMod(112_345_000, 100_000_000) == 12_345_000;
    assert TMod(-112_345_000, 100_000_000) == -12_345_000;
  }

  /** -0.0001234 rounds to 0 at two places; 123456789.98765432 rounds to
      123456789.988 at three and 123456789 at none. */
  lemma RoundMoreExamples()
    ensures Round(Config(8, Signed, Current), -12_340, 2) == 0
    ensures Round(Config(8, Signed, Current), 12_345_678_998_765_432, 3) == 12_345_678_998_800_000
    ensures Round(Config(8, Signed, Current), 12_345_678_998_765_432, 0) == 12_345_678_900_000_000
  {
    ScaleEight();
    assert Pow10(5) == 100_000 && Pow10(6) == 1_000_000;
    assert TMod(-12_340, 100_000_000) == -12_340;
    assert TMod(12_345_678_998_765_432, 100_000_000) == 98_765_432;
  }

  /** The type convert_precision<toPlaces>() returns: the same signedness in
      the current header; the snapshot names Decimal<toPlaces>, whose
      signedness defaults to unsigned. */
  function TargetConfig(c: Config, t: nat): Config {
    if c.header == Current then Config(t, c.sign, Current) else Config(t, Unsigned, Snapshot)
  }

  /** convert_precision<toPlaces>(): the same places copy fp; fewer places
      pass div(fp, scale), which is fp itself, to the target's newI with the
      source's places, rounding the dropped digits half away from zero; more
      places multiply by 10^(toPlaces - nPlaces) after checking the native
      bounds (only the upper one in the snapshot). The snapshot's copy and
      widening do not compile for a signed source: the copy constructor takes
      an unsigned Decimal, and an int64_t argument is ambiguous between the
      uint64_t and double constructors. */
  function ConvertPrecision(c: Config, x: int, t: nat): (r: Result<int>)
    requires Operand(c, x) && ValidConfig(TargetConfig(c, t))
    requires c.header == Snapshot && c.sign == Signed ==> t < c.places
    ensures r.Ok? ==> InNative(TargetConfig(c, t).sign, r.value)
    ensures r.Err? ==> r.error == Overflow
    ensures t == c.places ==> r == Ok(x)
    ensures t > c.places ==>
      && (r.Ok? <==> InNative(c.sign, x * Pow10(t - c.places)))
      && (r.Ok? ==> r.value == x * Pow10(t - c.places))
    ensures t < c.places ==> r.Ok?
    ensures t < c.places && InNative(TargetConfig(c, t).sign, x)
              && InNative(TargetConfig(c, t).sign, Biased(x, Pow10(c.places - t))) ==>
      NearestHalfAway(x, Pow10(c.places - t), r.value)
  {
    var target := TargetConfig(c, t);
    if t == c.places then Ok(x)
    else if t < c.places then
      DivByScaleAsWritten(c, x);
      var q := DivAsWritten(c, x, Scale(c)).value;
      TableFits(target.sign, c.places - t);
      // the quotient is passed as the target's IntType
      NewI(target, Wrap(target.sign, q), c.places)
    else
      var factor := Pow10(t - c.places);
      WideningGuard(c.sign, x, factor);
      if x > TDiv(IntMax(c.sign), factor) then Err(Overflow)
      else if c.header == Current && c.sign == Signed && x < TDiv(IntMin(c.sign), factor) then Err(Overflow)
      else Ok(Wrap(target.sign, x * factor))
  }

  /** div(fp, scale) returns fp: fp * scale / scale is exact and cannot trip
      the overflow check. */
  lemma DivByScaleAsWritten(c: Config, x: int)
    requires Operand(c, x)
    ensures DivAsWritten(c, x, Scale(c)) == Ok(x)
  {
    var s := Scale(c);
    assert x * s - x * s == 0;
    assert NearestHalfAway(x * s, s, x);
    NearestHalfAwayUnique(x * s, s, x);
    DivAgreesInRange(c, x, s);
    DivByScale(c, x);
  }

  /** The widening checks fp > max / factor and fp < min / factor, with C++
      truncating division, reject exactly the values whose product with
      factor leaves the native range. */
  lemma WideningGuard(sign: Signedness, x: int, f: int)
    requires f > 0 && InNative(sign, x)
    ensures (x > TDiv(IntMax(sign), f) || (sign == Signed && x < TDiv(IntMin(sign), f)))
            <==> !InNative(sign, x * f)
  {
    TDivNonNegative(IntMax(sign), f);
    AboveQuotient(x, IntMax(sign), f);
    if sign == Signed {
      LowerGuard(x, f);
    } else {
      AbsMul(x, f);
    }
  }

  lemma LowerGuard(x: int, f: int)
    requires f > 0
    ensures x < TDiv(-TWO_63, f) <==> x * f < -TWO_63
  {
    TDivNonNegative(TWO_63, f);
    assert TDiv(-TWO_63, f) == -(TWO_63 / f);
    AboveQuotient(-x, TWO_63, f);
    assert (-x) * f == -(x * f);
  }

  lemma AboveQuotient(y: int, m: int, f: int)
    requires m >= 0 && f > 0
    ensures y > m / f <==> y * f > m
  {
    DivBounds(m, f);
    MulStrict(f, m / f, y);
    MulStrict(f, y, m / f + 1);
  }

  /** Widening and narrowing back is the identity: a value moved to more
      places, whose product stays within MAX, converts back to itself. */
  lemma WidenThenNarrow(c: Config, x: int, t: nat)
    requires Operand(c, x) && c.header == Current && c.places < t < Digits10(c.sign)
    requires WithinBounds(TargetConfig(c, t), x * Pow10(t - c.places))
    ensures ConvertPrecision(c, x, t).Ok?
    ensures ConvertPrecision(TargetConfig(c, t), ConvertPrecision(c, x, t).value, c.places) == Ok(x)
  {
    var f, target := Pow10(t - c.places), TargetConfig(c, t);
    assert TargetConfig(target, c.places) == c;
    var y := x * f;
    WidenedFits(c, x, t, y);
    assert ConvertPrecision(c, x, t) == Ok(y);
    NarrowExact(target, y, c.places, x);
  }

  /** Narrowing an exact multiple of the dropped power of ten, whose biased
      value fits, returns the quotient. */
  lemma NarrowExact(c: Config, y: int, t: nat, x: int)
    requires Operand(c, y) && ValidConfig(TargetConfig(c, t)) && t < c.places
    requires c.header == Current && y == x * Pow10(c.places - t)
    requires InNative(c.sign, Biased(y, Pow10(c.places - t)))
    ensures ConvertPrecision(c, y, t) == Ok(x)
  {
    var f := Pow10(c.places - t);
    ExactNearest(x, f, y);
    var r := ConvertPrecision(c, y, t);
    RoundedNearestUnique(y, f, r.value, x);
  }

  /** A widened value within MAX, and that value biased by half of the
      factor, both fit the native type. */
  lemma WidenedFits(c: Config, x: int, t: nat, y: int)
    requires ValidConfig(c) && c.places < t < Digits10(c.sign)
    requires y == x * Pow10(t - c.places) && WithinBounds(TargetConfig(c, t), y)
    requires c.header == Current
    ensures InNative(c.sign, y) && InNative(c.sign, Biased(y, Pow10(t - c.places)))
  {
    MaxScaledFits(TargetConfig(c, t));
    WideningRoom(c, t);
    assert MaxScaled(TargetConfig(c, t)) == MaxScaled(c);
  }

  /** An exact multiple rounds to its quotient. */
  lemma ExactNearest(x: int, f: int, y: int)
    requires f > 0 && y == x * f
    ensures NearestHalfAway(y, f, x)
  {
    assert y - x * f == 0;
  }

  lemma RoundedNearestUnique(num: int, den: int, r: int, q: int)
    requires den > 0 && NearestHalfAway(num, den, r) && NearestHalfAway(num, den, q)
    ensures r == q
  {
    NearestHalfAwayUnique(num, den, r);
    NearestHalfAwayUnique(num, den, q);
  }

  /** MAX plus half of any factor a widening can use stays native. */
  lemma WideningRoom(c: Config, t: nat)
    requires ValidConfig(c) && c.places < t < Digits10(c.sign)
    ensures MaxScaled(c) + Pow10(t - c.places) / 2 <= IntMax(c.sign)
    ensures c.sign == Signed ==> IntMin(c.sign) <= -(MaxScaled(c) as int) - Pow10(t - c.places) / 2
  {
    Pow10Monotone(t - c.places, Digits10(c.sign) - 2);
    Pow10Values();
    assert Pow10(17) == 100_000_000_000_000_000 by {
      Pow10Add(17, 1);
    }
    assert Pow10(16) == 10_000_000_000_000_000 by {
      Pow10Add(16, 1);
    }
  }

  /** 1.126 with eight unsigned places converts to 1.13 with two. */
  lemma ConvertPrecisionNarrowExample()
    ensures ConvertPrecision(Config(8, Unsigned, Current), 112_600_000, 2) == Ok(113)
  {
    DivByScaleAsWritten(Config(8, Unsigned, Current), 112_600_000);
    assert Pow10(6) == 1_000_000;
    assert NewI(Config(2, Unsigned, Current), 112_600_000, 8) == Ok(113);
  }

  /** -1.125 with three signed places converts to -1.13 with two. */
  lemma ConvertPrecisionSignedExample()
    ensures ConvertPrecision(Config(3, Signed, Current), -1_125, 2) == Ok(-113)
  {
    DivByScaleAsWritten(Config(3, Signed, Current), -1_125);
    assert Pow10(1) == 10;
    assert NewI(Config(2, Signed, Current), -1_125, 3) == Ok(-113);
  }

  /** The snapshot passes a signed source's quotient as uint64_t: -1.00 with
      two signed places narrows to one unsigned place as
      (2^64 - 100 + 5) / 10. */
  lemma SnapshotSignedNarrowWraps()
    ensures ConvertPrecision(Config(2, Signed, Snapshot), -100, 1)
         == Ok((TWO_64 - 100 + 5) / 10)
  {
    DivByScaleAsWritten(Config(2, Signed, Snapshot), -100);
    assert Pow10(1) == 10;
    assert NewI(Config(1, Unsigned, Snapshot), TWO_64 - 100, 2) == Ok((TWO_64 - 95) / 10);
  }

  /** For unsigned storage the two headers convert alike. */
  lemma SnapshotAgreesUnsigned(c: Config, x: int, t: nat)
    requires Operand(c, x) && c.sign == Unsigned && ValidConfig(TargetConfig(c, t))
    ensures ConvertPrecision(c.(header := Snapshot), x, t) == ConvertPrecision(c.(header := Current), x, t)
  {
    var snap, cur := c.(header := Snapshot), c.(header := Current);
    if t < c.places {
      DivByScaleAsWritten(snap, x);
      DivByScaleAsWritten(cur, x);
      NewIHeader(TargetConfig(cur, t), Wrap(Unsigned, x), c.places);
    }
  }

  /** newI does not depend on the header. */
  lemma NewIHeader(c: Config, i: int, n: nat)
    requires Operand(c, i) && n < UINT32_LIMIT
    ensures NewI(c.(header := Snapshot), i, n) == NewI(c, i, n)
  {
    var snap := c.(header := Snapshot);
    if n > c.places {
      if Pow10Table(c.sign, n - c.places).Ok? {
        assert DropDigits(c, i, n - c.places) == DropDigits(snap, i, n - c.places);
      }
    } else {
      assert Scale(c) == Scale(snap);
    }
  }
}
